=== FILE: README.md ===
# legal-rag in Dafny

This project models the core of legal-rag, a retrieval-augmented question
answering system over case law. It covers the two-level chunking of a case,
the indexing of child chunks, retrieval with parent context, prompt
assembly, the evaluation harness, the CI quality gate, the S3 ingestion
chunker and the case-to-PDF layout. Each Python source file has one module:

| module | file | what it holds |
|---|---|---|
| `HierText` | `hier_text.dfy` | `estimate_tokens`, `clean_text`, `split_into_paragraphs` |
| `HierChunking` | `hier_chunking.dfy` | ids, metadata, child packing, `chunk_case`, `format_for_vector_db` |
| `EmbedAndIndex` | `embed_and_index.dfy` | batched embedding, vector metadata, upsert batches, key checks |
| `QueryRag` | `query_rag.dfy` | parent lookup, `search`, prompt, `generate_answer`, `query` |
| `EvaluateRag` | `evaluate_rag.dfy` | per-query metrics, citation extraction, aggregation, P95 |
| `QualityGates` | `quality_gates.dfy` | thresholds, `check_quality_gates`, exit code |
| `IngestPipeline` | `ingest_pipeline.dfy` | `clean_legal_text`, `process_case` |
| `PdfGenerator` | `pdf_generator.dfy` | citation formatting, metadata rows, text cleaning, layout |

Shared modules model Python built-ins the core relies on:
- `Whitespace`: the `str.isspace` set, `strip`, `re.sub(r'\s+', ' ', …)`, `split()` and `join`.
- `SplitJoin`: the equivalence of `' '.join(s.split())` with collapse-then-strip.
- `ReSplit`: `re.split` for the three paragraph patterns.
- `Slices`: Python slice bounds, including negative indices.
- `Decimal`: `str(int)`.
- `Batches`: `range(0, n, b)` batching.
- `CaseRecord`: the raw case JSON.
- `Wrappers`: `Option` and `Result`.

External services are parameters of the functions that call them:
- the MD5 digest;
- the embedding model;
- the vector index query;
- the language model;
- the paragraph splitters of the ingestion pipeline;
- the results-file loader;
- the clock.

A JSON key that the modelled code reads and that may be absent is `None` in
the model. A key read only inside a service that is a parameter keeps a plain
type: the `query` text of a test query is read only by `run_single_query`,
whose outcome is a parameter. Python exceptions the code does not catch are
`Failure` values of a `Result`.

Behaviour of the code that the model keeps as written:
- **P95 method.** The evaluation takes `statistics.quantiles(n=20)[18]`.
  That is the exclusive interpolating method. It needs at least two data
  points and can exceed the largest latency (`EvaluateRag.P95BeyondMaximum`).
- **Child size.** `max_child_tokens` is never read, so a single long
  paragraph becomes one child above that size (`HierChunking.NoUpperBound`).
- **Repeated retrievals.** Precision and recall count every top-five
  position whose case id is relevant, repeats included. Recall can
  therefore exceed 1 (`EvaluateRag.RecallCountsRepeats`).
- **Short result lists.** Precision is 0 whenever fewer than five results
  come back.
- **Exit status.** The gate script exits with status 0 only when it gets one
  argument and every gate passes, and with 1 otherwise (`QualityGates.ExitCode`).

## Model

| member | source | states |
|---|---|---|
| `HierText.EstimateTokens` | hier_chunking.py:23-25 | the estimate is the length divided by four, rounded down: four times it never exceeds the length and is within four of it |
| `HierText.StraightenQuotes` | hier_chunking.py:30-31 | the same length; the four curly quotes become straight quotes and every other character is unchanged; no curly quote remains |
| `HierText.CleanText` | hier_chunking.py:28-33 | the result is normalized: single spaces only, no leading or trailing space, no newline and no curly quote |
| `HierText.CleanTextIdempotent` | hier_chunking.py:28-33 | cleaning an already cleaned text changes nothing |
| `HierText.CleanTextEmpty` | hier_chunking.py:28-33 | the cleaned text is empty exactly when the input is all whitespace |
| `HierText.SentenceGroups` | hier_chunking.py:48-50 | sentences are grouped by three; the last group may be shorter |
| `HierText.SentenceGroupsJoin` | hier_chunking.py:48-50 | joining the groups with spaces gives the same text as joining the sentences |
| `HierText.SentenceGroupsTrimmed` | hier_chunking.py:48-50 | groups of trimmed, non-empty sentences are themselves trimmed and non-empty |
| `HierText.KeepNonBlank` | hier_chunking.py:52 | every kept paragraph is stripped and non-empty, and there are no more of them than inputs |
| `HierText.KeepNonBlankExact` | hier_chunking.py:52 | every kept paragraph is the strip of an input piece, and every piece with a non-blank strip is kept |
| `HierText.KeepNonBlankAppend` | hier_chunking.py:52 | filtering a concatenation filters each part, in order |
| `HierText.KeepNonBlankTrimmed` | hier_chunking.py:52 | a list of already trimmed paragraphs passes through unchanged |
| `HierText.SplitIntoParagraphs` | hier_chunking.py:36-52 | every paragraph returned is stripped and non-empty |
| `HierText.NewlineFreeParagraphs` | hier_chunking.py:39-50 | on a text without newlines both newline splits fail, so the sentence grouping decides |
| `HierText.CleanParagraphsRoundTrip` | hier_chunking.py:36-52 | the paragraphs of a cleaned text, joined with spaces, give back the cleaned text: nothing is lost or reordered |
| `HierText.NormalizedParagraphsRoundTrip` | hier_chunking.py:36-52 | the same round trip for any normalized text without newlines |
| `HierText.EmptyHasNoParagraphs` | hier_chunking.py:52 | the empty text has no paragraphs |
| `HierChunking.GenerateId` | hier_chunking.py:55-57 | an id is at most 16 characters and is a prefix of the digest of `"{case_id}-{type}-{index}"` |
| `HierChunking.IdKeyDistinct` | hier_chunking.py:57 | different indices give different digest keys |
| `CaseRecord.FirstOfficial` | hier_chunking.py:63 | finds the first citation of type `official`; `None` means there is none |
| `HierChunking.OfficialCite` | hier_chunking.py:62-64 | the first official cite, else the first citation's cite, else `""`; raises when the first citation has no cite, even if an official one exists, because the default is evaluated eagerly |
| `HierChunking.EagerFallbackRaises` | hier_chunking.py:63-64 | a case whose first citation lacks a cite fails even though a later official citation has one |
| `HierChunking.ExtractMetadata` | hier_chunking.py:60-78 | fails exactly when the citation lookup raises; otherwise the id defaults to 0, the name falls back from abbreviation to full name, the decision date, court abbreviation and jurisdiction name default to `''`, and the opinion fields come from the first opinion or their defaults |
| `HierChunking.PackStep` | hier_chunking.py:93-113 | a paragraph either closes the current draft, which is then recorded unchanged, or is appended with its token estimate added |
| `HierChunking.PackAll` | hier_chunking.py:93-113 | drafts are only ever appended, never removed or changed |
| `HierChunking.DraftsAtLeastMin` | hier_chunking.py:97-124 | every emitted child carries at least `min_child_tokens` tokens |
| `HierChunking.PackAllBelowMin` | hier_chunking.py:97-113 | while the running total stays below the minimum no draft is closed and the tokens simply add up |
| `HierChunking.DraftsBelowMin` | hier_chunking.py:97-124 | paragraphs totalling fewer tokens than the minimum produce no child |
| `HierChunking.CleanTextBelowMin` | hier_chunking.py:81-124 | a cleaned text shorter than the minimum yields no child chunk at all |
| `HierChunking.SingleParagraph` | hier_chunking.py:93-124 | one paragraph of at least the minimum size becomes exactly one child holding that paragraph |
| `HierChunking.NoUpperBound` | hier_chunking.py:17-19 | with the default configuration a 2404-character paragraph becomes a single child of 601 tokens, above `max_child_tokens` |
| `HierChunking.OverlapCarry` | hier_chunking.py:106-110 | after a close, the new draft is the stripped last `overlap_tokens*4` characters of the old one (all of it when that is 0 or longer), a blank line, and the paragraph |
| `HierChunking.TailSlice` | hier_chunking.py:109 | `s[-k:]` is the whole string for `k = 0` or `k >= len(s)`, else the last `k` characters |
| `HierChunking.SumTokensJoin` | hier_chunking.py:94 | the per-paragraph estimates never sum to more than the estimate of the joined text |
| `HierChunking.CreateChildren` | hier_chunking.py:81-130 | one child per closed draft; indices count up from 0; all share the parent id, the metadata and the final `total_chunks`; each has at least the minimum tokens and the id of its index |
| `HierChunking.ChunkIds` | hier_chunking.py:172 | the parent's child ids list the children's ids in order |
| `HierChunking.ChunkOpinion` | hier_chunking.py:158-172 | the parent's id is that of the opinion index; its text is the cleaned opinion and its estimate that text's; parent and children are linked both ways |
| `HierChunking.BlankOpinion` | hier_chunking.py:154-172 | an opinion of only whitespace is not skipped: it yields an empty parent with no children |
| `HierChunking.KeptIndices` | hier_chunking.py:153-156 | the opinions kept are exactly those with a non-empty text, in order |
| `HierChunking.KeptIndicesComplete` | hier_chunking.py:153-156 | no opinion with a non-empty text is skipped |
| `HierChunking.OpinionPieces` | hier_chunking.py:153-175 | one parent per kept opinion, with that opinion's index in its id and its cleaned text |
| `HierChunking.ParentsOf` | hier_chunking.py:174 | the parents list holds the parent of every processed opinion, in order |
| `HierChunking.ParentKeysDistinct` | hier_chunking.py:158 | two kept opinions never share a parent-id key |
| `HierChunking.PiecesLinked` | hier_chunking.py:171-175 | the concatenated children each name a parent that lists them |
| `HierChunking.LinkedResolves` | hier_chunking.py:171-175 | every child's parent id resolves to a parent whose `child_ids` holds that child |
| `HierChunking.LinkedCounts` | hier_chunking.py:172-175 | the number of children equals the sum of the parents' child counts |
| `HierChunking.ChunkCase` | hier_chunking.py:133-187 | fails exactly when the metadata lookup raises; otherwise one parent per non-empty opinion, children linked to parents, and stats that count parents, children and parent tokens |
| `HierChunking.FormatForVectorDb` | hier_chunking.py:190-208 | one record per parent and per child, in order, carrying the ids, texts, metadata, child count, parent id and chunk index |
| `HierChunking.FormattedChildrenResolve` | hier_chunking.py:190-208 | every child record's parent id names a parent record; there are as many child records as the parents' child counts add up to |
| `HierChunking.ChunkCaseRecordsResolve` | hier_chunking.py:133-208 | for any chunked case, every child record points at an existing parent record |
| `EmbedAndIndex.GenerateEmbeddings` | embed_and_index.py:34-63 | a batch size of 0 raises; a negative one embeds nothing; otherwise the embeddings of the batches in order |
| `Batches.Split` | embed_and_index.py:42-43 | every batch is non-empty and at most the batch size; all but the last are full |
| `Batches.SplitConcat` | embed_and_index.py:42-49 | the batches, concatenated, give back the texts |
| `Batches.BatchCount` | embed_and_index.py:42 | there are `ceil(n / b)` batches |
| `Batches.Locate` | embed_and_index.py:42-49 | item `i` is item `i % b` of batch `i / b` |
| `EmbedAndIndex.EmbeddingsAligned` | embed_and_index.py:42-49 | when the service returns one vector per text, text `i` gets vector `i % b` of batch `i / b`, and there are as many vectors as texts |
| `EmbedAndIndex.EmbeddingAt` | embed_and_index.py:42-49 | the same alignment for one position |
| `EmbedAndIndex.EmbedAllLength` | embed_and_index.py:49 | one vector per text in, one per text out |
| `EmbedAndIndex.ChildVector` | embed_and_index.py:106-126 | the vector id is the child id; the metadata carries the parent id, chunk index and `str(case_id)`, and the child's case name, decision date, court and citation unchanged; its text is the first 1000 characters of the child text |
| `EmbedAndIndex.BuildVectors` | embed_and_index.py:105-126 | fails with an index error exactly when there are fewer embeddings than children; otherwise child `i` is paired with embedding `i` |
| `EmbedAndIndex.Texts` | embed_and_index.py:99 | the texts are the children's texts in order |
| `EmbedAndIndex.IndexChunks` | embed_and_index.py:94-136 | indexing fails exactly when the embedder returns fewer vectors than there are children |
| `EmbedAndIndex.IndexChunksUpserts` | embed_and_index.py:94-136 | with one vector per text, every child is upserted once, in order, under its id and with its own embedding, in `ceil(n / 100)` batches of at most 100 |
| `EmbedAndIndex.CheckKeys` | embed_and_index.py:146-153 | the pipeline proceeds only when both keys are non-empty; the Pinecone key is reported first |
| `Decimal.NatToString` | embed_and_index.py:113 | `str(n)` for n >= 0: a non-empty run of digits, one digit exactly below 10, a leading `0` only for 0 |
| `Decimal.IntToString` | embed_and_index.py:113 | a non-empty text with a minus sign exactly for negatives, followed by (or otherwise made of) digits only |
| `Decimal.NatToStringValue` | embed_and_index.py:113 | reading the digits back, last digit first, gives `n` |
| `Decimal.IntToStringValue` | embed_and_index.py:113 | `int(str(i)) == i`: a sign-aware reading of the text gives `i` back |
| `Decimal.IntToStringInjective` | embed_and_index.py:113 | distinct case ids give distinct texts |
| `QueryRag.EffectiveTopK` | query_rag.py:65 | a missing or zero `top_k` falls back to the default; any other value is used as given |
| `QueryRag.BuildLookup` | query_rag.py:41 | every parent's id is a key; each key maps to a parent with that id, taken from the input |
| `QueryRag.BuildLookupLastWins` | query_rag.py:41 | when ids repeat, the key maps to the last parent with that id |
| `QueryRag.Kept` | query_rag.py:81-92 | the kept match positions are increasing and each names a known parent not seen before |
| `QueryRag.KeptFirst` | query_rag.py:81-92 | each kept match is the first match for its parent |
| `QueryRag.KeptComplete` | query_rag.py:81-92 | every known parent that some match names is kept |
| `QueryRag.KeptDistinct` | query_rag.py:89-92 | no two kept matches name the same parent |
| `QueryRag.Resolve` | query_rag.py:81-107 | at most one result per match, each for a known parent |
| `QueryRag.ResolveDistinctParents` | query_rag.py:89-92 | no parent appears twice among the results |
| `QueryRag.ResolveFirstMatches` | query_rag.py:81-105 | results follow match order; each comes from the first match for its parent and carries that match's score, child id, child text, case name, decision date, court and citation, and the parent's text and case id |
| `QueryRag.ResolveCoversKnownParents` | query_rag.py:84-92 | every known parent that some match names is returned, and only known parents are |
| `QueryRag.ResolveKeepsBestScore` | query_rag.py:81-105 | when matches come by descending score, each result holds the best score of all matches for its parent |
| `QueryRag.Search` | query_rag.py:60-107 | no more results than index matches, so at most the effective `top_k` when the index honours it, all for known parents |
| `QueryRag.GenerateAnswer` | query_rag.py:110-166 | the answer is the model's reply to the prompt; the sources are the contexts and their count |
| `QueryRag.PromptCarriesContexts` | query_rag.py:115-137 | the prompt holds the question right after the fixed heading, and holds every context's parent text |
| `QueryRag.OccursInJoin` | query_rag.py:115-121 | every part of a join appears in the joined text |
| `QueryRag.Query` | query_rag.py:169-193 | no results gives the fixed "couldn't find" answer with no sources; otherwise the generated answer; the source count always matches |
| `EvaluateRag.TopFiveIds` | evaluate_rag.py:90-93 | the ids of the first five results, or of all when fewer |
| `EvaluateRag.Hits` | evaluate_rag.py:96 | every hit is relevant and every relevant top-five id is a hit |
| `EvaluateRag.HitsExact` | evaluate_rag.py:96 | each relevant id occurs among the hits as often as in the top five, other ids not at all, and the hits are a subsequence of the top five |
| `EvaluateRag.HitsAppend` | evaluate_rag.py:96 | the hits of a concatenation are the hits of each part, in order |
| `EvaluateRag.FirstHit` | evaluate_rag.py:102-106 | the position of the first relevant id; `None` exactly when none is relevant |
| `EvaluateRag.EvaluateRetrieval` | evaluate_rag.py:69-115 | no ground truth exactly when the relevant set is empty; otherwise precision counts hits over 5 (0 when fewer than five results), recall counts hits over the relevant set, and MRR is one over the first hit's rank |
| `EvaluateRag.PrecisionBounds` | evaluate_rag.py:98 | precision lies in [0, 1] and is 0 with fewer than five results |
| `EvaluateRag.MrrValues` | evaluate_rag.py:101-106 | MRR is 0 or one of 1, 1/2, 1/3, 1/4, 1/5 |
| `EvaluateRag.MrrFirstRelevant` | evaluate_rag.py:101-106 | MRR is 1 exactly when the first result is relevant |
| `EvaluateRag.HitsDistinct` | evaluate_rag.py:96 | distinct top-five ids give distinct hits, all taken from the top five |
| `EvaluateRag.RecallAtMostOneWhenDistinct` | evaluate_rag.py:99 | with distinct top-five ids, recall lies in [0, 1] |
| `EvaluateRag.RecallCountsRepeats` | evaluate_rag.py:96-99 | five copies of the one relevant case give recall 5 and precision 1 |
| `EvaluateRag.HitsAllRelevant` | evaluate_rag.py:96 | when every id is relevant, all are hits |
| `EvaluateRag.PrecisionRecallExample` | evaluate_rag.py:69-115 | three of five results relevant out of four gives precision 0.6 and recall 0.75 |
| `EvaluateRag.VersusPositions` | evaluate_rag.py:202-207 | the positions of inner words equal to `v.` in any case, in increasing order |
| `EvaluateRag.VersusPositionsComplete` | evaluate_rag.py:203-204 | no inner `v.` word is missed |
| `EvaluateRag.ExtractCitations` | evaluate_rag.py:197-208 | one citation per inner `v.` word, in order, made of the word before, `v.` and the word after |
| `EvaluateRag.EveryVersusCited` | evaluate_rag.py:203-207 | every inner `v.` yields its citation |
| `EvaluateRag.CitedOnlyAtVersus` | evaluate_rag.py:203-207 | every citation comes from some inner `v.` |
| `EvaluateRag.CountVerified` | evaluate_rag.py:138-143 | at most the number of citations; equal exactly when every citation names a retrieved case name or id |
| `EvaluateRag.EvaluateAnswerQuality` | evaluate_rag.py:117-158 | accuracy is verified over total, or 1 with no citations; it lies in [0, 1] and is 1 exactly when every citation is verified; the expected points are the query's `expected_answer_points`, or none when absent; the counts and lengths match |
| `EvaluateRag.AccuracyRange` | evaluate_rag.py:145 | a ratio of verified to total lies in [0, 1] and is 1 exactly when they are equal |
| `EvaluateRag.VerificationIsExact` | evaluate_rag.py:141-143 | matching is exact: a citation with trailing punctuation is not verified |
| `EvaluateRag.EvaluatePerformance` | evaluate_rag.py:160-167 | each latency is the timing under its key, and 0 when the key is missing |
| `EvaluateRag.EvaluateCost` | evaluate_rag.py:169-195 | each part as a rate per character: embedding 0.000000005 per query character, input 0.003 plus 0.00000075 per query character, output 0.00000375 per answer character; the total is their sum |
| `EvaluateRag.CostClosedForm` | evaluate_rag.py:176-188 | the cost is 0.003 plus a fixed rate per query character and per answer character |
| `EvaluateRag.CostMonotone` | evaluate_rag.py:169-195 | longer queries and answers never cost less, and every query costs at least 0.003 |
| `EvaluateRag.Selected` | evaluate_rag.py:291-293 | a prefix of the queries; all of them when `max_queries` is missing or 0; the first `max_queries` (or all, if fewer) when positive; all but the last `-max_queries` (none, if fewer) when negative |
| `EvaluateRag.RunQueries` | evaluate_rag.py:299-310 | the run stops with `KeyError('query_id')` exactly when some query has no id; otherwise one record per query, in order, with its id: the result when the run succeeds, the error when it raises |
| `EvaluateRag.SortReals` | evaluate_rag.py:362 | a sorted permutation of the latencies |
| `EvaluateRag.CutIndex` | evaluate_rag.py:362 | the interpolation point lies strictly inside the sorted data |
| `EvaluateRag.P95WithinData` | evaluate_rag.py:362 | with at least 19 latencies, the P95 lies between the smallest and the largest |
| `EvaluateRag.P95BeyondMaximum` | evaluate_rag.py:362 | with two latencies 1 and 2 the P95 is 2.85, above both |
| `EvaluateRag.Valid` | evaluate_rag.py:322 | the results of the queries that did not raise |
| `EvaluateRag.Aggregate` | evaluate_rag.py:319-371 | exactly one valid result raises a statistics error; none leaves the four sections empty; otherwise performance and cost are filled, retrieval and answer quality appear exactly when some query qualifies, each average is the mean of its filtered column, and the total cost is the sum |
| `EvaluateRag.FiltersAppend` | evaluate_rag.py:329-348 | the ground-truth and citation filters keep the qualifying results of each part of a concatenation, in order |
| `EvaluateRag.FiltersSingle` | evaluate_rag.py:329-348 | a single result passes the ground-truth filter exactly when it has ground truth, and the citation filter exactly when it cites a case |
| `EvaluateRag.ScoresCounted` | evaluate_rag.py:329-341 | the ground-truth filter keeps as many results as have ground truth, and a metric summed over it is the metric summed over those results |
| `EvaluateRag.AccuraciesCounted` | evaluate_rag.py:344-354 | the citation filter keeps as many results as have citations, with the same sum of accuracies |
| `EvaluateRag.AggregateMeans` | evaluate_rag.py:329-354 | the retrieval averages are over the results with ground truth and the citation average over the answers with a citation; the counts are those numbers of results |
| `EvaluateRag.AggregateIgnoresErrors` | evaluate_rag.py:322 | dropping the failed queries first does not change the aggregate |
| `EvaluateRag.AggregateBounds` | evaluate_rag.py:335-354 | average precision, MRR and citation accuracy stay in [0, 1] |
| `EvaluateRag.AverageIsTotalOverCount` | evaluate_rag.py:366-368 | the average cost per query is the total cost over the number of valid queries |
| `QualityGates.Failures` | scripts/check_quality_gates.py:45-95 | at most five failures, one per check |
| `QualityGates.FailuresJustified` | scripts/check_quality_gates.py:47-95 | each failure names a present section and a value on the wrong side of its threshold |
| `QualityGates.NoFailuresIffThresholdsMet` | scripts/check_quality_gates.py:45-112 | no failure exactly when every present section meets its thresholds |
| `QualityGates.CheckQualityGates` | scripts/check_quality_gates.py:25-138 | a missing or malformed file fails; a parsed one passes exactly when every present section meets its thresholds |
| `QualityGates.RecallAndMrrIgnored` | scripts/check_quality_gates.py:56-60 | recall and MRR never change the verdict |
| `QualityGates.ExitCode` | scripts/check_quality_gates.py:141-156 | exit 0 exactly with one argument and a passing gate; 1 otherwise |
| `QualityGates.ResultsOf` | evaluate_rag.py:46-52 | a results section is present exactly when the evaluation filled it |
| `QualityGates.AllQueriesFailedIsApproved` | scripts/check_quality_gates.py:47-95 | when every query raised, the saved results pass the gate |
| `QualityGates.CheckQualityGatesStrict` | scripts/check_quality_gates.py:103-138 | passes exactly when the original gate passes and performance figures are present |
| `QualityGates.AllQueriesFailedIsBlocked` | scripts/check_quality_gates.py:103-138 | the corrected gate rejects the run in which every query raised |
| `QualityGates.StrictAgreesOnEvaluatedRuns` | scripts/check_quality_gates.py:103-138 | on any run with at least two evaluated queries the corrected gate gives the original verdict |
| `IngestPipeline.DropNewlines` | ingest_pipeline.py:48 | removes exactly the leading run of newlines |
| `IngestPipeline.NewlinesToSpace` | ingest_pipeline.py:48 | no newline remains and the text never grows |
| `IngestPipeline.CleanLegalText` | ingest_pipeline.py:42-51 | the result is normalized and has no newline |
| `IngestPipeline.CollapseAbsorbsNewlines` | ingest_pipeline.py:48-50 | replacing newline runs first makes no difference to the whitespace collapse |
| `IngestPipeline.CleanersAgree` | ingest_pipeline.py:42-51 | the ingestion cleaner equals collapse-then-strip, and the chunker's cleaner is it after straightening quotes |
| `IngestPipeline.CleanLegalTextIdempotent` | ingest_pipeline.py:42-51 | cleaning twice is cleaning once |
| `IngestPipeline.FirstCite` | ingest_pipeline.py:67 | raises an index error exactly when the citations list is present but empty; absent citations give `None` |
| `IngestPipeline.CaseMetaOf` | ingest_pipeline.py:61-69 | fails exactly when the cite lookup raises; otherwise copies id, name, date, court abbreviation, jurisdiction name and first cite, and records the S3 link |
| `IngestPipeline.ChunkMetaOf` | ingest_pipeline.py:101-105 | the case metadata plus the parent text and the type `child` |
| `IngestPipeline.ParentChunks` | ingest_pipeline.py:92-107 | one chunk per child piece, with the ids `{case}_P{p}` and `{case}_P{p}_C{c}` |
| `IngestPipeline.Groups` | ingest_pipeline.py:88-107 | one group per parent piece, in order |
| `IngestPipeline.ProcessCase` | ingest_pipeline.py:53-109 | fails on an empty citations list; no first opinion text gives no chunks; otherwise the chunks of each parent of the cleaned text, in order |
| `IngestPipeline.ChunkAt` | ingest_pipeline.py:88-107 | the chunk for parent `p`, child `c` sits at its place in the output with its ids, text and parent text |
| `IngestPipeline.EveryChunkHasItsParent` | ingest_pipeline.py:88-107 | every chunk's parent id and parent text name the parent piece it came from |
| `IngestPipeline.ChildIdInjective` | ingest_pipeline.py:89-95 | a child id determines its parent and child numbers |
| `IngestPipeline.ChunkIdsDistinct` | ingest_pipeline.py:88-107 | no two chunks of a case share an id |
| `PdfGenerator.FormatCitations` | pdf_generator.py:167-179 | `N/A` for no citations; raises exactly when an official citation has no cite; otherwise the first official cite, else the first citation's cite or `N/A` |
| `PdfGenerator.OfficialCites` | pdf_generator.py:172 | the list of official cites: raises exactly when one is missing, is empty exactly when none is official, and starts with the first official cite |
| `PdfGenerator.OfficialWinsAnywhere` | pdf_generator.py:172-174 | an official citation listed second still wins |
| `PdfGenerator.KeepShown` | pdf_generator.py:108-113 | a row is shown exactly when its value is present and non-empty |
| `PdfGenerator.MetadataRows` | pdf_generator.py:99-113 | fails exactly when the citation formatting raises; otherwise at most six rows, none empty |
| `PdfGenerator.RowIn` | pdf_generator.py:99-113 | a row appears exactly when its field's value is that non-empty text |
| `PdfGenerator.RowsShown` | pdf_generator.py:99-113 | id shown unless missing or 0; citation, date, court, jurisdiction and docket shown exactly when non-empty |
| `PdfGenerator.CitedLines` | pdf_generator.py:150-152 | the first twenty cited cases, one bulleted line each, `Unknown` for a missing cite |
| `PdfGenerator.ReplaceChar` | pdf_generator.py:187-189 | the replaced character is gone unless the replacement has it; other characters are kept |
| `PdfGenerator.Escape` | pdf_generator.py:187-189 | no `<` or `>` remains |
| `PdfGenerator.UnescapeEscape` | pdf_generator.py:187-189 | decoding `&lt;`, `&gt;` then `&amp;` undoes the escaping exactly |
| `PdfGenerator.Truncate` | pdf_generator.py:192-194 | texts up to the limit are kept; longer ones are cut to the limit with the note appended |
| `PdfGenerator.CleanPdfText` | pdf_generator.py:181-196 | the cleaned text has no `<` or `>` and at most 50000 characters plus the note |
| `PdfGenerator.CleanPdfTextNormalizes` | pdf_generator.py:184 | joining the split words is collapse-then-strip, a normalized text |
| `SplitJoin.JoinWordsIsStripCollapse` | pdf_generator.py:184 | `' '.join(s.split())` equals stripping the whitespace-collapsed text |
| `PdfGenerator.CleanPdfTextRoundTrip` | pdf_generator.py:181-196 | below the limit, decoding the cleaned text gives the whitespace-normalized input; above it, the escaped text cut at 50000 plus the note |
| `PdfGenerator.TitleFrom` | pdf_generator.py:124 | a letter is upper-cased after a non-letter and lower-cased after a letter; others are kept |
| `PdfGenerator.TitleIdempotent` | pdf_generator.py:124 | title-casing twice is title-casing once |
| `PdfGenerator.TitleExample` | pdf_generator.py:124 | `dissent` becomes `Dissent` |
| `PdfGenerator.OpinionBlocks` | pdf_generator.py:122-138 | a heading with the title-cased type (default `Opinion`) and author (default `Unknown`), then the cleaned text when it is non-empty |
| `PdfGenerator.OpinionsBlocks` | pdf_generator.py:122-142 | one or two blocks per opinion; every text block is escaped |
| `PdfGenerator.InfoBlocks` | pdf_generator.py:108-113 | one metadata paragraph per shown row |
| `PdfGenerator.OpinionsSection` | pdf_generator.py:117-142 | the Opinions header appears exactly when there are opinions; no page break |
| `PdfGenerator.CitedSection` | pdf_generator.py:144-152 | a page break appears exactly when the case cites others; no text block |
| `PdfGenerator.Assemble` | pdf_generator.py:89-160 | the document starts with the case name (default `Unknown Case`) and ends with the timestamp footer |
| `PdfGenerator.AssembleSections` | pdf_generator.py:117-152 | the Opinions header iff opinions; a page break iff cited cases; every text block escaped |
| `PdfGenerator.GeneratePdf` | pdf_generator.py:68-165 | raises exactly when an official citation lacks a cite; otherwise a document with title, footer, sections as above and escaped text |
| `PdfGenerator.CitedLinesInSection` | pdf_generator.py:145-152 | every cited line is a paragraph of the cited-cases section |
| `PdfGenerator.AssembleContent` | pdf_generator.py:93-152 | the case name, the information header, then the shown rows in order; every cited line is in the document |
| `PdfGenerator.GeneratePdfContent` | pdf_generator.py:93-152 | the generated document holds the case name, the information header and the rows of `MetadataRows` in order right after it, and every cited line |
| `PdfGenerator.OpinionBlocksIncluded` | pdf_generator.py:122-138 | every block of each opinion appears among the opinions' blocks |
| `PdfGenerator.OpinionTextShown` | pdf_generator.py:122-138 | every opinion of the case has its header line in the document and, when it has text, its cleaned text |
| `Whitespace.Strip` | hier_chunking.py:33 | no leading or trailing whitespace remains; empty exactly when all whitespace |
| `Whitespace.Collapse` | hier_chunking.py:32 | runs of whitespace shrink; empty exactly when the input is; a leading or trailing space stays |
| `Whitespace.CollapseSingleSpaced` | hier_chunking.py:32 | after collapsing, whitespace occurs only as single spaces |
| `Whitespace.StripStrip` | hier_chunking.py:33 | stripping twice is stripping once |
| `Whitespace.Words` | pdf_generator.py:184 | every word is non-empty and has no whitespace |
| `ReSplit.Split` | hier_chunking.py:39-47 | a split always has at least one piece |
| `ReSplit.NoNewlineNoSplit` | hier_chunking.py:39-43 | without a newline neither newline pattern splits |
| `ReSplit.LineBreakRoundTrip` | hier_chunking.py:43 | joining the line pieces with newlines gives back the text; no piece holds a newline |
| `ReSplit.SentenceRoundTrip` | hier_chunking.py:47 | on single-spaced text, joining sentences with spaces gives back the text |
| `ReSplit.SentencesEndWithStop` | hier_chunking.py:47 | every sentence but the last ends with `.`, `!` or `?` |
| `ReSplit.SentencesTrimmed` | hier_chunking.py:47 | on normalized text every sentence is non-empty and trimmed |
| `Slices.PyTake` | evaluate_rag.py:92 | `s[:k]` is a prefix of the clamped length |
| `Slices.PyDrop` | hier_chunking.py:109 | `s[k:]` is a suffix of the clamped length |
| `Slices.NegativeZeroKeepsAll` | hier_chunking.py:108-109 | with zero overlap `s[-0:]` is the whole string, not the empty one |

## Left out

- Service clients (Pinecone, OpenAI, Anthropic, SentenceTransformer, S3, boto3) are function parameters. Index creation (`init_pinecone_index`) and the LangChain splitters are external.
- The MD5 digest, the clock (`datetime.now`, `time.time`) and file/JSON reading are parameters or inputs.
- Printing, progress bars, Weights & Biases logging, `print_summary` and the JSON output files are not modelled: they have no effect on the values computed.
- ReportLab rendering is not modelled. Styles, spacers, page size and margins are left out; the PDF is the list of paragraph blocks.
- `run_single_query` (evaluate_rag.py:210-282) is not modelled. It passes raw index matches to `generate_answer`, which reads keys those matches lack, and unpacks the returned dict into two names. The per-query outcome is therefore a parameter of `RunQueries`.
- `api.py`, `data_extraction.py`, `build_s3_mapping.py`, `config.py`, `check_index.py`, `reindex_with_openai.py`, `evaluate_rag_fix.py` and `evaluate_rag_temp.py` are outside the core. `load_chunks` is modelled only as its parent lookup.
- Floating point is modelled as exact reals, so rounding in means, costs and thresholds is not modelled. Formatting such as `:.3f` is left out.
- `statistics.quantiles` is modelled as in Python 3.12 and earlier, where one data point raises. Python 3.13 accepts one point.
- JSON `null` values and non-numeric JSON values are not modelled: an absent key is `None`, and present values have the expected type.
- `EvaluateRag.EvaluateRetrieval`: `int(case_id)` parsing is not modelled. A retrieved case carries the parsed id, or -1 when the key is missing.
- `PdfGenerator.GeneratePdf`: the case name, metadata values and cite lines go into markup unescaped, as in the source; the model does not describe what ReportLab does with them.
- `PdfGenerator.Title` and `PdfGenerator.TitleFrom`: only ASCII letters are cased. Python's `str.title` also cases other Unicode letters.
- `PdfGenerator.Escape`: the contract states that no `<` or `>` remains and, through `UnescapeEscape`, that escaping is reversible. It does not list the output character by character.
- `QueryRag.Search`: the `top_k` bound holds only for an index that returns at most `top_k` matches, since the index is a parameter. Order, deduplication and scores are stated on `Resolve`, which `Search` returns unchanged.
- `HierChunking.CreateChildren`: the contract does not state child texts. Each is `clean_text` of its draft.

## Findings

| source | as written | input that shows it | evidently intended | confidence | as-written member | corrected member |
|---|---|---|---|---|---|---|
| scripts/check_quality_gates.py:47-95 | every check runs only when its section is non-empty, and an empty failure list approves | an evaluation in which every query raised: `_aggregate_metrics` returns early, the four sections stay `{}`, and the gate prints "APPROVED" | a run with no evaluated query should block deployment | not executed | `QualityGates.AllQueriesFailedIsApproved` | `QualityGates.CheckQualityGatesStrict` (with `QualityGates.AllQueriesFailedIsBlocked`) |

=== FILE: batches.dfy ===
/** `[xs[i:i + b] for i in range(0, len(xs), b)]`: cutting a sequence into
    consecutive batches of at most b elements, and gluing them back. */
module Batches {

  /** `[x for batch in bs for x in batch]` */
  function Concat<T>(bs: seq<seq<T>>): seq<T>
    decreases |bs|
  {
    if bs == [] then [] else bs[0] + Concat(bs[1..])
  }

  lemma {:induction false} ConcatAppend<T>(a: seq<seq<T>>, b: seq<seq<T>>)
    ensures Concat(a + b) == Concat(a) + Concat(b)
    decreases |a|
  {
    if a != [] {
      var ab := a + b;
      assert ab[0] == a[0] && ab[1..] == a[1..] + b;
      assert Concat(ab) == a[0] + Concat(ab[1..]);
      ConcatAppend(a[1..], b);
    } else {
      assert a + b == b;
    }
  }

  /** The batches, front to back: every batch but the last is full, and none
      is empty. */
  function Split<T>(xs: seq<T>, b: nat): (bs: seq<seq<T>>)
    requires b > 0
    ensures forall k | 0 <= k < |bs| :: 0 < |bs[k]| <= b
    ensures forall k | 0 <= k < |bs| - 1 :: |bs[k]| == b
    decreases |xs|
  {
    if |xs| == 0 then []
    else if |xs| <= b then [xs]
    else [xs[..b]] + Split(xs[b..], b)
  }

  /** Gluing the batches back together gives the sequence, in order. */
  lemma {:induction false} SplitConcat<T>(xs: seq<T>, b: nat)
    requires b > 0
    ensures Concat(Split(xs, b)) == xs
    decreases |xs|
  {
    if |xs| > b {
      var rest := Split(xs[b..], b);
      SplitConcat(xs[b..], b);
      assert Split(xs, b) == [xs[..b]] + rest;
      assert Concat(Split(xs, b)) == xs[..b] + Concat(rest);
      assert xs == xs[..b] + xs[b..];
    } else if |xs| > 0 {
      assert Split(xs, b) == [xs];
      assert Concat([xs]) == xs + Concat([]);
    }
  }

  /** There are ceil(n / b) batches. */
  lemma BatchCount<T>(xs: seq<T>, b: nat)
    requires b > 0
    ensures |Split(xs, b)| == (|xs| + b - 1) / b
  {
    var m := |Split(xs, b)|;
    SplitSize(xs, b);
    assert Start(m, b) >= |xs| && (m == 0 || Start(m - 1, b) < |xs|);
    StartIsProduct(m, b);
    if m > 0 { StartIsProduct(m - 1, b); }
    CeilUnique(|xs|, b, m);
  }

  /** Where batch k starts: k * b, spelled as repeated addition. */
  function Start(k: nat, b: nat): nat
  {
    if k == 0 then 0 else Start(k - 1, b) + b
  }

  lemma {:induction false} StartIsProduct(k: nat, b: nat)
    ensures Start(k, b) == k * b
  {
    if k > 0 {
      StartIsProduct(k - 1, b);
      assert (k - 1) * b + b == k * b;
    }
  }

  /** The batches cover xs, and one fewer would not. */
  lemma {:induction false} SplitSize<T>(xs: seq<T>, b: nat)
    requires b > 0
    ensures var m := |Split(xs, b)|; Start(m, b) >= |xs| && (m == 0 || Start(m - 1, b) < |xs|)
    decreases |xs|
  {
    if |xs| > b {
      SplitSize(xs[b..], b);
      var m := |Split(xs[b..], b)|;
      assert |Split(xs, b)| == m + 1;
      StartShift(m, b);
      if m > 0 { StartShift(m - 1, b); }
    }
  }

  lemma {:induction false} StartShift(k: nat, b: nat)
    ensures Start(k + 1, b) == b + Start(k, b)
  {
  }

  /** m is ceil(n / b) when (m - 1) * b < n <= m * b. */
  lemma CeilUnique(n: nat, b: nat, m: nat)
    requires b > 0 && m * b >= n > (m - 1) * b
    ensures m == (n + b - 1) / b
  {
    var q := (n + b - 1) / b;
    var r := (n + b - 1) % b;
    assert q * b + r == n + b - 1;
    if q < m {
      assert q <= m - 1;
      MulMono(q, m - 1, b);
    } else if q > m {
      assert m + 1 <= q;
      MulMono(m + 1, q, b);
    }
  }

  lemma MulMono(x: int, y: int, b: nat)
    requires x <= y
    ensures x * b <= y * b
  {
  }

  /** Batch k is the slice `xs[k*b : k*b + b]`, cut at the end of xs. */
  lemma SplitAt<T>(xs: seq<T>, b: nat, k: nat)
    requires b > 0 && k < |Split(xs, b)|
    ensures k * b < |xs|
    ensures Split(xs, b)[k] == xs[k * b .. if k * b + b < |xs| then k * b + b else |xs|]
  {
    SplitFrom(xs, b, k);
    StartIsProduct(k, b);
  }

  lemma {:induction false} SplitFrom<T>(xs: seq<T>, b: nat, k: nat)
    requires b > 0 && k < |Split(xs, b)|
    ensures Start(k, b) < |xs|
    ensures Split(xs, b)[k] == xs[Start(k, b) .. if Start(k, b) + b < |xs| then Start(k, b) + b else |xs|]
    decreases k
  {
    var bs := Split(xs, b);
    if k == 0 {
      assert Start(k, b) == 0;
      if |xs| <= b {
        assert bs == [xs];
      } else {
        assert bs[0] == xs[..b];
      }
    } else {
      var rest := xs[b..];
      assert |xs| > b;
      assert bs == [xs[..b]] + Split(rest, b);
      assert bs[k] == Split(rest, b)[k - 1];
      SplitFrom(rest, b, k - 1);
      var lo := Start(k - 1, b);
      assert Start(k, b) == lo + b;
      var hi := if lo + b < |rest| then lo + b else |rest|;
      SliceOfDrop(xs, b, lo, hi);
      var s := lo + b;
      assert hi + b == if s + b < |xs| then s + b else |xs|;
      assert bs[k] == xs[s .. hi + b];
    }
  }

  lemma SliceOfDrop<T>(xs: seq<T>, b: nat, lo: nat, hi: nat)
    requires b <= |xs| && lo <= hi <= |xs| - b
    ensures xs[b..][lo..hi] == xs[lo + b .. hi + b]
  {
  }

  /** Element i of xs sits in batch i / b, at position i % b. */
  lemma Locate<T>(xs: seq<T>, b: nat, i: nat)
    requires b > 0 && i < |xs|
    ensures i / b < |Split(xs, b)|
    ensures i % b < |Split(xs, b)[i / b]|
    ensures Split(xs, b)[i / b][i % b] == xs[i]
  {
    var k, r := i / b, i % b;
    DivMod(i, b);
    StartIsProduct(k, b);
    assert Start(k, b) + r == i;
    LocateAt(xs, b, k, r);
  }

  lemma DivMod(i: nat, b: nat)
    requires b > 0
    ensures (i / b) * b + i % b == i && i % b < b
  {
  }

  lemma LocateAt<T>(xs: seq<T>, b: nat, k: nat, r: nat)
    requires b > 0 && r < b && Start(k, b) + r < |xs|
    ensures k < |Split(xs, b)|
    ensures r < |Split(xs, b)[k]|
    ensures Split(xs, b)[k][r] == xs[Start(k, b) + r]
  {
    var bs := Split(xs, b);
    SplitSize(xs, b);
    assert k < |bs| by {
      if k >= |bs| { StartMono(|bs|, k, b); }
    }
    SplitFrom(xs, b, k);
  }

  lemma {:induction false} StartMono(j: nat, k: nat, b: nat)
    requires j <= k
    ensures Start(j, b) <= Start(k, b)
    decreases k
  {
    if j < k { StartMono(j, k - 1, b); }
  }

  /** Element c of part p sits after the parts before it. */
  lemma ConcatAt<T>(bs: seq<seq<T>>, p: nat, c: nat)
    requires p < |bs| && c < |bs[p]|
    ensures |Concat(bs[..p])| + c < |Concat(bs)|
    ensures Concat(bs)[|Concat(bs[..p])| + c] == bs[p][c]
  {
    assert bs == bs[..p] + bs[p..];
    ConcatAppend(bs[..p], bs[p..]);
    assert Concat(bs[p..]) == bs[p] + Concat(bs[p + 1..]) by {
      assert bs[p..][0] == bs[p] && bs[p..][1..] == bs[p + 1..];
    }
  }

  /** Which part, and where in it, element i of the concatenation comes
      from: it sits after the parts before it. */
  function Position<T>(bs: seq<seq<T>>, i: nat): (pc: (nat, nat))
    requires i < |Concat(bs)|
    ensures pc.0 < |bs| && pc.1 < |bs[pc.0]|
    ensures i == |Concat(bs[..pc.0])| + pc.1
    decreases |bs|
  {
    if i < |bs[0]| then
      assert bs[..0] == [];
      (0, i)
    else
      var rest := bs[1..];
      var pc := Position(rest, i - |bs[0]|);
      var p := pc.0;
      assert bs[..p + 1] == [bs[0]] + rest[..p];
      ConcatAppend([bs[0]], rest[..p]);
      assert Concat([bs[0]]) == bs[0] + Concat([]);
      (p + 1, pc.1)
  }
}

=== FILE: case_record.dfy ===
/** The raw case document (one JSON file per court case) as the chunkers and the
    PDF renderer read it. A key that may be absent from the document is an
    `Option`: `None` is an absent key, so `case.get(k, d)` is `GetOr(d)`. */
module CaseRecord {
  import opened Wrappers

  /** The Python exceptions the modelled code can raise. */
  datatype PyError = KeyError(key: string) | IndexError | ValueError | StatisticsError

  /** One entry of `citations`: `type` (e.g. "official") and `cite`. */
  datatype Citation = Citation(kind: Option<string>, cite: Option<string>)

  datatype Court = Court(name: Option<string>, nameAbbreviation: Option<string>)

  datatype Jurisdiction = Jurisdiction(name: Option<string>, nameLong: Option<string>)

  /** One opinion of `casebody.opinions`: majority, concurrence, dissent, ... */
  datatype Opinion = Opinion(kind: Option<string>, author: Option<string>, text: Option<string>)

  datatype CaseBody = CaseBody(opinions: Option<seq<Opinion>>)

  /** One entry of `cites_to`. */
  datatype CitedCase = CitedCase(cite: Option<string>)

  datatype Case = Case(
    id: Option<int>,
    name: Option<string>,
    nameAbbreviation: Option<string>,
    decisionDate: Option<string>,
    docketNumber: Option<string>,
    citations: Option<seq<Citation>>,
    court: Option<Court>,
    jurisdiction: Option<Jurisdiction>,
    casebody: Option<CaseBody>,
    citesTo: Option<seq<CitedCase>>)

  /** `case.get('casebody', {}).get('opinions', [])` */
  function OpinionsOf(c: Case): seq<Opinion> {
    match c.casebody
    case None => []
    case Some(b) => b.opinions.GetOr([])
  }

  /** Whether a citation entry's `type` is exactly "official". */
  predicate IsOfficial(e: Citation) {
    e.kind == Some("official")
  }

  /** Position of the first citation whose type is "official". */
  function FirstOfficial(cs: seq<Citation>): (k: Option<nat>)
    ensures k.Some? ==>
      && k.value < |cs| && IsOfficial(cs[k.value])
      && forall j | 0 <= j < k.value :: !IsOfficial(cs[j])
    ensures k.None? ==> forall j | 0 <= j < |cs| :: !IsOfficial(cs[j])
    decreases |cs|
  {
    if cs == [] then None
    else if IsOfficial(cs[0]) then Some(0)
    else match FirstOfficial(cs[1..])
      case None => None
      case Some(k) => Some(k + 1)
  }
}

=== FILE: decimal.dfy ===
/** Decimal rendering of integers, as Python's `str(n)` and f-strings print them. */
module Decimal {

  predicate IsDigit(c: char) {
    '0' <= c <= '9'
  }

  function DigitChar(d: nat): (c: char)
    requires d < 10
    ensures IsDigit(c)
  {
    (48 + d) as char
  }

  predicate AllDigits(s: string) {
    forall i | 0 <= i < |s| :: IsDigit(s[i])
  }

  /** `str(n)` for a non-negative integer: most significant digit first, no leading zeros. */
  function NatToString(n: nat): (s: string)
    ensures |s| > 0 && AllDigits(s)
    ensures n < 10 <==> |s| == 1
    ensures s[0] == '0' <==> n == 0
    decreases n
  {
    if n < 10 then [DigitChar(n)] else NatToString(n / 10) + [DigitChar(n % 10)]
  }

  /** `str(i)` for any integer: a minus sign before the digits of a negative value. */
  function IntToString(i: int): (s: string)
    ensures |s| > 0
    ensures i < 0 <==> s[0] == '-'
    ensures AllDigits(if i < 0 then s[1..] else s)
  {
    if i < 0 then "-" + NatToString(-i) else NatToString(i)
  }

  /** The value of a digit character. */
  function DigitValue(c: char): nat
    requires IsDigit(c)
  {
    (c as int - 48) as nat
  }

  /** `int(s)` for a string of decimal digits, read from the last digit back;
      the empty string reads as 0. */
  function DigitsValue(s: string): nat
    requires AllDigits(s)
    decreases |s|
  {
    if s == [] then 0
    else
      var init := s[..|s| - 1];
      assert forall k | 0 <= k < |init| :: init[k] == s[k];
      10 * DigitsValue(init) + DigitValue(s[|s| - 1])
  }

  /** `int(s)` for an optional minus sign followed by digits. */
  function ParseInt(s: string): int
    requires |s| > 0 && AllDigits(if s[0] == '-' then s[1..] else s)
  {
    if s[0] == '-' then -(DigitsValue(s[1..]) as int) else DigitsValue(s)
  }

  /** Reading the printed digits back gives the number. */
  lemma {:induction false} NatToStringValue(n: nat)
    ensures DigitsValue(NatToString(n)) == n
    decreases n
  {
    var s := NatToString(n);
    if n < 10 {
      assert s[..0] == [];
    } else {
      var p := NatToString(n / 10);
      NatToStringValue(n / 10);
      assert s[..|s| - 1] == p;
      assert s[|s| - 1] == DigitChar(n % 10);
    }
  }

  /** Reading `str(i)` back with `int` gives `i`. */
  lemma IntToStringValue(i: int)
    ensures ParseInt(IntToString(i)) == i
  {
    if i < 0 {
      var d := NatToString(-i);
      assert ("-" + d)[1..] == d;
      NatToStringValue(-i);
    } else {
      var d := NatToString(i);
      assert IsDigit(d[0]);
      NatToStringValue(i);
    }
  }

  /** Distinct numbers print differently. */
  lemma {:induction false} NatToStringInjective(a: nat, b: nat)
    requires NatToString(a) == NatToString(b)
    ensures a == b
    decreases a
  {
    var sa, sb := NatToString(a), NatToString(b);
    if a < 10 || b < 10 {
      assert a < 10 && b < 10;
      assert sa[0] == DigitChar(a) && sb[0] == DigitChar(b);
    } else {
      var pa, pb := NatToString(a / 10), NatToString(b / 10);
      assert sa == pa + [DigitChar(a % 10)];
      assert sb == pb + [DigitChar(b % 10)];
      assert |pa| == |pb|;
      assert sa[|pa|] == DigitChar(a % 10) && sb[|pb|] == DigitChar(b % 10);
      assert a % 10 == b % 10;
      assert pa == sa[..|pa|] == sb[..|pb|] == pb;
      NatToStringInjective(a / 10, b / 10);
    }
  }

  /** Distinct integers print differently. */
  lemma IntToStringInjective(a: int, b: int)
    requires IntToString(a) == IntToString(b)
    ensures a == b
  {
    var sa, sb := IntToString(a), IntToString(b);
    if a < 0 && b < 0 {
      assert NatToString(-a) == sa[1..] == sb[1..] == NatToString(-b);
      NatToStringInjective(-a, -b);
    } else if a >= 0 && b >= 0 {
      NatToStringInjective(a, b);
    }
  }

  /** A string of digits followed by a non-digit is split there unambiguously:
      if two such strings agree, so do their digit prefixes and their tails. */
  lemma DigitPrefixUnique(a: string, x: char, s: string, b: string, y: char, t: string)
    requires AllDigits(a) && AllDigits(b) && !IsDigit(x) && !IsDigit(y)
    requires a + [x] + s == b + [y] + t
    ensures a == b && x == y && s == t
  {
    var u := a + [x] + s;
    DigitsThenStop(a, x, s);
    DigitsThenStop(b, y, t);
    assert |a| == |b|;
    assert a == u[..|a|] == b;
    assert x == u[|a|] == y;
    assert s == u[|a| + 1..] == t;
  }

  lemma DigitsThenStop(a: string, x: char, s: string)
    requires AllDigits(a) && !IsDigit(x)
    ensures forall i | 0 <= i < |a| :: IsDigit((a + [x] + s)[i])
    ensures !IsDigit((a + [x] + s)[|a|])
  {
  }
}

=== FILE: embed_and_index.dfy ===
/** Embedding the child chunks and building the vectors upserted to the index.
    The embedding service is a parameter: it maps one batch of texts to one
    embedding per text. */
module EmbedAndIndex {
  import opened Wrappers
  import opened Decimal
  import opened Slices
  import opened CaseRecord
  import opened Batches
  import opened HierChunking

  type Embedding = seq<real>

  /** The batch size of `generate_embeddings` and of the upserts. */
  const BatchSize: nat := 100

  /** How many characters of a child's text the index metadata keeps. */
  const MetadataTextLimit: nat := 1000

  /** `generate_embeddings(texts, batch_size)`: the service is asked for
      `texts[i:i + batch_size]` for `i in range(0, len(texts), batch_size)` and
      the answers are concatenated. A step of 0 makes `range` raise; a negative
      step gives an empty range. */
  function GenerateEmbeddings(texts: seq<string>, batchSize: int,
                              embed: seq<string> -> seq<Embedding>): (r: Result<seq<Embedding>, PyError>)
    ensures r.Failure? <==> batchSize == 0
    ensures batchSize < 0 ==> r == Success([])
    ensures batchSize > 0 ==> r == Success(EmbedAll(Split(texts, batchSize), embed))
  {
    if batchSize == 0 then Failure(ValueError)
    else if batchSize < 0 then Success([])
    else Success(EmbedAll(Split(texts, batchSize), embed))
  }

  /** `all_embeddings.extend(embed(batch))` over the batches, in order. */
  function EmbedAll(batches: seq<seq<string>>, embed: seq<string> -> seq<Embedding>): seq<Embedding>
    decreases |batches|
  {
    if batches == [] then [] else embed(batches[0]) + EmbedAll(batches[1..], embed)
  }

  /** A service that answers every batch with one embedding per text. */
  predicate OnePerText(embed: seq<string> -> seq<Embedding>, batches: seq<seq<string>>) {
    forall k | 0 <= k < |batches| :: |embed(batches[k])| == |batches[k]|
  }

  /** Text i's embedding is the one its batch received at its position in
      the batch: position i % b of batch i / b. */
  predicate AlignedAt(texts: seq<string>, b: nat, embed: seq<string> -> seq<Embedding>, i: nat)
    requires b > 0
  {
    && i < |EmbedAll(Split(texts, b), embed)|
    && i / b < |Split(texts, b)| && i % b < |embed(Split(texts, b)[i / b])|
    && EmbedAll(Split(texts, b), embed)[i] == embed(Split(texts, b)[i / b])[i % b]
  }

  /** With such a service there is one embedding per text, and every text's
      embedding is aligned with it. */
  lemma EmbeddingsAligned(texts: seq<string>, b: nat, embed: seq<string> -> seq<Embedding>)
    requires b > 0 && OnePerText(embed, Split(texts, b))
    ensures |EmbedAll(Split(texts, b), embed)| == |texts|
    ensures forall i | 0 <= i < |texts| :: AlignedAt(texts, b, embed, i)
  {
    EmbedAllLength(Split(texts, b), embed);
    SplitConcat(texts, b);
    forall i | 0 <= i < |texts| ensures AlignedAt(texts, b, embed, i) {
      EmbeddingAt(texts, b, embed, i);
    }
  }

  lemma EmbeddingAt(texts: seq<string>, b: nat, embed: seq<string> -> seq<Embedding>, i: nat)
    requires b > 0 && OnePerText(embed, Split(texts, b)) && i < |texts|
    ensures AlignedAt(texts, b, embed, i)
  {
    var bs := Split(texts, b);
    var k, r := i / b, i % b;
    DivMod(i, b);
    StartIsProduct(k, b);
    assert Start(k, b) + r == i;
    LocateAt(texts, b, k, r);
    EmbedAllFull(bs, embed, k, r, b);
  }

  lemma {:induction false} EmbedAllLength(bs: seq<seq<string>>, embed: seq<string> -> seq<Embedding>)
    requires OnePerText(embed, bs)
    ensures |EmbedAll(bs, embed)| == |Concat(bs)|
    decreases |bs|
  {
    if bs != [] {
      assert OnePerText(embed, bs[1..]) by {
        forall k | 0 <= k < |bs[1..]| ensures |embed(bs[1..][k])| == |bs[1..][k]| {
          assert bs[1..][k] == bs[k + 1];
        }
      }
      EmbedAllLength(bs[1..], embed);
    }
  }

  /** Position r of batch k, when every batch before it holds b texts. */
  lemma {:induction false} EmbedAllFull(bs: seq<seq<string>>, embed: seq<string> -> seq<Embedding>,
                                        k: nat, r: nat, b: nat)
    requires OnePerText(embed, bs) && k < |bs| && r < |bs[k]|
    requires forall j | 0 <= j < k :: |bs[j]| == b
    ensures r < |embed(bs[k])|
    ensures Start(k, b) + r < |EmbedAll(bs, embed)|
    ensures EmbedAll(bs, embed)[Start(k, b) + r] == embed(bs[k])[r]
    decreases k
  {
    var rest := bs[1..];
    assert OnePerText(embed, rest) by {
      forall j | 0 <= j < |rest| ensures |embed(rest[j])| == |rest[j]| { assert rest[j] == bs[j + 1]; }
    }
    EmbedAllLength(rest, embed);
    var head := embed(bs[0]);
    assert EmbedAll(bs, embed) == head + EmbedAll(rest, embed);
    if k > 0 {
      assert forall j | 0 <= j < k - 1 :: |rest[j]| == b by {
        forall j | 0 <= j < k - 1 ensures |rest[j]| == b { assert rest[j] == bs[j + 1]; }
      }
      EmbedAllFull(rest, embed, k - 1, r, b);
      assert |head| == b;
      assert Start(k, b) + r == |head| + (Start(k - 1, b) + r);
    }
  }

  /** The metadata stored with each vector. */
  datatype VectorMeta = VectorMeta(
    childId: string,
    parentId: string,
    caseId: string,
    caseName: string,
    decisionDate: string,
    court: string,
    citation: string,
    chunkIndex: nat,
    text: string)

  datatype Vector = Vector(id: string, values: Embedding, metadata: VectorMeta)

  /** The vector of one child: its id, its embedding, and selected metadata,
      with the case id as a string and the text cut to 1000 characters. */
  function ChildVector(child: ChildRecord, e: Embedding): (v: Vector)
    ensures v.id == child.id && v.metadata.childId == child.id && v.values == e
    ensures v.metadata.parentId == child.parentId && v.metadata.chunkIndex == child.chunkIndex
    ensures v.metadata.caseId == IntToString(child.metadata.caseId)
    ensures v.metadata.caseName == child.metadata.caseName && v.metadata.decisionDate == child.metadata.decisionDate
    ensures v.metadata.court == child.metadata.court && v.metadata.citation == child.metadata.citation
    ensures |v.metadata.text| == (if |child.text| < 1000 then |child.text| else 1000)
    ensures v.metadata.text <= child.text
  {
    Vector(child.id, e, VectorMeta(
      childId := child.id,
      parentId := child.parentId,
      caseId := IntToString(child.metadata.caseId),
      caseName := child.metadata.caseName,
      decisionDate := child.metadata.decisionDate,
      court := child.metadata.court,
      citation := child.metadata.citation,
      chunkIndex := child.chunkIndex,
      text := PyTake(child.text, MetadataTextLimit)))
  }

  /** The loop that prepares the upsert: vector i pairs child i with
      `embeddings[i]`, which raises when there are fewer embeddings than
      children. */
  function BuildVectors(children: seq<ChildRecord>, embeddings: seq<Embedding>): (r: Result<seq<Vector>, PyError>)
    ensures r.Failure? <==> |embeddings| < |children|
    ensures r.Success? ==>
      && |r.value| == |children|
      && forall i | 0 <= i < |children| :: r.value[i] == ChildVector(children[i], embeddings[i])
  {
    if |embeddings| < |children| then Failure(IndexError)
    else Success(seq(|children|, i requires 0 <= i < |children| => ChildVector(children[i], embeddings[i])))
  }

  /** `[child['text'] for child in children]` */
  function Texts(children: seq<ChildRecord>): (ts: seq<string>)
    ensures |ts| == |children| && forall i | 0 <= i < |children| :: ts[i] == children[i].text
  {
    seq(|children|, i requires 0 <= i < |children| => children[i].text)
  }

  /** `index_chunks`: embed the children's texts, build the vectors, and hand
      them to the index in batches of 100. The result is the list of upsert
      batches. */
  function IndexChunks(children: seq<ChildRecord>, embed: seq<string> -> seq<Embedding>)
    : (r: Result<seq<seq<Vector>>, PyError>)
    ensures var es := EmbedAll(Split(Texts(children), BatchSize), embed);
      r.Failure? <==> |es| < |children|
  {
    var es := GenerateEmbeddings(Texts(children), BatchSize, embed).value;
    var vs := BuildVectors(children, es);
    if vs.Failure? then Failure(vs.error) else Success(Split(vs.value, BatchSize))
  }

  /** What the index receives: one vector per child, in child order, carrying
      that child's id and its own text's embedding, sent in ceil(n / 100)
      consecutive batches of at most 100. */
  lemma IndexChunksUpserts(children: seq<ChildRecord>, embed: seq<string> -> seq<Embedding>)
    requires OnePerText(embed, Split(Texts(children), BatchSize))
    ensures var r := IndexChunks(children, embed);
      && r.Success?
      && |Concat(r.value)| == |children|
      && |r.value| == (|children| + 99) / 100
      && (forall k | 0 <= k < |r.value| :: 0 < |r.value[k]| <= 100)
      && forall i | 0 <= i < |children| ::
           var v := Concat(r.value)[i];
           && v.id == children[i].id
           && v.metadata.parentId == children[i].parentId
           && i / 100 < |Split(Texts(children), 100)|
           && i % 100 < |embed(Split(Texts(children), 100)[i / 100])|
           && v.values == embed(Split(Texts(children), 100)[i / 100])[i % 100]
  {
    var ts := Texts(children);
    var es := EmbedAll(Split(ts, BatchSize), embed);
    EmbeddingsAligned(ts, BatchSize, embed);
    var vs := BuildVectors(children, es).value;
    SplitConcat(vs, BatchSize);
    BatchCount(vs, BatchSize);
    forall i | 0 <= i < |children|
      ensures i / 100 < |Split(ts, 100)| && i % 100 < |embed(Split(ts, 100)[i / 100])|
      ensures Concat(Split(vs, BatchSize))[i].values == embed(Split(ts, 100)[i / 100])[i % 100]
    {
      assert AlignedAt(ts, BatchSize, embed, i);
    }
  }

  /** Why `main` stops before loading anything. */
  datatype Launch = MissingPineconeKey | MissingOpenAiKey | Proceed

  /** Python truthiness of an optional setting: absent and empty are false. */
  predicate Set(key: Option<string>) {
    key.Some? && key.value != ""
  }

  /** The configuration checks at the top of `main`: the Pinecone key is
      checked first, then the OpenAI key. */
  function CheckKeys(pineconeKey: Option<string>, openAiKey: Option<string>): (s: Launch)
    ensures s == Proceed <==> Set(pineconeKey) && Set(openAiKey)
    ensures s == MissingPineconeKey <==> !Set(pineconeKey)
  {
    if !Set(pineconeKey) then MissingPineconeKey
    else if !Set(openAiKey) then MissingOpenAiKey
    else Proceed
  }
}

=== FILE: evaluate_rag.dfy ===
/** The evaluation harness: per-query retrieval metrics over case ids,
    citation extraction and verification, performance and cost figures, the
    loop that isolates failing queries, and the aggregation over the valid
    results. Metrics are exact ratios (`real`); float rounding is not modelled. */
module EvaluateRag {
  import opened Wrappers
  import opened Slices
  import opened Whitespace
  import opened CaseRecord

  // ---------------------------------------------------------------- retrieval

  /** A test query of the evaluation dataset; `query_id` may be absent. */
  datatype TestQuery = TestQuery(
    queryId: Option<string>,
    query: string,
    relevantCaseIds: Option<seq<int>>,
    expectedPoints: Option<seq<string>>)

  /** A retrieved match as the metrics see it: `int(metadata['case_id'])`,
      absent when the match has no case id. */
  datatype RetrievedCase = RetrievedCase(caseId: Option<int>)

  /** `int(case.get("metadata", {}).get("case_id", -1))` */
  function RetrievedId(c: RetrievedCase): int {
    c.caseId.GetOr(-1)
  }

  /** The case ids of the first five retrieved matches. */
  function TopFiveIds(retrieved: seq<RetrievedCase>): (ids: seq<int>)
    ensures |ids| == if |retrieved| < 5 then |retrieved| else 5
    ensures forall i | 0 <= i < |ids| :: ids[i] == RetrievedId(retrieved[i])
  {
    var top := PyTake(retrieved, 5);
    seq(|top|, i requires 0 <= i < |top| => RetrievedId(top[i]))
  }

  /** `[cid for cid in ids if cid in relevant]`: order and repeats kept. */
  function Hits(ids: seq<int>, relevant: set<int>): (hs: seq<int>)
    ensures |hs| <= |ids|
    ensures forall k | 0 <= k < |hs| :: hs[k] in relevant
    ensures forall k | 0 <= k < |ids| && ids[k] in relevant :: ids[k] in hs
    decreases |ids|
  {
    if ids == [] then []
    else
      var rest := Hits(ids[1..], relevant);
      if ids[0] in relevant then [ids[0]] + rest else rest
  }

  /** The hits are exactly the relevant ids, each as often as it occurs, in
      the order of `ids`; so their number, which precision and recall
      divide, counts the relevant positions. */
  lemma {:induction false} HitsExact(ids: seq<int>, relevant: set<int>)
    ensures forall x :: multiset(Hits(ids, relevant))[x] == if x in relevant then multiset(ids)[x] else 0
    ensures Subsequence(Hits(ids, relevant), ids)
    decreases |ids|
  {
    if ids != [] {
      var rest := Hits(ids[1..], relevant);
      HitsExact(ids[1..], relevant);
      assert ids == [ids[0]] + ids[1..];
      if ids[0] !in relevant {
        assert rest != [] ==> rest[0] != ids[0];
      }
    }
  }

  /** `xs` is `ys` with some elements left out, the rest in order. */
  predicate Subsequence(xs: seq<int>, ys: seq<int>)
    decreases |ys|
  {
    if xs == [] then true
    else if ys == [] then false
    else if xs[0] == ys[0] then Subsequence(xs[1..], ys[1..])
    else Subsequence(xs, ys[1..])
  }

  /** The hit list distributes over concatenation. */
  lemma {:induction false} HitsAppend(a: seq<int>, b: seq<int>, relevant: set<int>)
    ensures Hits(a + b, relevant) == Hits(a, relevant) + Hits(b, relevant)
    decreases |a|
  {
    if a != [] {
      assert (a + b)[0] == a[0] && (a + b)[1..] == a[1..] + b;
      HitsAppend(a[1..], b, relevant);
    } else {
      assert a + b == b;
    }
  }

  /** Position of the first relevant id, if any. */
  function FirstHit(ids: seq<int>, relevant: set<int>): (i: Option<nat>)
    ensures i.Some? ==>
      && i.value < |ids| && ids[i.value] in relevant
      && forall j | 0 <= j < i.value :: ids[j] !in relevant
    ensures i.None? ==> forall j | 0 <= j < |ids| :: ids[j] !in relevant
    decreases |ids|
  {
    if ids == [] then None
    else if ids[0] in relevant then Some(0)
    else match FirstHit(ids[1..], relevant)
      case None => None
      case Some(j) => Some(j + 1)
  }

  datatype Retrieval =
    | NoGroundTruth
    | Scored(precision: real, recall: real, mrr: real, retrievedIds: seq<int>, relevantRetrieved: seq<int>)

  /** `set(query.get("relevant_case_ids", []))` */
  function RelevantSet(q: TestQuery): set<int> {
    set i | i in q.relevantCaseIds.GetOr([])
  }

  /** `evaluate_retrieval`. Precision@5 divides the hits by 5 but is 0 when
      fewer than five matches came back; recall divides by the number of
      distinct relevant ids; MRR is 1/i for the first 1-based position i
      holding a relevant id. */
  function EvaluateRetrieval(q: TestQuery, retrieved: seq<RetrievedCase>): (r: Retrieval)
    ensures r.NoGroundTruth? <==> RelevantSet(q) == {}
    ensures r.Scored? ==>
      var rel := RelevantSet(q);
      && r.retrievedIds == TopFiveIds(retrieved)
      && r.relevantRetrieved == Hits(r.retrievedIds, rel)
      && r.precision == (if |retrieved| >= 5 then |r.relevantRetrieved| as real / 5.0 else 0.0)
      && r.recall == |r.relevantRetrieved| as real / |rel| as real
      && r.mrr == match FirstHit(r.retrievedIds, rel)
                  case None => 0.0
                  case Some(i) => 1.0 / (i + 1) as real
  {
    var rel := RelevantSet(q);
    if rel == {} then NoGroundTruth
    else
      var ids := TopFiveIds(retrieved);
      var hits := Hits(ids, rel);
      var precision := if |retrieved| >= 5 then |hits| as real / 5.0 else 0.0;
      var recall := |hits| as real / |rel| as real;
      var mrr := match FirstHit(ids, rel) case None => 0.0 case Some(i) => 1.0 / (i + 1) as real;
      Scored(precision, recall, mrr, ids, hits)
  }

  /** Precision@5 lies in [0, 1] and is 0 when fewer than five matches came back. */
  lemma PrecisionBounds(q: TestQuery, retrieved: seq<RetrievedCase>)
    requires EvaluateRetrieval(q, retrieved).Scored?
    ensures var r := EvaluateRetrieval(q, retrieved);
      && 0.0 <= r.precision <= 1.0
      && (|retrieved| < 5 ==> r.precision == 0.0)
  {
  }

  /** MRR is one of 0, 1, 1/2, 1/3, 1/4 and 1/5. */
  lemma MrrValues(q: TestQuery, retrieved: seq<RetrievedCase>)
    requires EvaluateRetrieval(q, retrieved).Scored?
    ensures var m := EvaluateRetrieval(q, retrieved).mrr;
      m == 0.0 || m == 1.0 || m == 1.0 / 2.0 || m == 1.0 / 3.0 || m == 1.0 / 4.0 || m == 1.0 / 5.0
  {
    var ids := TopFiveIds(retrieved);
    match FirstHit(ids, RelevantSet(q)) {
      case None =>
      case Some(i) =>
        assert i < 5;
        assert i == 0 || i == 1 || i == 2 || i == 3 || i == 4;
    }
  }

  predicate Distinct(xs: seq<int>) {
    forall i, j | 0 <= i < j < |xs| :: xs[i] != xs[j]
  }

  /** Keeping some of the elements keeps them distinct. */
  lemma {:induction false} HitsDistinct(ids: seq<int>, relevant: set<int>)
    requires Distinct(ids)
    ensures Distinct(Hits(ids, relevant))
    ensures forall k | 0 <= k < |Hits(ids, relevant)| :: Hits(ids, relevant)[k] in ids
    decreases |ids|
  {
    if ids != [] {
      var rest := ids[1..];
      assert Distinct(rest) by {
        forall i, j | 0 <= i < j < |rest| ensures rest[i] != rest[j] { assert rest[i] == ids[i + 1] && rest[j] == ids[j + 1]; }
      }
      HitsDistinct(rest, relevant);
      var hs := Hits(rest, relevant);
      if ids[0] in relevant {
        var r := [ids[0]] + hs;
        forall i, j | 0 <= i < j < |r| ensures r[i] != r[j] {
          if i == 0 {
            assert r[j] == hs[j - 1] && hs[j - 1] in rest;
            var k :| 0 <= k < |rest| && rest[k] == r[j];
            assert ids[k + 1] == r[j];
          }
        }
      }
    }
  }

  /** A sequence of distinct elements of a set is no longer than the set. */
  lemma {:induction false} DistinctWithin(xs: seq<int>, s: set<int>)
    requires Distinct(xs) && forall k | 0 <= k < |xs| :: xs[k] in s
    ensures |xs| <= |s|
    decreases |xs|
  {
    if xs != [] {
      var x := xs[0];
      var rest := xs[1..];
      assert Distinct(rest) by {
        forall i, j | 0 <= i < j < |rest| ensures rest[i] != rest[j] { assert rest[i] == xs[i + 1] && rest[j] == xs[j + 1]; }
      }
      forall k | 0 <= k < |rest| ensures rest[k] in s - {x} {
        assert rest[k] == xs[k + 1] && xs[k + 1] != xs[0];
      }
      DistinctWithin(rest, s - {x});
    }
  }

  /** Recall@5 is at most 1 when the first five retrieved case ids are
      distinct. */
  lemma RecallAtMostOneWhenDistinct(q: TestQuery, retrieved: seq<RetrievedCase>)
    requires EvaluateRetrieval(q, retrieved).Scored?
    requires Distinct(TopFiveIds(retrieved))
    ensures 0.0 <= EvaluateRetrieval(q, retrieved).recall <= 1.0
  {
    var rel := RelevantSet(q);
    var hits := Hits(TopFiveIds(retrieved), rel);
    HitsDistinct(TopFiveIds(retrieved), rel);
    DistinctWithin(hits, rel);
    AccuracyRange(|hits|, |rel|);
  }

  /** Repeated ids are counted again: five matches from one relevant case
      give Recall@5 = 5. */
  lemma RecallCountsRepeats()
    ensures var r := EvaluateRetrieval(TestQuery(Some("q"), "", Some([7]), None), seq(5, _ => RetrievedCase(Some(7))));
      r.Scored? && r.recall == 5.0 && r.precision == 1.0
  {
    var q := TestQuery(Some("q"), "", Some([7]), None);
    var retrieved := seq(5, _ => RetrievedCase(Some(7)));
    RepeatHits(q, retrieved);
    var r := EvaluateRetrieval(q, retrieved);
    assert r.recall == 5.0 / 1.0;
    assert r.precision == 5.0 / 5.0;
  }

  lemma RepeatHits(q: TestQuery, retrieved: seq<RetrievedCase>)
    requires q == TestQuery(Some("q"), "", Some([7]), None) && retrieved == seq(5, _ => RetrievedCase(Some(7)))
    ensures |RelevantSet(q)| == 1 && |retrieved| == 5
    ensures |Hits(TopFiveIds(retrieved), RelevantSet(q))| == 5
  {
    assert RelevantSet(q) == {7};
    var ids := TopFiveIds(retrieved);
    assert ids == [7, 7, 7, 7, 7];
    HitsAllRelevant(ids, {7});
  }

  /** Five matches, three of them relevant, against four relevant cases. */
  function ExampleQuery(): TestQuery {
    TestQuery(Some("q"), "", Some([1, 2, 3, 4]), None)
  }

  function ExampleMatches(): seq<RetrievedCase> {
    [RetrievedCase(Some(1)), RetrievedCase(Some(20)), RetrievedCase(Some(2)),
     RetrievedCase(Some(30)), RetrievedCase(Some(3))]
  }

  /** For the example, Precision@5 = 0.6 and Recall@5 = 0.75. */
  lemma PrecisionRecallExample()
    ensures EvaluateRetrieval(ExampleQuery(), ExampleMatches()).Scored?
    ensures EvaluateRetrieval(ExampleQuery(), ExampleMatches()).precision == 0.6
    ensures EvaluateRetrieval(ExampleQuery(), ExampleMatches()).recall == 0.75
  {
    ExampleHits();
    var r := EvaluateRetrieval(ExampleQuery(), ExampleMatches());
    assert |ExampleMatches()| == 5;
    assert r.relevantRetrieved == [1, 2, 3];
  }

  /** MRR is 1 exactly when the first match is relevant. */
  lemma MrrFirstRelevant(q: TestQuery, retrieved: seq<RetrievedCase>)
    requires EvaluateRetrieval(q, retrieved).Scored?
    ensures var r := EvaluateRetrieval(q, retrieved);
      r.mrr == 1.0 <==> FirstHit(r.retrievedIds, RelevantSet(q)) == Some(0)
  {
    var r := EvaluateRetrieval(q, retrieved);
    match FirstHit(r.retrievedIds, RelevantSet(q)) {
      case None =>
      case Some(i) =>
        assert r.mrr == 1.0 / (i + 1) as real;
        if i > 0 {
          assert (i + 1) as real > 1.0;
        } else {
          assert (i + 1) as real == 1.0;
        }
    }
  }

  lemma ExampleHits()
    ensures RelevantSet(ExampleQuery()) == {1, 2, 3, 4} && |RelevantSet(ExampleQuery())| == 4
    ensures TopFiveIds(ExampleMatches()) == [1, 20, 2, 30, 3]
    ensures Hits([1, 20, 2, 30, 3], {1, 2, 3, 4}) == [1, 2, 3]
  {
    var rel: set<int> := {1, 2, 3, 4};
    assert RelevantSet(ExampleQuery()) == rel;
    assert |rel| == 4;
    var ids := [1, 20, 2, 30, 3];
    assert Hits([3], rel) == [3];
    assert Hits([30, 3], rel) == [3] by { assert [30, 3][1..] == [3]; }
    assert Hits([2, 30, 3], rel) == [2, 3] by { assert [2, 30, 3][1..] == [30, 3]; }
    assert Hits([20, 2, 30, 3], rel) == [2, 3] by { assert [20, 2, 30, 3][1..] == [2, 30, 3]; }
    assert Hits(ids, rel) == [1, 2, 3] by { assert ids[1..] == [20, 2, 30, 3]; }
  }

  /** When every id is relevant, every id is a hit. */
  lemma {:induction false} HitsAllRelevant(ids: seq<int>, relevant: set<int>)
    requires forall k | 0 <= k < |ids| :: ids[k] in relevant
    ensures Hits(ids, relevant) == ids
    decreases |ids|
  {
    if ids != [] {
      HitsAllRelevant(ids[1..], relevant);
    }
  }

  // ---------------------------------------------------------------- citations

  /** `word.lower() == "v."`: only "v." and "V." lower-case to it. */
  predicate IsVersus(w: string) {
    w == "v." || w == "V."
  }

  /** The positions i, from `from` on, of words "v." that have a word on each
      side. */
  function VersusPositions(ws: seq<string>, from: nat): (ps: seq<nat>)
    ensures forall k | 0 <= k < |ps| :: from <= ps[k] && 0 < ps[k] < |ws| - 1 && IsVersus(ws[ps[k]])
    ensures forall k, l | 0 <= k < l < |ps| :: ps[k] < ps[l]
    decreases |ws| - from
  {
    if from + 1 >= |ws| then []
    else if from > 0 && IsVersus(ws[from]) then [from] + VersusPositions(ws, from + 1)
    else VersusPositions(ws, from + 1)
  }

  /** Every interior "v." from `from` on is found. */
  lemma {:induction false} VersusPositionsComplete(ws: seq<string>, from: nat, i: nat)
    requires from <= i && 0 < i < |ws| - 1 && IsVersus(ws[i])
    ensures i in VersusPositions(ws, from)
    decreases i - from
  {
    if from < i {
      VersusPositionsComplete(ws, from + 1, i);
    }
  }

  /** "a v. b" around an interior "v." of the words. */
  function CitationAt(ws: seq<string>, i: nat): string
    requires 0 < i < |ws| - 1
  {
    ws[i - 1] + " v. " + ws[i + 1]
  }

  /** `_extract_citations`: "<previous word> v. <next word>" for each such
      position, in order, repeats kept. */
  function ExtractCitations(text: string): (cs: seq<string>)
    ensures var ws := Words(text); var ps := VersusPositions(ws, 0);
      && |cs| == |ps|
      && forall k | 0 <= k < |cs| :: cs[k] == CitationAt(ws, ps[k])
  {
    var ws := Words(text);
    var ps := VersusPositions(ws, 0);
    seq(|ps|, k requires 0 <= k < |ps| => CitationAt(ws, ps[k]))
  }

  /** Every interior "v." of the answer's words yields its citation. */
  lemma EveryVersusCited(text: string, i: nat)
    ensures 0 < i < |Words(text)| - 1 && IsVersus(Words(text)[i]) ==>
      CitationAt(Words(text), i) in ExtractCitations(text)
  {
    var ws := Words(text);
    if 0 < i < |ws| - 1 && IsVersus(ws[i]) {
      var ps := VersusPositions(ws, 0);
      var cs := ExtractCitations(text);
      VersusPositionsComplete(ws, 0, i);
      var k :| 0 <= k < |ps| && ps[k] == i;
      assert cs[k] == CitationAt(ws, i);
    }
  }

  /** Every citation comes from an interior "v." of the answer's words. */
  lemma CitedOnlyAtVersus(text: string, k: nat)
    requires k < |ExtractCitations(text)|
    ensures exists i | 0 < i < |Words(text)| - 1 ::
      IsVersus(Words(text)[i]) && ExtractCitations(text)[k] == CitationAt(Words(text), i)
  {
    var ws := Words(text);
    var ps := VersusPositions(ws, 0);
    var i := ps[k];
    assert IsVersus(ws[i]) && ExtractCitations(text)[k] == CitationAt(ws, i);
  }

  // ---------------------------------------------------------------- answer quality

  /** A source as the answer check sees it: the `case_id` and `case_name` of
      its metadata, when present and strings. */
  datatype Source = Source(caseId: Option<string>, caseName: Option<string>)

  /** `cite in retrieved_case_names or cite in retrieved_case_ids`: exact
      string membership, no normalisation. */
  predicate Verified(cite: string, sources: seq<Source>) {
    exists i | 0 <= i < |sources| :: sources[i].caseName == Some(cite) || sources[i].caseId == Some(cite)
  }

  function CountVerified(cites: seq<string>, sources: seq<Source>): (n: nat)
    ensures n <= |cites|
    ensures n == |cites| <==> forall k | 0 <= k < |cites| :: Verified(cites[k], sources)
    decreases |cites|
  {
    if cites == [] then 0
    else
      var rest := CountVerified(cites[1..], sources);
      assert forall k | 0 < k < |cites| :: cites[k] == cites[1..][k - 1];
      if Verified(cites[0], sources) then 1 + rest else rest
  }

  datatype AnswerMetrics = AnswerMetrics(
    citationAccuracy: real,
    totalCitations: nat,
    verifiedCitations: nat,
    expectedPoints: seq<string>,
    expectedPointsCount: nat,
    answerLength: nat,
    hasExpectedPoints: bool)

  /** `evaluate_answer_quality`: the share of extracted citations found among
      the sources' case names and ids, 1.0 when there are none. */
  function EvaluateAnswerQuality(q: TestQuery, answer: string, sources: seq<Source>): (m: AnswerMetrics)
    ensures m.expectedPoints == q.expectedPoints.GetOr([])
    ensures m.totalCitations == |ExtractCitations(answer)|
    ensures m.verifiedCitations == CountVerified(ExtractCitations(answer), sources)
    ensures 0.0 <= m.citationAccuracy <= 1.0
    ensures m.totalCitations == 0 ==> m.citationAccuracy == 1.0
    ensures m.totalCitations > 0 ==>
      m.citationAccuracy == m.verifiedCitations as real / m.totalCitations as real
    ensures m.citationAccuracy == 1.0 <==>
      forall k | 0 <= k < |ExtractCitations(answer)| :: Verified(ExtractCitations(answer)[k], sources)
    ensures m.expectedPointsCount == |m.expectedPoints| && m.answerLength == |answer|
    ensures m.hasExpectedPoints <==> m.expectedPoints != []
  {
    var cites := ExtractCitations(answer);
    var verified := CountVerified(cites, sources);
    var total := |cites|;
    var accuracy := if total > 0 then verified as real / total as real else 1.0;
    var points := q.expectedPoints.GetOr([]);
    AccuracyRange(verified, total);
    AnswerMetrics(accuracy, total, verified, points, |points|, |answer|, |points| > 0)
  }

  lemma AccuracyRange(v: nat, t: nat)
    requires v <= t
    ensures t > 0 ==> 0.0 <= v as real / t as real <= 1.0
    ensures t > 0 ==> (v as real / t as real == 1.0 <==> v == t)
  {
  }

  /** Verification is exact: a citation that differs from the source's case
      name only by a trailing comma is not verified. */
  lemma VerificationIsExact()
    ensures !Verified("Grubb v. Rockey,", [Source(None, Some("Grubb v. Rockey"))])
  {
    assert "Grubb v. Rockey," != "Grubb v. Rockey" by {
      assert |"Grubb v. Rockey,"| != |"Grubb v. Rockey"|;
    }
  }

  // ---------------------------------------------------------------- performance and cost

  datatype Performance = Performance(totalLatency: real, embeddingTime: real, searchTime: real, llmTime: real)

  /** `timings.get(key, 0)` */
  function Timing(timings: map<string, real>, key: string): real {
    if key in timings then timings[key] else 0.0
  }

  /** `evaluate_performance`: the stage timings, 0 for a stage not measured. */
  function EvaluatePerformance(timings: map<string, real>): (p: Performance)
    ensures "total" !in timings ==> p.totalLatency == 0.0
    ensures "total" in timings ==> p.totalLatency == timings["total"]
    ensures "embedding" !in timings ==> p.embeddingTime == 0.0
    ensures "embedding" in timings ==> p.embeddingTime == timings["embedding"]
    ensures "search" !in timings ==> p.searchTime == 0.0
    ensures "search" in timings ==> p.searchTime == timings["search"]
    ensures "llm" !in timings ==> p.llmTime == 0.0
    ensures "llm" in timings ==> p.llmTime == timings["llm"]
  {
    Performance(Timing(timings, "total"), Timing(timings, "embedding"), Timing(timings, "search"), Timing(timings, "llm"))
  }

  datatype Cost = Cost(embeddingCost: real, llmInputCost: real, llmOutputCost: real, totalCost: real)

  /** Fixed context estimate: five chunks of about 200 tokens. */
  const ContextTokens: real := 1000.0

  /** `evaluate_cost`: about four characters per token, $0.00002 per 1K
      embedding tokens, $3 per 1M input and $15 per 1M output tokens. */
  function EvaluateCost(query: string, answer: string): (c: Cost)
    ensures c.totalCost == c.embeddingCost + c.llmInputCost + c.llmOutputCost
    ensures c.embeddingCost >= 0.0 && c.llmInputCost >= 0.003 && c.llmOutputCost >= 0.0
    ensures c.embeddingCost == 0.000000005 * |query| as real
    ensures c.llmInputCost == 0.003 + 0.00000075 * |query| as real
    ensures c.llmOutputCost == 0.00000375 * |answer| as real
  {
    var queryTokens := |query| as real / 4.0;
    var answerTokens := |answer| as real / 4.0;
    var embedding := (queryTokens / 1000.0) * 0.00002;
    var input := ((queryTokens + ContextTokens) / 1000000.0) * 3.0;
    var output := (answerTokens / 1000000.0) * 15.0;
    Cost(embedding, input, output, embedding + input + output)
  }

  /** The cost is linear in the two lengths: a fixed $0.003 for the context,
      plus a rate per query character and per answer character. */
  lemma CostClosedForm(query: string, answer: string)
    ensures EvaluateCost(query, answer).totalCost
      == 0.003 + 0.000000755 * |query| as real + 0.00000375 * |answer| as real
  {
  }

  /** Longer queries and answers never cost less. */
  lemma CostMonotone(q1: string, a1: string, q2: string, a2: string)
    requires |q1| <= |q2| && |a1| <= |a2|
    ensures 0.003 <= EvaluateCost(q1, a1).totalCost <= EvaluateCost(q2, a2).totalCost
  {
    CostClosedForm(q1, a1);
    CostClosedForm(q2, a2);
  }

  // ---------------------------------------------------------------- the run

  /** What one successfully evaluated query records. */
  datatype Evaluated = Evaluated(retrieval: Retrieval, answer: AnswerMetrics, performance: Performance, cost: Cost)

  datatype QueryRecord =
    | QueryError(queryId: string, error: string)
    | QueryOk(queryId: string, result: Evaluated)

  /** `queries[:max_queries]` when `max_queries` is given and non-zero; a
      negative bound drops that many queries from the end. */
  function Selected(queries: seq<TestQuery>, maxQueries: Option<int>): (qs: seq<TestQuery>)
    ensures qs <= queries
    ensures maxQueries.None? || maxQueries == Some(0) ==> qs == queries
    ensures maxQueries.Some? && maxQueries.value > 0 ==>
      |qs| == if maxQueries.value < |queries| then maxQueries.value else |queries|
    ensures maxQueries.Some? && maxQueries.value < 0 ==>
      |qs| == if |queries| + maxQueries.value > 0 then |queries| + maxQueries.value else 0
  {
    match maxQueries
    case None => queries
    case Some(m) => if m == 0 then queries else PyTake(queries, m)
  }

  /** The loop of `run_evaluation`: each query runs on its own, and a query
      whose run raises is recorded with its id and message; the loop goes on.
      `run` stands for `run_single_query`, which calls the services. A query
      without `query_id` makes `run_single_query` raise, and the handler then
      raises `KeyError('query_id')` itself while reading the id for its
      record, so the whole run stops with that error. */
  function RunQueries(queries: seq<TestQuery>, run: TestQuery -> Result<Evaluated, string>): (r: Result<seq<QueryRecord>, PyError>)
    ensures r.Failure? <==> exists i | 0 <= i < |queries| :: queries[i].queryId.None?
    ensures r.Failure? ==> r.error == KeyError("query_id")
    ensures r.Success? ==> |r.value| == |queries|
    ensures r.Success? ==> forall i | 0 <= i < |queries| ::
      && queries[i].queryId.Some?
      && r.value[i].queryId == queries[i].queryId.value
      && (r.value[i].QueryError? <==> run(queries[i]).Failure?)
      && (r.value[i].QueryError? ==> r.value[i].error == run(queries[i]).error)
      && (r.value[i].QueryOk? ==> r.value[i].result == run(queries[i]).value)
  {
    if exists i | 0 <= i < |queries| :: queries[i].queryId.None? then
      Failure(KeyError("query_id"))
    else
      Success(seq(|queries|, i requires 0 <= i < |queries| =>
        var id := queries[i].queryId.value;
        match run(queries[i])
        case Success(e) => QueryOk(id, e)
        case Failure(msg) => QueryError(id, msg)))
  }

  // ---------------------------------------------------------------- aggregation

  function Sum(xs: seq<real>): real
    decreases |xs|
  {
    if xs == [] then 0.0 else xs[0] + Sum(xs[1..])
  }

  /** `statistics.mean` */
  function Mean(xs: seq<real>): real
    requires xs != []
  {
    Sum(xs) / |xs| as real
  }

  lemma {:induction false} SumBounds(xs: seq<real>, lo: real, hi: real)
    requires forall k | 0 <= k < |xs| :: lo <= xs[k] <= hi
    ensures |xs| as real * lo <= Sum(xs) <= |xs| as real * hi
    decreases |xs|
  {
    if xs != [] {
      SumBounds(xs[1..], lo, hi);
    }
  }

  /** A mean of values in [lo, hi] lies in [lo, hi]. */
  lemma MeanBounds(xs: seq<real>, lo: real, hi: real)
    requires xs != [] && forall k | 0 <= k < |xs| :: lo <= xs[k] <= hi
    ensures lo <= Mean(xs) <= hi
  {
    SumBounds(xs, lo, hi);
    DivBounds(Sum(xs), |xs| as real, lo, hi);
  }

  lemma DivBounds(s: real, n: real, lo: real, hi: real)
    requires n > 0.0 && n * lo <= s <= n * hi
    ensures lo <= s / n <= hi
  {
  }

  predicate Sorted(xs: seq<real>) {
    forall i, j | 0 <= i < j < |xs| :: xs[i] <= xs[j]
  }

  /** Inserting into a sorted sequence: one element more, the others kept. */
  function Insert(x: real, xs: seq<real>): (r: seq<real>)
    ensures |r| == |xs| + 1
    ensures forall k | 0 <= k < |r| :: r[k] == x || r[k] in xs
    ensures multiset(r) == multiset(xs) + multiset{x}
    decreases |xs|
  {
    if xs == [] || x <= xs[0] then [x] + xs
    else
      assert xs == [xs[0]] + xs[1..];
      [xs[0]] + Insert(x, xs[1..])
  }

  lemma {:induction false} InsertSorted(x: real, xs: seq<real>)
    requires Sorted(xs)
    ensures Sorted(Insert(x, xs))
    decreases |xs|
  {
    if xs != [] && x > xs[0] {
      var tail := Insert(x, xs[1..]);
      InsertSorted(x, xs[1..]);
      forall k | 0 <= k < |tail| ensures xs[0] <= tail[k] {
        if tail[k] != x {
          var i :| 0 <= i < |xs[1..]| && xs[1..][i] == tail[k];
          assert xs[i + 1] == tail[k];
        }
      }
      assert Insert(x, xs) == [xs[0]] + tail;
    }
  }

  /** `sorted(data)` */
  function SortReals(xs: seq<real>): (r: seq<real>)
    ensures |r| == |xs| && Sorted(r) && multiset(r) == multiset(xs)
    decreases |xs|
  {
    if xs == [] then []
    else
      assert xs == [xs[0]] + xs[1..];
      InsertSorted(xs[0], SortReals(xs[1..]));
      Insert(xs[0], SortReals(xs[1..]))
  }

  /** Cut point 19 of 20 for `len(data) == ld` in the exclusive method:
      `19 * (ld + 1) // 20`, clamped to 1 .. ld - 1. From two data points on
      it is at least 2, so only the upper clamp can act. */
  function CutIndex(ld: nat): (j: nat)
    requires ld >= 2
    ensures 1 <= j <= ld - 1
  {
    var j0 := 19 * (ld + 1) / 20;
    if j0 > ld - 1 then ld - 1 else j0
  }

  /** The interpolation weight `19 * (ld + 1) - 20 * j` of the upper neighbour. */
  function CutWeight(ld: nat): int
    requires ld >= 2
  {
    19 * (ld + 1) - 20 * CutIndex(ld)
  }

  /** From nineteen data points on the weight lies in 0 .. 20; below that
      the upper clamp acts and the weight exceeds 20. */
  lemma CutWeightRange(ld: nat)
    requires ld >= 2
    ensures ld >= 19 ==> 0 <= CutWeight(ld) <= 20
    ensures ld < 19 ==> CutWeight(ld) > 20
  {
    var j0 := 19 * (ld + 1) / 20;
    if ld >= 20 {
      assert 19 * (ld + 1) < 20 * ld;
      assert j0 <= ld - 1;
    } else {
      assert 19 * (ld + 1) >= 20 * ld;
      assert j0 >= ld;
    }
  }

  /** `statistics.quantiles(data, n=20)[18]` with the default exclusive
      method: the sorted data at cut index j - 1 and j, weighted 20 - w and w
      over 20, where w is the cut weight. Below twenty data points the weight
      exceeds 20 and the result extrapolates. */
  function P95(data: seq<real>): real
    requires |data| >= 2
  {
    var s := SortReals(data);
    var j := CutIndex(|s|);
    Between(s[j - 1], s[j], CutWeight(|s|))
  }

  /** `(a * (20 - w) + b * w) / 20` */
  function Between(a: real, b: real, w: int): real {
    (a * (20 - w) as real + b * w as real) / 20.0
  }

  /** From nineteen data points on, the P95 lies within the data. */
  lemma P95WithinData(data: seq<real>, lo: real, hi: real)
    requires |data| >= 19
    requires forall k | 0 <= k < |data| :: lo <= data[k] <= hi
    ensures lo <= P95(data) <= hi
  {
    var s := SortReals(data);
    var j := CutIndex(|s|);
    CutWeightRange(|s|);
    InData(data, s, j - 1, lo, hi);
    InData(data, s, j, lo, hi);
    Interpolate(s[j - 1], s[j], CutWeight(|s|), lo, hi);
  }

  lemma InData(data: seq<real>, s: seq<real>, i: nat, lo: real, hi: real)
    requires multiset(s) == multiset(data) && i < |s|
    requires forall k | 0 <= k < |data| :: lo <= data[k] <= hi
    ensures lo <= s[i] <= hi
  {
    assert s[i] in multiset(data);
    var k :| 0 <= k < |data| && data[k] == s[i];
  }

  lemma Interpolate(a: real, b: real, delta: int, lo: real, hi: real)
    requires lo <= a <= hi && lo <= b <= hi && 0 <= delta <= 20
    ensures lo <= Between(a, b, delta) <= hi
  {
    var u := (20 - delta) as real;
    var v := delta as real;
    Weighted(a, b, u, v, lo, hi);
    assert u + v == 20.0;
  }

  /** A weighted sum of two values in [lo, hi] lies between the weights'
      total times lo and times hi. */
  lemma Weighted(a: real, b: real, u: real, v: real, lo: real, hi: real)
    requires lo <= a <= hi && lo <= b <= hi && u >= 0.0 && v >= 0.0
    ensures (u + v) * lo <= a * u + b * v <= (u + v) * hi
  {
    WeightedLow(a, b, u, v, lo);
    WeightedHigh(a, b, u, v, hi);
  }

  lemma WeightedLow(a: real, b: real, u: real, v: real, lo: real)
    requires lo <= a && lo <= b && u >= 0.0 && v >= 0.0
    ensures (u + v) * lo <= a * u + b * v
  {
    MulLe(lo, a, u);
    MulLe(lo, b, v);
  }

  lemma WeightedHigh(a: real, b: real, u: real, v: real, hi: real)
    requires a <= hi && b <= hi && u >= 0.0 && v >= 0.0
    ensures a * u + b * v <= (u + v) * hi
  {
    MulLe(a, hi, u);
    MulLe(b, hi, v);
  }

  lemma MulLe(a: real, b: real, c: real)
    requires a <= b && c >= 0.0
    ensures a * c <= b * c
  {
  }

  /** With two data points the P95 extrapolates past the larger one:
      1.0 and 2.0 give 2.85. */
  lemma P95BeyondMaximum()
    ensures P95([1.0, 2.0]) == 2.85
  {
    assert SortReals([2.0]) == [2.0];
    assert [1.0, 2.0][1..] == [2.0];
    assert SortReals([1.0, 2.0]) == [1.0, 2.0];
  }

  datatype RetrievalSummary = RetrievalSummary(avgPrecision: real, avgRecall: real, avgMrr: real, queriesWithGroundTruth: nat)
  datatype AnswerSummary = AnswerSummary(avgCitationAccuracy: real, queriesWithCitations: nat)
  datatype PerformanceSummary = PerformanceSummary(
    avgTotalLatency: real, avgEmbeddingTime: real, avgSearchTime: real, avgLlmTime: real, p95TotalLatency: real)
  datatype CostSummary = CostSummary(avgCostPerQuery: real, totalCost: real, avgEmbeddingCost: real, avgLlmCost: real)

  /** The four sections of the results; a section never filled stays empty. */
  datatype Report = Report(
    retrieval: Option<RetrievalSummary>,
    answerQuality: Option<AnswerSummary>,
    performance: Option<PerformanceSummary>,
    cost: Option<CostSummary>)

  const EmptyReport := Report(None, None, None, None)

  /** `[r for r in results if "error" not in r]` */
  function Valid(rs: seq<QueryRecord>): (es: seq<Evaluated>)
    ensures |es| <= |rs|
    decreases |rs|
  {
    if rs == [] then []
    else match rs[0]
      case QueryError(_, _) => Valid(rs[1..])
      case QueryOk(_, e) => [e] + Valid(rs[1..])
  }

  /** Whether a valid result's query had ground truth. */
  predicate HasGroundTruth(e: Evaluated) {
    e.retrieval.Scored?
  }

  /** Whether a valid result's answer cited at least one case. */
  predicate HasCitations(e: Evaluated) {
    e.answer.totalCitations > 0
  }

  /** The retrieval metrics of the queries that have ground truth. */
  function Scores(es: seq<Evaluated>): (ss: seq<Retrieval>)
    ensures forall k | 0 <= k < |ss| :: ss[k].Scored?
    ensures |ss| <= |es|
    decreases |es|
  {
    if es == [] then []
    else if HasGroundTruth(es[0]) then [es[0].retrieval] + Scores(es[1..])
    else Scores(es[1..])
  }

  /** The citation accuracies of the answers with at least one citation. */
  function CitationAccuracies(es: seq<Evaluated>): (xs: seq<real>)
    ensures |xs| <= |es|
    decreases |es|
  {
    if es == [] then []
    else if HasCitations(es[0]) then [es[0].answer.citationAccuracy] + CitationAccuracies(es[1..])
    else CitationAccuracies(es[1..])
  }

  /** Both filters distribute over concatenation: each keeps the qualifying
      results of every part, in order. */
  lemma {:induction false} FiltersAppend(a: seq<Evaluated>, b: seq<Evaluated>)
    ensures Scores(a + b) == Scores(a) + Scores(b)
    ensures CitationAccuracies(a + b) == CitationAccuracies(a) + CitationAccuracies(b)
    decreases |a|
  {
    if a != [] {
      var ab := a + b;
      assert ab[0] == a[0] && ab[1..] == a[1..] + b;
      FiltersAppend(a[1..], b);
    } else {
      assert a + b == b;
    }
  }

  /** A single result passes a filter exactly when it qualifies. */
  lemma FiltersSingle(e: Evaluated)
    ensures Scores([e]) == if HasGroundTruth(e) then [e.retrieval] else []
    ensures CitationAccuracies([e]) == if HasCitations(e) then [e.answer.citationAccuracy] else []
  {
    assert [e][1..] == [];
  }

  /** How many results satisfy `keep`: an independent count for the filters. */
  function CountWhere(es: seq<Evaluated>, keep: Evaluated -> bool): nat
    decreases |es|
  {
    if es == [] then 0 else (if keep(es[0]) then 1 else 0) + CountWhere(es[1..], keep)
  }

  /** The sum of `f` over the results that satisfy `keep`. */
  function SumWhere(es: seq<Evaluated>, keep: Evaluated -> bool, f: Evaluated -> real): real
    decreases |es|
  {
    if es == [] then 0.0 else (if keep(es[0]) then f(es[0]) else 0.0) + SumWhere(es[1..], keep, f)
  }

  function PrecisionOf(r: Retrieval): real { if r.Scored? then r.precision else 0.0 }
  function RecallOf(r: Retrieval): real { if r.Scored? then r.recall else 0.0 }
  function MrrOf(r: Retrieval): real { if r.Scored? then r.mrr else 0.0 }

  function Precision(e: Evaluated): real { PrecisionOf(e.retrieval) }
  function Recall(e: Evaluated): real { RecallOf(e.retrieval) }
  function Mrr(e: Evaluated): real { MrrOf(e.retrieval) }
  function CitationAccuracy(e: Evaluated): real { e.answer.citationAccuracy }

  /** The ground-truth filter keeps as many results as have ground truth, and
      a metric summed over what it keeps is that metric summed over those
      results. */
  lemma {:induction false} ScoresCounted(es: seq<Evaluated>, f: Retrieval -> real, g: Evaluated -> real)
    requires forall e :: g(e) == f(e.retrieval)
    ensures |Scores(es)| == CountWhere(es, HasGroundTruth)
    ensures Sum(Column(Scores(es), f)) == SumWhere(es, HasGroundTruth, g)
    decreases |es|
  {
    if es != [] {
      ScoresCounted(es[1..], f, g);
      var rest := Scores(es[1..]);
      if HasGroundTruth(es[0]) {
        var ms := Column([es[0].retrieval] + rest, f);
        assert ms[1..] == Column(rest, f);
      }
    }
  }

  /** The same for the citation filter. */
  lemma {:induction false} AccuraciesCounted(es: seq<Evaluated>)
    ensures |CitationAccuracies(es)| == CountWhere(es, HasCitations)
    ensures Sum(CitationAccuracies(es)) == SumWhere(es, HasCitations, CitationAccuracy)
    decreases |es|
  {
    if es != [] {
      AccuraciesCounted(es[1..]);
      if HasCitations(es[0]) {
        var cs := CitationAccuracies(es);
        assert cs[1..] == CitationAccuracies(es[1..]);
      }
    }
  }

  /** A per-query figure, picked out of each result or retrieval. */
  function Column<T>(es: seq<T>, f: T -> real): (xs: seq<real>)
    ensures |xs| == |es| && forall k | 0 <= k < |es| :: xs[k] == f(es[k])
  {
    seq(|es|, k requires 0 <= k < |es| => f(es[k]))
  }

  function TotalLatency(e: Evaluated): real { e.performance.totalLatency }
  function EmbeddingTime(e: Evaluated): real { e.performance.embeddingTime }
  function SearchTime(e: Evaluated): real { e.performance.searchTime }
  function LlmTime(e: Evaluated): real { e.performance.llmTime }
  function TotalCost(e: Evaluated): real { e.cost.totalCost }
  function EmbeddingCost(e: Evaluated): real { e.cost.embeddingCost }
  function LlmCost(e: Evaluated): real { e.cost.llmInputCost + e.cost.llmOutputCost }

  /** `_aggregate_metrics`. With no valid result the report stays empty;
      retrieval means are over the queries with ground truth, the citation
      mean over the answers with citations, and the performance and cost
      figures over all valid results. The P95 latency needs two data points:
      a single valid result makes the aggregation raise. */
  function Aggregate(rs: seq<QueryRecord>): (r: Result<Report, PyError>)
    ensures r.Failure? <==> |Valid(rs)| == 1
    ensures Valid(rs) == [] ==> r == Success(EmptyReport)
    ensures r.Success? && Valid(rs) != [] ==>
      && r.value.performance.Some? && r.value.cost.Some?
      && r.value.performance.value.p95TotalLatency == P95(Column(Valid(rs), TotalLatency))
    ensures r.Success? ==> (r.value.retrieval.Some? <==> Scores(Valid(rs)) != [])
    ensures r.Success? && r.value.retrieval.Some? ==>
      r.value.retrieval.value.queriesWithGroundTruth == |Scores(Valid(rs))|
    ensures r.Success? ==> (r.value.answerQuality.Some? <==> CitationAccuracies(Valid(rs)) != [])
    ensures r.Success? && r.value.retrieval.Some? ==>
      var ss := Scores(Valid(rs));
      var m := r.value.retrieval.value;
      && m.avgPrecision == Mean(Column(ss, PrecisionOf))
      && m.avgRecall == Mean(Column(ss, RecallOf))
      && m.avgMrr == Mean(Column(ss, MrrOf))
    ensures r.Success? && r.value.answerQuality.Some? ==>
      var m := r.value.answerQuality.value;
      && m.avgCitationAccuracy == Mean(CitationAccuracies(Valid(rs)))
      && m.queriesWithCitations == |CitationAccuracies(Valid(rs))|
    ensures r.Success? && r.value.performance.Some? ==>
      var es := Valid(rs);
      var m := r.value.performance.value;
      && m.avgTotalLatency == Mean(Column(es, TotalLatency))
      && m.avgEmbeddingTime == Mean(Column(es, EmbeddingTime))
      && m.avgSearchTime == Mean(Column(es, SearchTime))
      && m.avgLlmTime == Mean(Column(es, LlmTime))
    ensures r.Success? && r.value.cost.Some? ==>
      var es := Valid(rs);
      var m := r.value.cost.value;
      && m.totalCost == Sum(Column(es, TotalCost))
      && m.avgCostPerQuery == Mean(Column(es, TotalCost))
      && m.avgEmbeddingCost == Mean(Column(es, EmbeddingCost))
      && m.avgLlmCost == Mean(Column(es, LlmCost))
  {
    var es := Valid(rs);
    if es == [] then Success(EmptyReport)
    else if |es| < 2 then Failure(StatisticsError)
    else
      var ss := Scores(es);
      var cas := CitationAccuracies(es);
      Success(Report(
        if ss == [] then None
        else Some(RetrievalSummary(Mean(Column(ss, PrecisionOf)), Mean(Column(ss, RecallOf)), Mean(Column(ss, MrrOf)), |ss|)),
        if cas == [] then None
        else Some(AnswerSummary(Mean(cas), |cas|)),
        Some(PerformanceSummary(
          Mean(Column(es, TotalLatency)), Mean(Column(es, EmbeddingTime)),
          Mean(Column(es, SearchTime)), Mean(Column(es, LlmTime)),
          P95(Column(es, TotalLatency)))),
        Some(CostSummary(
          Mean(Column(es, TotalCost)), Sum(Column(es, TotalCost)),
          Mean(Column(es, EmbeddingCost)), Mean(Column(es, LlmCost))))))
  }

  /** The successful records alone. */
  function ValidRecords(rs: seq<QueryRecord>): (vs: seq<QueryRecord>)
    ensures forall k | 0 <= k < |vs| :: vs[k].QueryOk?
    decreases |rs|
  {
    if rs == [] then []
    else if rs[0].QueryOk? then [rs[0]] + ValidRecords(rs[1..])
    else ValidRecords(rs[1..])
  }

  lemma {:induction false} ValidOfValidRecords(rs: seq<QueryRecord>)
    ensures Valid(ValidRecords(rs)) == Valid(rs)
    decreases |rs|
  {
    if rs != [] {
      ValidOfValidRecords(rs[1..]);
      if rs[0].QueryOk? {
        var vs := ValidRecords(rs);
        assert vs[0] == rs[0] && vs[1..] == ValidRecords(rs[1..]);
      }
    }
  }

  /** Error records contribute nothing: dropping them leaves the report as it was. */
  lemma AggregateIgnoresErrors(rs: seq<QueryRecord>)
    ensures Aggregate(ValidRecords(rs)) == Aggregate(rs)
  {
    ValidOfValidRecords(rs);
  }

  predicate RetrievalInRange(r: Retrieval) {
    r.Scored? ==> 0.0 <= r.precision <= 1.0 && 0.0 <= r.mrr <= 1.0
  }

  lemma {:induction false} ScoresInRange(es: seq<Evaluated>)
    requires forall k | 0 <= k < |es| :: RetrievalInRange(es[k].retrieval)
    ensures forall k | 0 <= k < |Scores(es)| :: RetrievalInRange(Scores(es)[k])
    decreases |es|
  {
    if es != [] {
      ScoresInRange(es[1..]);
    }
  }

  lemma {:induction false} AccuraciesInRange(es: seq<Evaluated>)
    requires forall k | 0 <= k < |es| :: 0.0 <= es[k].answer.citationAccuracy <= 1.0
    ensures forall k | 0 <= k < |CitationAccuracies(es)| :: 0.0 <= CitationAccuracies(es)[k] <= 1.0
    decreases |es|
  {
    if es != [] {
      AccuraciesInRange(es[1..]);
    }
  }

  /** Metrics that each query keeps in [0, 1] keep their means in [0, 1]:
      average precision, MRR and citation accuracy. */
  lemma AggregateBounds(rs: seq<QueryRecord>)
    requires forall k | 0 <= k < |Valid(rs)| :: RetrievalInRange(Valid(rs)[k].retrieval)
    requires forall k | 0 <= k < |Valid(rs)| :: 0.0 <= Valid(rs)[k].answer.citationAccuracy <= 1.0
    ensures Aggregate(rs).Success? ==> var r := Aggregate(rs).value;
      && (r.retrieval.Some? ==>
            0.0 <= r.retrieval.value.avgPrecision <= 1.0 && 0.0 <= r.retrieval.value.avgMrr <= 1.0)
      && (r.answerQuality.Some? ==> 0.0 <= r.answerQuality.value.avgCitationAccuracy <= 1.0)
  {
    var es := Valid(rs);
    if |es| >= 2 {
      var ss := Scores(es);
      ScoresInRange(es);
      if ss != [] {
        MeanBounds(Column(ss, PrecisionOf), 0.0, 1.0);
        MeanBounds(Column(ss, MrrOf), 0.0, 1.0);
      }
      var cas := CitationAccuracies(es);
      AccuraciesInRange(es);
      if cas != [] {
        MeanBounds(cas, 0.0, 1.0);
      }
    }
  }

  /** The retrieval means are over the valid results with ground truth and
      the citation mean over those with at least one citation: each is the
      metric summed over those results, divided by how many there are. */
  lemma AggregateMeans(rs: seq<QueryRecord>)
    ensures Aggregate(rs).Success? ==>
      var r := Aggregate(rs).value;
      var es := Valid(rs);
      var n := CountWhere(es, HasGroundTruth);
      var c := CountWhere(es, HasCitations);
      && (r.retrieval.Some? <==> n > 0)
      && (r.retrieval.Some? ==>
            && r.retrieval.value.queriesWithGroundTruth == n
            && r.retrieval.value.avgPrecision == SumWhere(es, HasGroundTruth, Precision) / n as real
            && r.retrieval.value.avgRecall == SumWhere(es, HasGroundTruth, Recall) / n as real
            && r.retrieval.value.avgMrr == SumWhere(es, HasGroundTruth, Mrr) / n as real)
      && (r.answerQuality.Some? <==> c > 0)
      && (r.answerQuality.Some? ==>
            && r.answerQuality.value.queriesWithCitations == c
            && r.answerQuality.value.avgCitationAccuracy == SumWhere(es, HasCitations, CitationAccuracy) / c as real)
  {
    var es := Valid(rs);
    ScoresCounted(es, PrecisionOf, Precision);
    ScoresCounted(es, RecallOf, Recall);
    ScoresCounted(es, MrrOf, Mrr);
    AccuraciesCounted(es);
  }

  /** The average cost is the total cost shared over the valid results. */
  lemma AverageIsTotalOverCount(rs: seq<QueryRecord>)
    requires |Valid(rs)| >= 2
    ensures Aggregate(rs).Success? && Aggregate(rs).value.cost.Some?
    ensures var c := Aggregate(rs).value.cost.value;
      c.avgCostPerQuery == c.totalCost / |Valid(rs)| as real
  {
    var col := Column(Valid(rs), TotalCost);
    var c := Aggregate(rs).value.cost.value;
    assert c.avgCostPerQuery == Mean(col) && c.totalCost == Sum(col);
  }
}

=== FILE: hier_chunking.dfy ===
/** The hierarchical chunker: one parent chunk per opinion, child chunks packed
    greedily from its paragraphs, deterministic ids, and the records handed to
    the vector store. The MD5 digest behind the ids is a parameter. */
module HierChunking {
  import opened Wrappers
  import opened Whitespace
  import opened Decimal
  import opened Slices
  import opened CaseRecord
  import opened HierText

  datatype Config = Config(
    targetChildTokens: int,
    maxChildTokens: int,
    minChildTokens: int,
    overlapTokens: int)

  /** The defaults of `ChunkingConfig`. */
  const DefaultConfig := Config(400, 600, 100, 50)

  // ---------------------------------------------------------------- ids

  /** The text that is hashed: `f"{case_id}-{chunk_type}-{index}"`. */
  function IdKey(caseId: int, chunkType: string, index: int): string {
    IntToString(caseId) + "-" + chunkType + "-" + IntToString(index)
  }

  /** `generate_id`: the first 16 characters of the hex digest of the key. */
  function GenerateId(digest: string -> string, caseId: int, chunkType: string, index: int): (id: string)
    ensures |id| <= 16
    ensures id <= digest(IdKey(caseId, chunkType, index))
  {
    PyTake(digest(IdKey(caseId, chunkType, index)), 16)
  }

  /** Keys of the same case and chunk type differ whenever the indices differ,
      so ids can only coincide through a collision of the digest. */
  lemma IdKeyDistinct(caseId: int, chunkType: string, i: int, j: int)
    requires i != j
    ensures IdKey(caseId, chunkType, i) != IdKey(caseId, chunkType, j)
  {
    var p := IntToString(caseId) + "-" + chunkType + "-";
    assert IdKey(caseId, chunkType, i) == p + IntToString(i);
    assert IdKey(caseId, chunkType, j) == p + IntToString(j);
    if IdKey(caseId, chunkType, i) == IdKey(caseId, chunkType, j) {
      assert IntToString(i) == (p + IntToString(i))[|p|..] == (p + IntToString(j))[|p|..] == IntToString(j);
      IntToStringInjective(i, j);
    }
  }

  // ---------------------------------------------------------------- metadata

  /** The metadata copied onto every parent and child of a case. */
  datatype Metadata = Metadata(
    caseId: int,
    caseName: string,
    decisionDate: string,
    court: string,
    jurisdiction: string,
    citation: string,
    opinionType: string,
    opinionAuthor: string)

  /** `next((c['cite'] for c in citations if c.get('type') == 'official'),
      citations[0]['cite'] if citations else '')`. The default is evaluated
      before the search, so a first entry without 'cite' raises even when an
      official citation exists; so does an official entry without 'cite'. */
  function OfficialCite(cs: seq<Citation>): (r: Result<string, PyError>)
    ensures r.Failure? <==>
      (cs != [] && cs[0].cite.None?) || (FirstOfficial(cs).Some? && cs[FirstOfficial(cs).value].cite.None?)
    ensures r.Success? && FirstOfficial(cs).Some? ==> r.value == cs[FirstOfficial(cs).value].cite.value
    ensures r.Success? && FirstOfficial(cs).None? ==> r.value == (if cs == [] then "" else cs[0].cite.value)
  {
    var fallback: Result<string, PyError> :=
      if cs == [] then Success("")
      else if cs[0].cite.None? then Failure(KeyError("cite"))
      else Success(cs[0].cite.value);
    if fallback.Failure? then fallback
    else match FirstOfficial(cs)
      case None => fallback
      case Some(k) => if cs[k].cite.None? then Failure(KeyError("cite")) else Success(cs[k].cite.value)
  }

  /** `extract_metadata` */
  function ExtractMetadata(c: Case): (r: Result<Metadata, PyError>)
    ensures r.Failure? <==> OfficialCite(c.citations.GetOr([])).Failure?
    ensures r.Success? ==>
      var m := r.value;
      var ops := OpinionsOf(c);
      && m.caseId == c.id.GetOr(0)
      && m.citation == OfficialCite(c.citations.GetOr([])).value
      && m.caseName == c.nameAbbreviation.GetOr(c.name.GetOr(""))
      && m.decisionDate == c.decisionDate.GetOr("")
      && m.court == (if c.court.Some? then c.court.value.nameAbbreviation.GetOr("") else "")
      && m.jurisdiction == (if c.jurisdiction.Some? then c.jurisdiction.value.name.GetOr("") else "")
      && m.opinionType == (if ops == [] then "unknown" else ops[0].kind.GetOr("unknown"))
      && m.opinionAuthor == (if ops == [] then "" else ops[0].author.GetOr(""))
  {
    var cite := OfficialCite(c.citations.GetOr([]));
    if cite.Failure? then Failure(cite.error)
    else
      var ops := OpinionsOf(c);
      var first := if ops == [] then Opinion(None, None, None) else ops[0];
      Success(Metadata(
        caseId := c.id.GetOr(0),
        caseName := c.nameAbbreviation.GetOr(c.name.GetOr("")),
        decisionDate := c.decisionDate.GetOr(""),
        court := match c.court case None => "" case Some(ct) => ct.nameAbbreviation.GetOr(""),
        jurisdiction := match c.jurisdiction case None => "" case Some(j) => j.name.GetOr(""),
        citation := cite.value,
        opinionType := first.kind.GetOr("unknown"),
        opinionAuthor := first.author.GetOr("")))
  }

  /** The fallback is computed even when it is not used: an official citation
      cannot rescue a first entry that lacks 'cite'. */
  lemma EagerFallbackRaises()
    ensures OfficialCite([Citation(Some("parallel"), None), Citation(Some("official"), Some("1 U.S. 1"))]).Failure?
  {
  }

  // ---------------------------------------------------------------- packing

  /** A child chunk before numbering: its accumulated text and token count. */
  datatype Draft = Draft(text: string, tokens: int)

  /** The loop state of `create_children`: accumulator text, its token count,
      and the drafts emitted so far. */
  datatype Pack = Pack(text: string, tokens: int, drafts: seq<Draft>)

  const EmptyPack := Pack("", 0, [])

  /** Whether adding a paragraph of `paraTokens` tokens closes the current chunk. */
  predicate Closes(cfg: Config, p: Pack, paraTokens: int) {
    p.tokens + paraTokens > cfg.targetChildTokens && p.tokens >= cfg.minChildTokens
  }

  /** One iteration of the loop over paragraphs. On closing, the new
      accumulator starts with the stripped `current_text[-overlap_chars:]`. */
  function PackStep(cfg: Config, p: Pack, para: string): (q: Pack)
    ensures Closes(cfg, p, EstimateTokens(para)) ==> q.drafts == p.drafts + [Draft(p.text, p.tokens)]
    ensures !Closes(cfg, p, EstimateTokens(para)) ==>
      q.drafts == p.drafts && q.tokens == p.tokens + EstimateTokens(para)
  {
    var pt := EstimateTokens(para);
    if Closes(cfg, p, pt) then
      var carried := Strip(PyDrop(p.text, -(cfg.overlapTokens * 4))) + "\n\n" + para;
      Pack(carried, EstimateTokens(carried), p.drafts + [Draft(p.text, p.tokens)])
    else
      Pack(Strip(p.text + "\n\n" + para), p.tokens + pt, p.drafts)
  }

  /** The loop over all paragraphs. */
  function PackAll(cfg: Config, p: Pack, paras: seq<string>): (q: Pack)
    ensures p.drafts <= q.drafts
    decreases |paras|
  {
    if paras == [] then p else PackAll(cfg, PackStep(cfg, p, paras[0]), paras[1..])
  }

  /** The chunks `create_children` emits, before numbering: the loop's drafts
      and the final accumulator if it reaches the minimum. */
  function Drafts(cfg: Config, paras: seq<string>): seq<Draft> {
    var q := PackAll(cfg, EmptyPack, paras);
    q.drafts + (if q.tokens >= cfg.minChildTokens then [Draft(q.text, q.tokens)] else [])
  }

  predicate AtLeast(ds: seq<Draft>, min: int) {
    forall k | 0 <= k < |ds| :: ds[k].tokens >= min
  }

  /** A chunk is only ever closed once it has reached the minimum. */
  lemma {:induction false} PackAllAtLeast(cfg: Config, p: Pack, paras: seq<string>)
    requires AtLeast(p.drafts, cfg.minChildTokens)
    ensures AtLeast(PackAll(cfg, p, paras).drafts, cfg.minChildTokens)
    decreases |paras|
  {
    if paras != [] {
      var q := PackStep(cfg, p, paras[0]);
      assert AtLeast(q.drafts, cfg.minChildTokens);
      PackAllAtLeast(cfg, q, paras[1..]);
    }
  }

  /** Every emitted chunk has at least `min_child_tokens` tokens; an undersized
      tail is dropped. */
  lemma DraftsAtLeastMin(cfg: Config, paras: seq<string>)
    ensures AtLeast(Drafts(cfg, paras), cfg.minChildTokens)
  {
    PackAllAtLeast(cfg, EmptyPack, paras);
  }

  /** Sum of the token estimates of the paragraphs. */
  function SumTokens(paras: seq<string>): nat
    decreases |paras|
  {
    if paras == [] then 0 else EstimateTokens(paras[0]) + SumTokens(paras[1..])
  }

  /** While the running total stays under the minimum, nothing is closed and
      the count is the plain sum. */
  lemma {:induction false} PackAllBelowMin(cfg: Config, p: Pack, paras: seq<string>)
    requires p.tokens + SumTokens(paras) < cfg.minChildTokens
    ensures PackAll(cfg, p, paras).drafts == p.drafts
    ensures PackAll(cfg, p, paras).tokens == p.tokens + SumTokens(paras)
    decreases |paras|
  {
    if paras != [] {
      var q := PackStep(cfg, p, paras[0]);
      assert !Closes(cfg, p, EstimateTokens(paras[0]));
      PackAllBelowMin(cfg, q, paras[1..]);
    }
  }

  /** Paragraphs that together stay under the minimum give no chunk at all. */
  lemma DraftsBelowMin(cfg: Config, paras: seq<string>)
    requires SumTokens(paras) < cfg.minChildTokens
    ensures Drafts(cfg, paras) == []
  {
    PackAllBelowMin(cfg, EmptyPack, paras);
  }

  /** One paragraph of at least the minimum becomes exactly one chunk, however
      large it is: nothing enforces `max_child_tokens`. */
  lemma SingleParagraph(cfg: Config, para: string)
    requires Trimmed(para) && 0 < cfg.minChildTokens <= EstimateTokens(para)
    ensures Drafts(cfg, [para]) == [Draft(para, EstimateTokens(para))]
  {
    FirstStep(cfg, para);
    assert PackAll(cfg, EmptyPack, [para]) == PackAll(cfg, PackStep(cfg, EmptyPack, para), []);
  }

  /** The first paragraph, below the minimum of a non-empty chunk, starts
      the accumulator. */
  lemma FirstStep(cfg: Config, para: string)
    requires Trimmed(para) && 0 < cfg.minChildTokens
    ensures PackStep(cfg, EmptyPack, para) == Pack(para, EstimateTokens(para), [])
  {
    assert !Closes(cfg, EmptyPack, EstimateTokens(para));
    assert "" + "\n\n" + para == "\n\n" + para;
    StripNewlinesBefore(para);
  }

  lemma StripNewlinesBefore(para: string)
    requires Trimmed(para)
    ensures Strip("\n\n" + para) == para
  {
    var t := "\n\n" + para;
    assert IsSpace(t[0]) && IsSpace(t[1]) && t[2..] == para;
    assert TrimLeft(t) == TrimLeft(t[1..]);
    assert t[1..][1..] == para;
    assert TrimLeft(para) == para;
    TrimmedStrip(para);
  }

  /** With the default configuration any trimmed paragraph of 2404
      characters is one 601-token child, above `max_child_tokens` = 600. */
  lemma NoUpperBound(para: string)
    requires Trimmed(para) && |para| == 2404
    ensures Drafts(DefaultConfig, [para]) == [Draft(para, 601)]
    ensures 601 > DefaultConfig.maxChildTokens
  {
    SingleParagraph(DefaultConfig, para);
  }

  /** `s[-k:]` for k >= 0: the last k characters, all of s when it is shorter,
      and all of s when k is 0. */
  lemma TailSlice(s: string, k: int)
    requires k >= 0
    ensures PyDrop(s, -k) == if k == 0 || k >= |s| then s else s[|s| - k..]
  {
  }

  /** What closing a chunk carries over: for a positive overlap the stripped
      last `overlap_tokens * 4` characters (all of them if the text is
      shorter); for overlap 0, `current_text[-0:]` is the whole text. */
  lemma OverlapCarry(cfg: Config, p: Pack, para: string)
    requires Closes(cfg, p, EstimateTokens(para)) && cfg.overlapTokens >= 0
    ensures var k := cfg.overlapTokens * 4;
      var tail := if k == 0 || k >= |p.text| then p.text else p.text[|p.text| - k..];
      && PackStep(cfg, p, para).text == Strip(tail) + "\n\n" + para
      && PackStep(cfg, p, para).tokens == EstimateTokens(Strip(tail) + "\n\n" + para)
  {
    TailSlice(p.text, cfg.overlapTokens * 4);
  }

  /** The token estimates of pieces never add up to more than the estimate of
      the pieces joined by spaces. */
  lemma {:induction false} SumTokensJoin(ps: seq<string>)
    ensures SumTokens(ps) <= EstimateTokens(JoinWith(ps, " "))
    decreases |ps|
  {
    if |ps| > 1 {
      var rest := ps[1..];
      SumTokensJoin(rest);
      var j := JoinWith(rest, " ");
      assert |JoinWith(ps, " ")| == |ps[0]| + 1 + |j|;
    }
  }

  /** A cleaned opinion whose estimate is under the minimum has no children. */
  lemma CleanTextBelowMin(cfg: Config, s: string)
    ensures EstimateTokens(CleanText(s)) < cfg.minChildTokens ==>
      Drafts(cfg, SplitIntoParagraphs(CleanText(s))) == []
  {
    var t := CleanText(s);
    if EstimateTokens(t) < cfg.minChildTokens {
      CleanParagraphsRoundTrip(s);
      SumTokensJoin(SplitIntoParagraphs(t));
      DraftsBelowMin(cfg, SplitIntoParagraphs(t));
    }
  }

  // ---------------------------------------------------------------- children

  datatype Child = Child(
    chunkId: string,
    parentId: string,
    text: string,
    tokenEstimate: int,
    chunkIndex: nat,
    metadata: Metadata,
    totalChunks: nat)

  /** `create_children`: the drafts of the text's paragraphs, numbered in
      emission order, each cleaned and tagged with the parent. */
  function CreateChildren(cfg: Config, digest: string -> string, text: string,
                          caseId: int, parentId: string, metadata: Metadata): (cs: seq<Child>)
    ensures |cs| == |Drafts(cfg, SplitIntoParagraphs(text))|
    ensures forall k | 0 <= k < |cs| ::
      && cs[k].chunkIndex == k
      && cs[k].parentId == parentId
      && cs[k].totalChunks == |cs|
      && cs[k].tokenEstimate >= cfg.minChildTokens
      && cs[k].chunkId == GenerateId(digest, caseId, "child-" + parentId, k)
      && cs[k].metadata == metadata
  {
    var ds := Drafts(cfg, SplitIntoParagraphs(text));
    DraftsAtLeastMin(cfg, SplitIntoParagraphs(text));
    seq(|ds|, k requires 0 <= k < |ds| =>
      Child(
        chunkId := GenerateId(digest, caseId, "child-" + parentId, k),
        parentId := parentId,
        text := CleanText(ds[k].text),
        tokenEstimate := ds[k].tokens,
        chunkIndex := k,
        metadata := metadata,
        totalChunks := |ds|))
  }

  /** `[c['chunk_id'] for c in children]` */
  function ChunkIds(cs: seq<Child>): (ids: seq<string>)
    ensures |ids| == |cs| && forall k | 0 <= k < |cs| :: ids[k] == cs[k].chunkId
  {
    seq(|cs|, k requires 0 <= k < |cs| => cs[k].chunkId)
  }

  // ---------------------------------------------------------------- cases

  datatype Parent = Parent(
    chunkId: string,
    text: string,
    tokenEstimate: nat,
    sectionType: string,
    metadata: Metadata,
    childIds: seq<string>)

  datatype Stats = Stats(parentCount: nat, childCount: nat, totalTokens: nat)

  datatype Chunked = Chunked(
    caseId: int,
    caseName: string,
    parents: seq<Parent>,
    children: seq<Child>,
    stats: Stats)

  /** One opinion's parent with its children: the parent lists the
      children's ids in order, and each child names the parent and is
      numbered from zero. */
  predicate WellFormed(piece: (Parent, seq<Child>)) {
    && piece.0.childIds == ChunkIds(piece.1)
    && forall k | 0 <= k < |piece.1| ::
         piece.1[k].parentId == piece.0.chunkId
         && piece.1[k].chunkIndex == k
         && piece.1[k].totalChunks == |piece.1|
  }

  /** The body of the loop of `chunk_case` for the opinion at index `idx`:
      its parent and that parent's children. */
  function ChunkOpinion(cfg: Config, digest: string -> string, caseId: int, md: Metadata,
                        op: Opinion, idx: nat): (r: (Parent, seq<Child>))
    ensures WellFormed(r)
    ensures r.0.chunkId == GenerateId(digest, caseId, "parent", idx)
    ensures r.0.text == CleanText(op.text.GetOr(""))
    ensures r.0.tokenEstimate == EstimateTokens(r.0.text)
  {
    var pid := GenerateId(digest, caseId, "parent", idx);
    var text := CleanText(op.text.GetOr(""));
    var kids := CreateChildren(cfg, digest, text, caseId, pid, md);
    (Parent(pid, text, EstimateTokens(text), "opinion_" + op.kind.GetOr("unknown"), md, ChunkIds(kids)),
     kids)
  }

  /** An opinion whose text is only whitespace passes the `if not text` test
      but yields a parent with empty text and no children. */
  lemma BlankOpinion(cfg: Config, digest: string -> string, caseId: int, md: Metadata,
                     op: Opinion, idx: nat)
    requires AllSpace(op.text.GetOr("")) && cfg.minChildTokens > 0
    ensures var r := ChunkOpinion(cfg, digest, caseId, md, op, idx);
      r.0.text == "" && r.0.tokenEstimate == 0 && r.1 == [] && r.0.childIds == []
  {
    CleanTextEmpty(op.text.GetOr(""));
    CleanTextBelowMin(cfg, op.text.GetOr(""));
  }

  /** The positions, counted from `idx`, of the opinions that have text. */
  function KeptIndices(ops: seq<Opinion>, idx: nat): (ks: seq<nat>)
    ensures forall i | 0 <= i < |ks| :: idx <= ks[i] < idx + |ops| && ops[ks[i] - idx].text.GetOr("") != ""
    ensures forall i, j | 0 <= i < j < |ks| :: ks[i] < ks[j]
    decreases |ops|
  {
    if ops == [] then []
    else
      var rest := KeptIndices(ops[1..], idx + 1);
      if ops[0].text.GetOr("") == "" then rest else [idx] + rest
  }

  /** Every opinion with text has its place among the kept indices. */
  lemma {:induction false} KeptIndicesComplete(ops: seq<Opinion>, idx: nat, j: nat)
    requires idx <= j < idx + |ops| && ops[j - idx].text.GetOr("") != ""
    ensures j in KeptIndices(ops, idx)
    decreases |ops|
  {
    var rest := KeptIndices(ops[1..], idx + 1);
    if j > idx {
      assert ops[1..][j - (idx + 1)] == ops[j - idx];
      KeptIndicesComplete(ops[1..], idx + 1, j);
      assert j in rest;
    } else {
      assert KeptIndices(ops, idx) == [idx] + rest;
    }
  }

  /** The loop of `chunk_case`: an opinion without text is skipped but still
      uses up its index, so parent `i` is named after the `i`-th kept index. */
  function OpinionPieces(cfg: Config, digest: string -> string, caseId: int, md: Metadata,
                         ops: seq<Opinion>): (rs: seq<(Parent, seq<Child>)>)
    ensures |rs| == |KeptIndices(ops, 0)|
    ensures forall i | 0 <= i < |rs| ::
      var j := KeptIndices(ops, 0)[i];
      && WellFormed(rs[i])
      && rs[i].0.chunkId == GenerateId(digest, caseId, "parent", j)
      && rs[i].0.text == CleanText(ops[j].text.GetOr(""))
      && ops[j].text.GetOr("") != ""
  {
    var ks := KeptIndices(ops, 0);
    seq(|ks|, i requires 0 <= i < |ks| => ChunkOpinion(cfg, digest, caseId, md, ops[ks[i]], ks[i]))
  }

  function ParentsOf(rs: seq<(Parent, seq<Child>)>): (ps: seq<Parent>)
    ensures |ps| == |rs| && forall i | 0 <= i < |rs| :: ps[i] == rs[i].0
  {
    seq(|rs|, i requires 0 <= i < |rs| => rs[i].0)
  }

  /** `children.extend(opinion_children)` over the loop. */
  function ChildrenOf(rs: seq<(Parent, seq<Child>)>): seq<Child>
    decreases |rs|
  {
    if rs == [] then [] else rs[0].1 + ChildrenOf(rs[1..])
  }

  /** Parent `i` and parent `j` are named from different keys: the ids can only
      collide where the digest does. */
  lemma ParentKeysDistinct(ops: seq<Opinion>, caseId: int, i: nat, j: nat)
    requires i < j < |KeptIndices(ops, 0)|
    ensures var ks := KeptIndices(ops, 0);
      IdKey(caseId, "parent", ks[i]) != IdKey(caseId, "parent", ks[j])
  {
    var ks := KeptIndices(ops, 0);
    IdKeyDistinct(caseId, "parent", ks[i], ks[j]);
  }

  /** Parents and children line up: the children are the parents' children in
      parent order, each tagged with its parent, numbered from zero within it,
      and listed under it by id. */
  predicate Linked(ps: seq<Parent>, cs: seq<Child>)
    decreases |ps|
  {
    if ps == [] then cs == []
    else
      var n := |ps[0].childIds|;
      && n <= |cs|
      && ChunkIds(cs[..n]) == ps[0].childIds
      && (forall k | 0 <= k < n ::
            cs[k].parentId == ps[0].chunkId && cs[k].chunkIndex == k && cs[k].totalChunks == n)
      && Linked(ps[1..], cs[n..])
  }

  lemma {:induction false} PiecesLinked(rs: seq<(Parent, seq<Child>)>)
    requires forall i | 0 <= i < |rs| :: WellFormed(rs[i])
    ensures Linked(ParentsOf(rs), ChildrenOf(rs))
    decreases |rs|
  {
    if rs != [] {
      var rest := rs[1..];
      assert forall i | 0 <= i < |rest| :: WellFormed(rest[i]) by {
        forall i | 0 <= i < |rest| ensures WellFormed(rest[i]) { assert rest[i] == rs[i + 1]; }
      }
      PiecesLinked(rest);
      var ps, cs := ParentsOf(rs), ChildrenOf(rs);
      var n := |rs[0].1|;
      assert ps[1..] == ParentsOf(rest);
      assert cs[..n] == rs[0].1 && cs[n..] == ChildrenOf(rest);
    }
  }

  /** Every child's parent is among the parents, and lists the child's id. */
  lemma {:induction false} LinkedResolves(ps: seq<Parent>, cs: seq<Child>, j: nat)
    requires Linked(ps, cs) && j < |cs|
    ensures exists i | 0 <= i < |ps| :: ps[i].chunkId == cs[j].parentId && cs[j].chunkId in ps[i].childIds
    decreases |ps|
  {
    var n := |ps[0].childIds|;
    if j < n {
      assert ChunkIds(cs[..n])[j] == cs[j].chunkId;
      assert ps[0].chunkId == cs[j].parentId && cs[j].chunkId in ps[0].childIds;
    } else {
      LinkedResolves(ps[1..], cs[n..], j - n);
      var i :| 0 <= i < |ps[1..]| && ps[1..][i].chunkId == cs[n..][j - n].parentId
                && cs[n..][j - n].chunkId in ps[1..][i].childIds;
      assert ps[i + 1] == ps[1..][i];
    }
  }

  /** The children of a chunked case are as many as the ids its parents list. */
  lemma {:induction false} LinkedCounts(ps: seq<Parent>, cs: seq<Child>)
    requires Linked(ps, cs)
    ensures |cs| == SumChildCounts(ps)
    decreases |ps|
  {
    if ps != [] {
      LinkedCounts(ps[1..], cs[|ps[0].childIds|..]);
    }
  }

  function SumChildCounts(ps: seq<Parent>): nat
    decreases |ps|
  {
    if ps == [] then 0 else |ps[0].childIds| + SumChildCounts(ps[1..])
  }

  function SumParentTokens(ps: seq<Parent>): nat
    decreases |ps|
  {
    if ps == [] then 0 else ps[0].tokenEstimate + SumParentTokens(ps[1..])
  }

  /** `chunk_case`; a missing configuration means the defaults. Fails where
      `extract_metadata` raises. */
  function ChunkCase(cfg: Option<Config>, digest: string -> string, c: Case): (r: Result<Chunked, PyError>)
    ensures r.Failure? <==> ExtractMetadata(c).Failure?
    ensures r.Success? ==>
      && r.value.caseId == c.id.GetOr(0)
      && r.value.caseName == c.name.GetOr("")
      && r.value.stats == Stats(|r.value.parents|, |r.value.children|, SumParentTokens(r.value.parents))
      && Linked(r.value.parents, r.value.children)
      && |r.value.parents| == |KeptIndices(OpinionsOf(c), 0)|
      && forall i | 0 <= i < |r.value.parents| ::
           var j := KeptIndices(OpinionsOf(c), 0)[i];
           && r.value.parents[i].chunkId == GenerateId(digest, c.id.GetOr(0), "parent", j)
           && r.value.parents[i].text == CleanText(OpinionsOf(c)[j].text.GetOr(""))
  {
    var md := ExtractMetadata(c);
    if md.Failure? then Failure(md.error)
    else
      var config := cfg.GetOr(DefaultConfig);
      var caseId := c.id.GetOr(0);
      var rs := OpinionPieces(config, digest, caseId, md.value, OpinionsOf(c));
      var ps, cs := ParentsOf(rs), ChildrenOf(rs);
      PiecesLinked(rs);
      Success(Chunked(caseId, c.name.GetOr(""), ps, cs, Stats(|ps|, |cs|, SumParentTokens(ps))))
  }

  // ---------------------------------------------------------------- records

  /** A parent as handed to the vector store: metadata tagged `type: parent`
      and `child_count`. */
  datatype ParentRecord = ParentRecord(id: string, text: string, metadata: Metadata, childCount: nat)

  /** A child as handed to the vector store: metadata tagged `type: child`,
      with `parent_id` and `chunk_index`. */
  datatype ChildRecord = ChildRecord(id: string, text: string, metadata: Metadata, parentId: string, chunkIndex: nat)

  /** `format_for_vector_db`: one record per parent and per child, in order. */
  function FormatForVectorDb(c: Chunked): (r: (seq<ParentRecord>, seq<ChildRecord>))
    ensures |r.0| == |c.parents| && |r.1| == |c.children|
    ensures forall i | 0 <= i < |c.parents| ::
      var p := c.parents[i];
      r.0[i] == ParentRecord(p.chunkId, p.text, p.metadata, |p.childIds|)
    ensures forall j | 0 <= j < |c.children| ::
      var ch := c.children[j];
      r.1[j] == ChildRecord(ch.chunkId, ch.text, ch.metadata, ch.parentId, ch.chunkIndex)
  {
    (seq(|c.parents|, i requires 0 <= i < |c.parents| =>
       var p := c.parents[i];
       ParentRecord(p.chunkId, p.text, p.metadata, |p.childIds|)),
     seq(|c.children|, j requires 0 <= j < |c.children| =>
       var ch := c.children[j];
       ChildRecord(ch.chunkId, ch.text, ch.metadata, ch.parentId, ch.chunkIndex)))
  }

  /** In the records of a chunked case every child record's `parent_id` is the
      id of a parent record, and the parent records' `child_count`s add up to
      the number of child records. */
  lemma FormattedChildrenResolve(c: Chunked)
    requires Linked(c.parents, c.children)
    ensures var r := FormatForVectorDb(c);
      && (forall j | 0 <= j < |r.1| :: exists i | 0 <= i < |r.0| :: r.0[i].id == r.1[j].parentId)
      && |r.1| == SumChildCounts(c.parents)
  {
    var r := FormatForVectorDb(c);
    forall j | 0 <= j < |r.1| ensures exists i | 0 <= i < |r.0| :: r.0[i].id == r.1[j].parentId {
      LinkedResolves(c.parents, c.children, j);
      var i :| 0 <= i < |c.parents| && c.parents[i].chunkId == c.children[j].parentId
               && c.children[j].chunkId in c.parents[i].childIds;
      assert r.0[i].id == r.1[j].parentId;
    }
    LinkedCounts(c.parents, c.children);
  }

  /** Every chunked case's records resolve: a consequence of `ChunkCase`'s
      linking guarantee. */
  lemma ChunkCaseRecordsResolve(cfg: Option<Config>, digest: string -> string, c: Case)
    ensures ChunkCase(cfg, digest, c).Success? ==>
      var r := FormatForVectorDb(ChunkCase(cfg, digest, c).value);
      forall j | 0 <= j < |r.1| :: exists i | 0 <= i < |r.0| :: r.0[i].id == r.1[j].parentId
  {
    if ChunkCase(cfg, digest, c).Success? {
      FormattedChildrenResolve(ChunkCase(cfg, digest, c).value);
    }
  }
}

=== FILE: hier_text.dfy ===
/** Text handling of the hierarchical chunker: the token estimate, the OCR
    clean-up applied to every opinion, and the paragraph splitter. */
module HierText {
  import opened Whitespace
  import opened ReSplit

  /** `len(text) // 4`: about four characters per token. */
  function EstimateTokens(text: string): (t: nat)
    ensures 4 * t <= |text| < 4 * t + 4
  {
    |text| / 4
  }

  const LeftSingle: char := '‘'
  const RightSingle: char := '’'
  const LeftDouble: char := '“'
  const RightDouble: char := '”'

  predicate IsCurlyQuote(c: char) {
    c == LeftSingle || c == RightSingle || c == LeftDouble || c == RightDouble
  }

  predicate NoCurlyQuotes(s: string) {
    forall k | 0 <= k < |s| :: !IsCurlyQuote(s[k])
  }

  /** The two substitutions `[’‘] -> '` and `[“”] -> "`. */
  function StraightenQuotes(s: string): (r: string)
    ensures |r| == |s| && NoCurlyQuotes(r)
    ensures forall k | 0 <= k < |s| ::
      r[k] == (if s[k] == LeftSingle || s[k] == RightSingle then '\''
               else if s[k] == LeftDouble || s[k] == RightDouble then '"'
               else s[k])
  {
    seq(|s|, k requires 0 <= k < |s| =>
      if s[k] == LeftSingle || s[k] == RightSingle then '\''
      else if s[k] == LeftDouble || s[k] == RightDouble then '"'
      else s[k])
  }

  /** `clean_text`: straighten quotes, collapse whitespace runs, strip. */
  function CleanText(s: string): (r: string)
    ensures Normalized(r) && NoCurlyQuotes(r)
    ensures '\n' !in r
  {
    CleanTextShape(s);
    Strip(Collapse(StraightenQuotes(s)))
  }

  lemma CleanTextShape(s: string)
    ensures var r := Strip(Collapse(StraightenQuotes(s)));
      Normalized(r) && NoCurlyQuotes(r) && '\n' !in r
  {
    var q := StraightenQuotes(s);
    var c := Collapse(q);
    CollapseSingleSpaced(q);
    StripSingleSpaced(c);
    var r := Strip(c);
    NoQuotesSurvive(q);
    NormalizedNoNewline(r);
  }

  /** Collapsing and stripping bring no curly quote back. */
  lemma NoQuotesSurvive(q: string)
    requires NoCurlyQuotes(q)
    ensures NoCurlyQuotes(Strip(Collapse(q)))
  {
    var c := Collapse(q);
    var r := Strip(c);
    forall k | 0 <= k < |r| ensures !IsCurlyQuote(r[k]) {
      var x := r[k];
      if IsCurlyQuote(x) {
        assert x !in q by {
          forall i | 0 <= i < |q| ensures q[i] != x { assert !IsCurlyQuote(q[i]); }
        }
        CollapseKeepsOut(q, x);
        StripKeepsOut(c, x);
      }
    }
  }

  lemma NormalizedNoNewline(r: string)
    requires Normalized(r)
    ensures '\n' !in r
  {
    assert IsSpace('\n');
  }

  /** Cleaning an already clean text changes nothing. */
  lemma CleanTextIdempotent(s: string)
    ensures CleanText(CleanText(s)) == CleanText(s)
  {
    var t := CleanText(s);
    assert StraightenQuotes(t) == t;
    CollapseFixesSingleSpaced(t);
    StripFixesNormalized(t);
  }

  /** Cleaning empties exactly the texts that are whitespace only. */
  lemma CleanTextEmpty(s: string)
    ensures CleanText(s) == [] <==> AllSpace(s)
  {
    var q := StraightenQuotes(s);
    StraightenAllSpace(s);
    CollapseAllSpace(q);
    assert CleanText(s) == Strip(Collapse(q));
  }

  lemma StraightenAllSpace(s: string)
    ensures AllSpace(StraightenQuotes(s)) <==> AllSpace(s)
  {
    var q := StraightenQuotes(s);
    forall k | 0 <= k < |s| ensures IsSpace(q[k]) <==> IsSpace(s[k]) {
      StraightenKeepsSpace(s[k], q[k]);
    }
  }

  /** Straightening a quote never turns whitespace into text or back. */
  lemma StraightenKeepsSpace(c: char, d: char)
    requires d == (if c == LeftSingle || c == RightSingle then '\''
                   else if c == LeftDouble || c == RightDouble then '"'
                   else c)
    ensures IsSpace(d) <==> IsSpace(c)
  {
    if IsCurlyQuote(c) {
      assert !IsSpace(LeftSingle) && !IsSpace(RightSingle);
      assert !IsSpace(LeftDouble) && !IsSpace(RightDouble);
      assert !IsSpace('\'') && !IsSpace('"');
    }
  }

  /** `' '.join(sentences[i:i+3]) for i in range(0, len(sentences), 3)` */
  function SentenceGroups(ss: seq<string>): (gs: seq<string>)
    ensures |gs| == (|ss| + 2) / 3
    decreases |ss|
  {
    if |ss| == 0 then []
    else if |ss| <= 3 then [JoinWith(ss, " ")]
    else [JoinWith(ss[..3], " ")] + SentenceGroups(ss[3..])
  }

  /** Grouping loses nothing: the groups joined by spaces are the sentences
      joined by spaces. */
  lemma {:induction false} SentenceGroupsJoin(ss: seq<string>)
    ensures JoinWith(SentenceGroups(ss), " ") == JoinWith(ss, " ")
    decreases |ss|
  {
    if |ss| > 3 {
      var rest := ss[3..];
      SentenceGroupsJoin(rest);
      var gs := SentenceGroups(rest);
      JoinCons(JoinWith(ss[..3], " "), gs, " ");
      assert ss == ss[..3] + rest;
      JoinAppend(ss[..3], rest, " ");
    }
  }

  /** Each group of trimmed sentences is trimmed. */
  lemma {:induction false} SentenceGroupsTrimmed(ss: seq<string>)
    requires AllTrimmed(ss)
    ensures AllTrimmed(SentenceGroups(ss))
    decreases |ss|
  {
    if 0 < |ss| <= 3 {
      JoinTrimmed(ss);
    } else if |ss| > 3 {
      var head, rest := ss[..3], ss[3..];
      assert AllTrimmed(head) by {
        forall k | 0 <= k < 3 ensures Trimmed(head[k]) { assert head[k] == ss[k]; }
      }
      assert AllTrimmed(rest) by {
        forall k | 0 <= k < |rest| ensures Trimmed(rest[k]) { assert rest[k] == ss[k + 3]; }
      }
      JoinTrimmed(head);
      SentenceGroupsTrimmed(rest);
      TrimmedCons(JoinWith(head, " "), SentenceGroups(rest));
    }
  }

  /** `[p.strip() for p in paragraphs if p.strip()]` */
  function KeepNonBlank(ps: seq<string>): (r: seq<string>)
    ensures |r| <= |ps|
    ensures AllTrimmed(r)
    decreases |ps|
  {
    if ps == [] then []
    else
      var p := Strip(ps[0]);
      var rest := KeepNonBlank(ps[1..]);
      if p == [] then rest
      else
        StripTrimmed(ps[0]);
        TrimmedCons(p, rest);
        [p] + rest
  }

  /** `[p.strip() for p in ps]` */
  function StripAll(ps: seq<string>): (qs: seq<string>)
    ensures |qs| == |ps| && forall j | 0 <= j < |ps| :: qs[j] == Strip(ps[j])
  {
    seq(|ps|, j requires 0 <= j < |ps| => Strip(ps[j]))
  }

  /** Every piece of `r` is the strip of some piece of `ps`. */
  predicate StripsOf(r: seq<string>, ps: seq<string>) {
    forall k | 0 <= k < |r| :: r[k] in StripAll(ps)
  }

  /** Every piece of `ps` whose strip is non-blank has that strip in `r`. */
  predicate NoneDropped(r: seq<string>, ps: seq<string>) {
    forall j | 0 <= j < |ps| && StripAll(ps)[j] != [] :: StripAll(ps)[j] in r
  }

  /** The filter adds nothing and drops nothing: every kept piece is the strip
      of an input piece, and every input piece with a non-blank strip is kept. */
  lemma {:induction false} KeepNonBlankExact(ps: seq<string>)
    ensures StripsOf(KeepNonBlank(ps), ps) && NoneDropped(KeepNonBlank(ps), ps)
    decreases |ps|
  {
    if ps != [] {
      var rest := KeepNonBlank(ps[1..]);
      KeepNonBlankExact(ps[1..]);
      var all, tail := StripAll(ps), StripAll(ps[1..]);
      StripAllCons(ps);
      var r := KeepNonBlank(ps);
      KeepNonBlankCons(ps);
      ConsStrips(all, tail, rest, r);
      ConsNoneDropped(all, tail, rest, r);
    }
  }

  lemma StripAllCons(ps: seq<string>)
    requires ps != []
    ensures StripAll(ps) == [Strip(ps[0])] + StripAll(ps[1..])
  {
    var all, tail := StripAll(ps), StripAll(ps[1..]);
    forall j | 0 < j < |ps| ensures all[j] == tail[j - 1] {
      assert ps[1..][j - 1] == ps[j];
    }
  }

  /** One step of the soundness induction, on the strips themselves. */
  lemma ConsStrips(all: seq<string>, tail: seq<string>, rest: seq<string>, r: seq<string>)
    requires all != [] && all == [all[0]] + tail
    requires forall k | 0 <= k < |rest| :: rest[k] in tail
    requires r == (if all[0] == [] then rest else [all[0]] + rest)
    ensures forall k | 0 <= k < |r| :: r[k] in all
  {
    forall k | 0 <= k < |r| ensures r[k] in all {
      if all[0] == [] || k > 0 {
        var k' := if all[0] == [] then k else k - 1;
        assert r[k] == rest[k'] && rest[k'] in tail;
        var j :| 0 <= j < |tail| && tail[j] == r[k];
        assert all[j + 1] == r[k];
      }
    }
  }

  /** One step of the completeness induction, on the strips themselves. */
  lemma ConsNoneDropped(all: seq<string>, tail: seq<string>, rest: seq<string>, r: seq<string>)
    requires all != [] && all == [all[0]] + tail
    requires forall j | 0 <= j < |tail| && tail[j] != [] :: tail[j] in rest
    requires r == (if all[0] == [] then rest else [all[0]] + rest)
    ensures forall j | 0 <= j < |all| && all[j] != [] :: all[j] in r
  {
    forall j | 0 <= j < |all| && all[j] != [] ensures all[j] in r {
      if j > 0 {
        assert all[j] == tail[j - 1] && tail[j - 1] in rest;
      } else {
        assert r[0] == all[0];
      }
    }
  }

  /** Filtering distributes over concatenation, so the kept pieces come in
      the order of their inputs. */
  lemma {:induction false} KeepNonBlankAppend(a: seq<string>, b: seq<string>)
    ensures KeepNonBlank(a + b) == KeepNonBlank(a) + KeepNonBlank(b)
    decreases |a|
  {
    if a != [] {
      var ab := a + b;
      assert ab[0] == a[0] && ab[1..] == a[1..] + b;
      KeepNonBlankAppend(a[1..], b);
      KeepNonBlankCons(ab);
      KeepNonBlankCons(a);
      var p := Strip(a[0]);
      var ka, kb := KeepNonBlank(a[1..]), KeepNonBlank(b);
      if p != [] {
        assert [p] + (ka + kb) == ([p] + ka) + kb;
      }
    } else {
      assert a + b == b;
    }
  }

  /** One unfolding of the filter. */
  lemma KeepNonBlankCons(ps: seq<string>)
    requires ps != []
    ensures KeepNonBlank(ps) ==
      if Strip(ps[0]) == [] then KeepNonBlank(ps[1..]) else [Strip(ps[0])] + KeepNonBlank(ps[1..])
  {
  }

  lemma StripTrimmed(s: string)
    requires Strip(s) != []
    ensures Trimmed(Strip(s))
  {
  }

  /** On pieces that are already trimmed, the filter keeps everything. */
  lemma {:induction false} KeepNonBlankTrimmed(ps: seq<string>)
    requires AllTrimmed(ps)
    ensures KeepNonBlank(ps) == ps
    decreases |ps|
  {
    if ps != [] {
      TrimmedStrip(ps[0]);
      var rest := ps[1..];
      assert AllTrimmed(rest) by {
        forall k | 0 <= k < |rest| ensures Trimmed(rest[k]) { assert rest[k] == ps[k + 1]; }
      }
      KeepNonBlankTrimmed(rest);
      assert ps == [ps[0]] + rest;
    }
  }

  /** `split_into_paragraphs`: blank lines first, then single newlines, then
      groups of three sentences; every piece stripped and empty ones dropped. */
  function SplitIntoParagraphs(text: string): (ps: seq<string>)
    ensures AllTrimmed(ps)
  {
    var byBlank := Split(BlankLine, text);
    var byLine := Split(LineBreak, text);
    var pieces :=
      if |byBlank| > 1 then byBlank
      else if |byLine| > 1 then byLine
      else SentenceGroups(Split(AfterSentence, text));
    KeepNonBlank(pieces)
  }

  /** Text without newlines is always split into sentence groups. */
  lemma NewlineFreeParagraphs(text: string)
    requires '\n' !in text
    ensures SplitIntoParagraphs(text) == KeepNonBlank(SentenceGroups(Split(AfterSentence, text)))
  {
    NoNewlineNoSplit(BlankLine, text);
    NoNewlineNoSplit(LineBreak, text);
  }

  /** The paragraphs of a cleaned text, joined by single spaces, are that text:
      splitting a cleaned opinion loses and adds nothing. */
  lemma CleanParagraphsRoundTrip(s: string)
    ensures JoinWith(SplitIntoParagraphs(CleanText(s)), " ") == CleanText(s)
  {
    NormalizedParagraphsRoundTrip(CleanText(s));
  }

  lemma NormalizedParagraphsRoundTrip(t: string)
    requires Normalized(t) && '\n' !in t
    ensures JoinWith(SplitIntoParagraphs(t), " ") == t
  {
    NewlineFreeParagraphs(t);
    var ss := Split(AfterSentence, t);
    if t == [] {
      EmptyHasNoParagraphs();
    } else {
      SentencesTrimmed(t);
      SentenceGroupsTrimmed(ss);
      KeepNonBlankTrimmed(SentenceGroups(ss));
      SentenceGroupsJoin(ss);
      SentenceRoundTrip(t);
    }
  }

  /** The empty text has no paragraphs. */
  lemma EmptyHasNoParagraphs()
    ensures SplitIntoParagraphs("") == []
  {
    assert Split(AfterSentence, "") == [""];
    assert SentenceGroups([""]) == [""];
    assert Strip("") == [];
  }
}

=== FILE: ingest_pipeline.dfy ===
/** The second, positional chunker: it cleans the first opinion's text, lets a
    parent splitter cut it into large blocks and a child splitter cut each block
    into small ones, and names every child `<case id>_P<i>_C<j>`. The two
    splitters and the storage read are parameters. */
module IngestPipeline {
  import opened Wrappers
  import opened Decimal
  import opened Whitespace
  import opened CaseRecord
  import opened Batches
  import HierText

  // ---------------------------------------------------------------- cleaning

  /** The leading run of newlines removed. */
  function DropNewlines(s: string): (r: string)
    ensures |r| <= |s| && r == s[|s| - |r|..]
    ensures r == [] || r[0] != '\n'
    ensures forall k | 0 <= k < |s| - |r| :: s[k] == '\n'
    decreases |s|
  {
    if s != [] && s[0] == '\n' then DropNewlines(s[1..]) else s
  }

  /** `re.sub(r'\n+', ' ', s)`: every maximal run of newlines becomes one space. */
  function NewlinesToSpace(s: string): (r: string)
    ensures '\n' !in r
    ensures |r| <= |s|
    decreases |s|
  {
    if s == [] then []
    else if s[0] == '\n' then [' '] + NewlinesToSpace(DropNewlines(s))
    else [s[0]] + NewlinesToSpace(s[1..])
  }

  /** `clean_legal_text`: newline runs to spaces, whitespace runs to one
      space, then strip. */
  function CleanLegalText(text: string): (r: string)
    ensures Normalized(r)
    ensures '\n' !in r
  {
    var c := Collapse(NewlinesToSpace(text));
    CollapseSingleSpaced(NewlinesToSpace(text));
    StripSingleSpaced(c);
    var r := Strip(c);
    assert IsSpace('\n');
    r
  }

  /** Dropping leading whitespace commutes with the newline pass. */
  lemma {:induction false} TrimLeftNewlines(s: string)
    ensures TrimLeft(NewlinesToSpace(s)) == NewlinesToSpace(TrimLeft(s))
    decreases |s|
  {
    if s != [] {
      if s[0] == '\n' {
        var d := DropNewlines(s);
        assert IsSpace(' ') && IsSpace('\n');
        TrimLeftNewlines(d);
        TrimLeftDropNewlines(s);
      } else if IsSpace(s[0]) {
        TrimLeftNewlines(s[1..]);
      }
    }
  }

  lemma {:induction false} TrimLeftDropNewlines(s: string)
    ensures TrimLeft(DropNewlines(s)) == TrimLeft(s)
    decreases |s|
  {
    if s != [] && s[0] == '\n' {
      assert IsSpace('\n');
      TrimLeftDropNewlines(s[1..]);
    }
  }

  /** The newline pass changes nothing that collapsing whitespace would not
      do anyway. */
  lemma {:induction false} CollapseAbsorbsNewlines(s: string)
    ensures Collapse(NewlinesToSpace(s)) == Collapse(s)
    decreases |s|
  {
    if s != [] {
      var n := NewlinesToSpace(s);
      if IsSpace(s[0]) {
        assert IsSpace(' ');
        assert IsSpace(n[0]);
        TrimLeftNewlines(s);
        CollapseAbsorbsNewlines(TrimLeft(s));
      } else {
        assert IsSpace('\n');
        CollapseAbsorbsNewlines(s[1..]);
      }
    }
  }

  /** The ingest cleaner is the hierarchical chunker's cleaner without the
      quote straightening. */
  lemma CleanersAgree(text: string)
    ensures CleanLegalText(text) == Strip(Collapse(text))
    ensures HierText.CleanText(text) == CleanLegalText(HierText.StraightenQuotes(text))
  {
    CollapseAbsorbsNewlines(text);
    CollapseAbsorbsNewlines(HierText.StraightenQuotes(text));
  }

  /** Cleaning a cleaned text changes nothing. */
  lemma CleanLegalTextIdempotent(text: string)
    ensures CleanLegalText(CleanLegalText(text)) == CleanLegalText(text)
  {
    var t := CleanLegalText(text);
    CollapseAbsorbsNewlines(t);
    CollapseFixesSingleSpaced(t);
    StripFixesNormalized(t);
  }

  // ---------------------------------------------------------------- records

  const BucketName := "test-bucket-gr7"

  /** The metadata of every chunk of a case: the case fields, the link to the
      source document, the parent's text and the record type. */
  datatype ChunkMeta = ChunkMeta(
    caseId: Option<int>,
    caseName: Option<string>,
    date: Option<string>,
    court: Option<string>,
    jurisdiction: Option<string>,
    citation: Option<string>,
    sourceLink: string,
    parentText: string,
    kind: string)

  /** `ProcessedChunk`; the vector is not set by this pipeline. */
  datatype ProcessedChunk = ProcessedChunk(chunkId: string, parentId: string, text: string, metadata: ChunkMeta)

  /** The case-level metadata, before the parent's text is added. */
  datatype CaseMeta = CaseMeta(
    caseId: Option<int>,
    caseName: Option<string>,
    date: Option<string>,
    court: Option<string>,
    jurisdiction: Option<string>,
    citation: Option<string>,
    sourceLink: string)

  /** `raw_data.get("citations", [{}])[0].get("cite")`: an absent list gives
      None, an empty one raises. */
  function FirstCite(c: Case): (r: Result<Option<string>, PyError>)
    ensures r.Failure? <==> c.citations == Some([])
    ensures r.Failure? ==> r.error == IndexError
    ensures c.citations.None? ==> r == Success(None)
  {
    match c.citations
    case None => Success(None)
    case Some(cs) => if cs == [] then Failure(IndexError) else Success(cs[0].cite)
  }

  /** `f"https://s3.amazonaws.com/{BUCKET_NAME}/{s3_key}"` */
  function SourceLink(key: string): string {
    "https://s3.amazonaws.com/" + BucketName + "/" + key
  }

  function CaseMetaOf(c: Case, key: string): (r: Result<CaseMeta, PyError>)
    ensures r.Failure? <==> c.citations == Some([])
    ensures r.Success? ==>
      && r.value.caseId == c.id && r.value.caseName == c.nameAbbreviation
      && r.value.date == c.decisionDate && r.value.sourceLink == SourceLink(key)
      && r.value.court == (if c.court.Some? then c.court.value.nameAbbreviation else None)
      && r.value.jurisdiction == (if c.jurisdiction.Some? then c.jurisdiction.value.name else None)
      && r.value.citation == FirstCite(c).value
  {
    match FirstCite(c)
    case Failure(e) => Failure(e)
    case Success(cite) =>
      Success(CaseMeta(
        c.id, c.nameAbbreviation, c.decisionDate,
        match c.court case None => None case Some(ct) => ct.nameAbbreviation,
        match c.jurisdiction case None => None case Some(j) => j.name,
        cite, SourceLink(key)))
  }

  /** `raw_data['casebody']['opinions'][0]['text']`, None where that raises
      `KeyError` or `IndexError`. */
  function FirstOpinionText(c: Case): Option<string> {
    match c.casebody
    case None => None
    case Some(b) =>
      match b.opinions
      case None => None
      case Some(os) => if os == [] then None else os[0].text
  }

  /** `f"{metadata['case_id']}"`: an absent id prints as "None". */
  function CaseIdText(id: Option<int>): string {
    match id
    case None => "None"
    case Some(i) => IntToString(i)
  }

  function ParentId(caseText: string, p: nat): string {
    caseText + "_P" + NatToString(p)
  }

  function ChildId(caseText: string, p: nat, c: nat): string {
    ParentId(caseText, p) + "_C" + NatToString(c)
  }

  /** The chunks of one parent, in the child splitter's order. */
  function ParentChunks(m: CaseMeta, p: nat, parent: string, children: seq<string>): (cs: seq<ProcessedChunk>)
    ensures |cs| == |children|
    ensures forall c | 0 <= c < |cs| ::
      cs[c] == ProcessedChunk(ChildId(CaseIdText(m.caseId), p, c), ParentId(CaseIdText(m.caseId), p),
                              children[c], ChunkMetaOf(m, parent))
  {
    seq(|children|, c requires 0 <= c < |children| =>
      ProcessedChunk(ChildId(CaseIdText(m.caseId), p, c), ParentId(CaseIdText(m.caseId), p),
                     children[c], ChunkMetaOf(m, parent)))
  }

  /** `{**metadata, "parent_text": parent, "type": "child"}` */
  function ChunkMetaOf(m: CaseMeta, parent: string): (r: ChunkMeta)
    ensures r.parentText == parent && r.kind == "child"
    ensures r.caseId == m.caseId && r.caseName == m.caseName && r.date == m.date && r.court == m.court
    ensures r.jurisdiction == m.jurisdiction && r.citation == m.citation && r.sourceLink == m.sourceLink
  {
    ChunkMeta(m.caseId, m.caseName, m.date, m.court, m.jurisdiction, m.citation, m.sourceLink, parent, "child")
  }

  /** The per-parent groups of a case. */
  function Groups(m: CaseMeta, parents: seq<string>, childSplit: string -> seq<string>): (gs: seq<seq<ProcessedChunk>>)
    ensures |gs| == |parents|
    ensures forall p | 0 <= p < |parents| :: gs[p] == ParentChunks(m, p, parents[p], childSplit(parents[p]))
  {
    seq(|parents|, p requires 0 <= p < |parents| => ParentChunks(m, p, parents[p], childSplit(parents[p])))
  }

  /** `process_case` once the document is loaded: the metadata is built first
      (an empty citation list raises there), a case without first-opinion
      text gives no chunks, and otherwise the parents of the cleaned text are
      cut into children, group after group. */
  function ProcessCase(c: Case, key: string, parentSplit: string -> seq<string>,
                       childSplit: string -> seq<string>): (r: Result<seq<ProcessedChunk>, PyError>)
    ensures r.Failure? <==> c.citations == Some([])
    ensures r.Success? && FirstOpinionText(c).None? ==> r.value == []
    ensures r.Success? && FirstOpinionText(c).Some? ==>
      var parents := parentSplit(CleanLegalText(FirstOpinionText(c).value));
      r.value == Concat(Groups(CaseMetaOf(c, key).value, parents, childSplit))
  {
    match CaseMetaOf(c, key)
    case Failure(e) => Failure(e)
    case Success(m) =>
      match FirstOpinionText(c)
      case None => Success([])
      case Some(text) =>
        var parents := parentSplit(CleanLegalText(text));
        Success(Concat(Groups(m, parents, childSplit)))
  }

  /** Child c of parent p sits after the children of the parents before p,
      with id "<case>_P<p>_C<c>", that parent's id, the child's text, and the
      parent's text in its metadata. */
  lemma ChunkAt(m: CaseMeta, parents: seq<string>, childSplit: string -> seq<string>, p: nat, c: nat)
    requires p < |parents| && c < |childSplit(parents[p])|
    ensures var gs := Groups(m, parents, childSplit); var i := |Concat(gs[..p])| + c;
      && i < |Concat(gs)|
      && Concat(gs)[i].chunkId == ParentId(CaseIdText(m.caseId), p) + "_C" + NatToString(c)
      && Concat(gs)[i].parentId == CaseIdText(m.caseId) + "_P" + NatToString(p)
      && Concat(gs)[i].text == childSplit(parents[p])[c]
      && Concat(gs)[i].metadata.parentText == parents[p]
      && Concat(gs)[i].metadata.kind == "child"
  {
    ConcatAt(Groups(m, parents, childSplit), p, c);
  }

  /** Every chunk is some parent's child: its id extends its parent id with
      "_C", and its metadata carries that parent's text. */
  lemma EveryChunkHasItsParent(m: CaseMeta, parents: seq<string>, childSplit: string -> seq<string>, i: nat)
    requires i < |Concat(Groups(m, parents, childSplit))|
    ensures var ch := Concat(Groups(m, parents, childSplit))[i];
      var pc := Position(Groups(m, parents, childSplit), i);
      && pc.0 < |parents| && pc.1 < |childSplit(parents[pc.0])|
      && ch.parentId == ParentId(CaseIdText(m.caseId), pc.0)
      && ch.chunkId == ch.parentId + "_C" + NatToString(pc.1)
      && ch.metadata.parentText == parents[pc.0]
  {
    var gs := Groups(m, parents, childSplit);
    var pc := Position(gs, i);
    ConcatAt(gs, pc.0, pc.1);
  }

  /** Within a case, ids name their position: equal child ids have equal
      parent and child numbers. */
  lemma ChildIdInjective(caseText: string, p: nat, c: nat, q: nat, d: nat)
    requires ChildId(caseText, p, c) == ChildId(caseText, q, d)
    ensures p == q && c == d
  {
    var pre := caseText + "_P";
    var a := NatToString(p) + ['_'] + ("C" + NatToString(c));
    var b := NatToString(q) + ['_'] + ("C" + NatToString(d));
    assert ChildId(caseText, p, c) == pre + a;
    assert ChildId(caseText, q, d) == pre + b;
    assert a == b by {
      assert (pre + a)[|pre|..] == a;
      assert (pre + b)[|pre|..] == b;
    }
    DigitPrefixUnique(NatToString(p), '_', "C" + NatToString(c), NatToString(q), '_', "C" + NatToString(d));
    NatToStringInjective(p, q);
    assert NatToString(c) == ("C" + NatToString(c))[1..];
    assert NatToString(d) == ("C" + NatToString(d))[1..];
    NatToStringInjective(c, d);
  }

  /** A chunk's id is the child id of its position. */
  lemma ChunkIdAt(m: CaseMeta, parents: seq<string>, childSplit: string -> seq<string>, i: nat)
    requires i < |Concat(Groups(m, parents, childSplit))|
    ensures var pc := Position(Groups(m, parents, childSplit), i);
      Concat(Groups(m, parents, childSplit))[i].chunkId == ChildId(CaseIdText(m.caseId), pc.0, pc.1)
  {
    EveryChunkHasItsParent(m, parents, childSplit, i);
  }

  /** The chunk ids of a case are pairwise distinct. */
  lemma ChunkIdsDistinct(m: CaseMeta, parents: seq<string>, childSplit: string -> seq<string>, i: nat, j: nat)
    requires i < j < |Concat(Groups(m, parents, childSplit))|
    ensures Concat(Groups(m, parents, childSplit))[i].chunkId != Concat(Groups(m, parents, childSplit))[j].chunkId
  {
    var gs := Groups(m, parents, childSplit);
    var pi := Position(gs, i);
    var pj := Position(gs, j);
    ChunkIdAt(m, parents, childSplit, i);
    ChunkIdAt(m, parents, childSplit, j);
    if Concat(gs)[i].chunkId == Concat(gs)[j].chunkId {
      ChildIdInjective(CaseIdText(m.caseId), pi.0, pi.1, pj.0, pj.1);
    }
  }
}

=== FILE: pdf_generator.dfy ===
/** The text side of the case PDF: the citation shown for a case, the metadata
    rows and cited-case lines that make it into the document, and the cleaning
    of opinion text before it is handed to the renderer as paragraph markup
    (whitespace collapsed, the markup characters `&`, `<` and `>` written as
    the predefined entities of section 4.6 of XML 1.0, then a length cap). */
module PdfGenerator {
  import opened Wrappers
  import opened Decimal
  import opened Whitespace
  import opened CaseRecord
  import opened Slices
  import SplitJoin

  // ---------------------------------------------------------------- citation

  /** Whether some official entry lacks 'cite': building the list
      `[c['cite'] for c in citations if c.get('type') == 'official']` then
      raises. */
  predicate OfficialWithoutCite(cs: seq<Citation>) {
    exists k | 0 <= k < |cs| :: IsOfficial(cs[k]) && cs[k].cite.None?
  }

  /** `_format_citations`: 'N/A' for no citations; the first official cite
      wherever it stands; else the first entry's cite, 'N/A' when it has none.
      The official list is built in full, so any official entry without a
      cite raises. */
  function FormatCitations(cs: seq<Citation>): (r: Result<string, PyError>)
    ensures cs == [] ==> r == Success("N/A")
    ensures r.Failure? <==> OfficialWithoutCite(cs)
    ensures r.Success? && FirstOfficial(cs).Some? ==> r.value == cs[FirstOfficial(cs).value].cite.value
    ensures r.Success? && cs != [] && FirstOfficial(cs).None? ==> r.value == cs[0].cite.GetOr("N/A")
  {
    if cs == [] then Success("N/A")
    else if OfficialCites(cs).None? then Failure(KeyError("cite"))
    else
      var official := OfficialCites(cs).value;
      if official != [] then Success(official[0])
      else Success(cs[0].cite.GetOr("N/A"))
  }

  /** The cites of the official entries in order, or None when one lacks it. */
  function OfficialCites(cs: seq<Citation>): (r: Option<seq<string>>)
    ensures r.None? <==> OfficialWithoutCite(cs)
    ensures r.Some? ==> (r.value == [] <==> FirstOfficial(cs).None?)
    ensures r.Some? && r.value != [] ==> r.value[0] == cs[FirstOfficial(cs).value].cite.value
    decreases |cs|
  {
    if cs == [] then Some([])
    else
      var rest := OfficialCites(cs[1..]);
      assert OfficialWithoutCite(cs) <==> (IsOfficial(cs[0]) && cs[0].cite.None?) || OfficialWithoutCite(cs[1..]) by {
        if OfficialWithoutCite(cs[1..]) {
          var k :| 0 <= k < |cs[1..]| && IsOfficial(cs[1..][k]) && cs[1..][k].cite.None?;
          assert cs[k + 1] == cs[1..][k];
        }
        if OfficialWithoutCite(cs) && !(IsOfficial(cs[0]) && cs[0].cite.None?) {
          var k :| 0 <= k < |cs| && IsOfficial(cs[k]) && cs[k].cite.None?;
          assert k > 0 && cs[1..][k - 1] == cs[k];
        }
      }
      if IsOfficial(cs[0]) then
        if cs[0].cite.None? || rest.None? then None else Some([cs[0].cite.value] + rest.value)
      else rest
  }

  /** An official citation wins over an earlier non-official one. */
  lemma OfficialWinsAnywhere()
    ensures FormatCitations([Citation(Some("parallel"), Some("5 Ill. 9")),
                             Citation(Some("official"), Some("1 Ill. 2"))]) == Success("1 Ill. 2")
  {
    var cs := [Citation(Some("parallel"), Some("5 Ill. 9")), Citation(Some("official"), Some("1 Ill. 2"))];
    assert !IsOfficial(cs[0]) && IsOfficial(cs[1]);
    assert cs[1..] == [cs[1]];
    assert FirstOfficial(cs) == Some(1);
    assert !OfficialWithoutCite(cs);
  }

  // ---------------------------------------------------------------- metadata rows

  /** The rows of the case information block, in the order they are listed. */
  datatype Field = CaseId | CitationField | DecisionDate | CourtField | JurisdictionField | DocketNumber

  /** The label printed for each row. */
  function Label(f: Field): string {
    match f
    case CaseId => "Case ID"
    case CitationField => "Citation"
    case DecisionDate => "Decision Date"
    case CourtField => "Court"
    case JurisdictionField => "Jurisdiction"
    case DocketNumber => "Docket Number"
  }

  /** One line of the case information block. */
  datatype Row = Row(field: Field, value: string)

  /** What `str(value)` shows, or None when the value is falsy: an absent
      key, an empty string, or the number 0. */
  function ShownText(v: Option<string>): Option<string> {
    if v.Some? && v.value != "" then v else None
  }

  function ShownId(id: Option<int>): Option<string> {
    if id.Some? && id.value != 0 then Some(IntToString(id.value)) else None
  }

  /** `court.get('name', 'Unknown')`, with 'Unknown' for an absent court. */
  function CourtName(c: Case): string {
    match c.court case None => "Unknown" case Some(ct) => ct.name.GetOr("Unknown")
  }

  function JurisdictionName(c: Case): string {
    match c.jurisdiction case None => "Unknown" case Some(j) => j.nameLong.GetOr("Unknown")
  }

  /** The value offered for a row, None when it is falsy. */
  function FieldValue(c: Case, citation: string, f: Field): (v: Option<string>)
    ensures v.Some? ==> v.value != ""
  {
    match f
    case CaseId => ShownId(c.id)
    case CitationField => ShownText(Some(citation))
    case DecisionDate => ShownText(c.decisionDate)
    case CourtField => ShownText(Some(CourtName(c)))
    case JurisdictionField => ShownText(Some(JurisdictionName(c)))
    case DocketNumber => ShownText(c.docketNumber)
  }

  /** `(label, value)` for the six candidate rows, in the order they are
      listed. */
  function Candidates(c: Case, citation: string): (cands: seq<(Field, Option<string>)>)
    ensures |cands| == 6
  {
    var fs := [CaseId, CitationField, DecisionDate, CourtField, JurisdictionField, DocketNumber];
    seq(6, k requires 0 <= k < 6 => (fs[k], FieldValue(c, citation, fs[k])))
  }

  /** `for label, value in metadata_items: if value: ...`: the candidates
      with a non-empty value, in their order. */
  function KeepShown(cands: seq<(Field, Option<string>)>): (rows: seq<Row>)
    ensures |rows| <= |cands|
    ensures forall row :: row in rows <==> (row.field, Some(row.value)) in cands && row.value != ""
    decreases |cands|
  {
    if cands == [] then []
    else
      var rest := KeepShown(cands[1..]);
      assert forall p :: p in cands <==> p == cands[0] || p in cands[1..];
      match cands[0].1
      case None => rest
      case Some(v) =>
        if v == "" then rest else [Row(cands[0].0, v)] + rest
  }

  /** The case information rows. Formatting the citation may raise. */
  function MetadataRows(c: Case): (r: Result<seq<Row>, PyError>)
    ensures r.Failure? <==> OfficialWithoutCite(c.citations.GetOr([]))
    ensures r.Success? ==> |r.value| <= 6 && forall k | 0 <= k < |r.value| :: r.value[k].value != ""
  {
    match FormatCitations(c.citations.GetOr([]))
    case Failure(e) => Failure(e)
    case Success(cite) =>
      var rows := KeepShown(Candidates(c, cite));
      assert forall k | 0 <= k < |rows| :: rows[k] in rows;
      Success(rows)
  }

  /** A row for field f with value v appears exactly when v is the
      field's truthy value. */
  lemma RowIn(c: Case, citation: string, f: Field, v: string)
    ensures Row(f, v) in KeepShown(Candidates(c, citation)) <==> FieldValue(c, citation, f) == Some(v)
  {
    var cands := Candidates(c, citation);
    var k := match f
      case CaseId => 0 case CitationField => 1 case DecisionDate => 2
      case CourtField => 3 case JurisdictionField => 4 case DocketNumber => 5;
    assert cands[k] == (f, FieldValue(c, citation, f));
    if (f, Some(v)) in cands {
      var i :| 0 <= i < 6 && cands[i] == (f, Some(v));
      assert i == k;
    }
  }

  /** Which rows appear, and with what: the case id unless absent or 0, the
      citation unless empty, the court and jurisdiction names ('Unknown'
      when missing) unless empty, and the date and docket number when
      present and not empty. */
  lemma RowsShown(c: Case, v: string)
    requires !OfficialWithoutCite(c.citations.GetOr([]))
    ensures var rows := MetadataRows(c).value; var cite := FormatCitations(c.citations.GetOr([])).value;
      && (Row(CaseId, v) in rows <==> c.id.Some? && c.id.value != 0 && v == IntToString(c.id.value))
      && (Row(CitationField, v) in rows <==> v == cite && v != "")
      && (Row(DecisionDate, v) in rows <==> c.decisionDate == Some(v) && v != "")
      && (Row(CourtField, v) in rows <==> v == CourtName(c) && v != "")
      && (Row(JurisdictionField, v) in rows <==> v == JurisdictionName(c) && v != "")
      && (Row(DocketNumber, v) in rows <==> c.docketNumber == Some(v) && v != "")
  {
    var cite := FormatCitations(c.citations.GetOr([])).value;
    assert MetadataRows(c).value == KeepShown(Candidates(c, cite));
    RowIn(c, cite, CaseId, v);
    RowIn(c, cite, CitationField, v);
    RowIn(c, cite, DecisionDate, v);
    RowIn(c, cite, CourtField, v);
    RowIn(c, cite, JurisdictionField, v);
    RowIn(c, cite, DocketNumber, v);
  }

  // ---------------------------------------------------------------- cited cases

  /** The bullet as the source spells it: the UTF-8 bytes of U+2022 read as
      Windows-1252 text. */
  const Bullet := "\U{00E2}\U{20AC}\U{00A2} "

  const MaxCitedCases: nat := 20

  /** The "Cases Cited" lines: the first 20 entries in order, 'Unknown' for
      an entry without a cite; no section for an empty or absent list. */
  function CitedLines(c: Case): (lines: seq<string>)
    ensures var cited := c.citesTo.GetOr([]);
      && |lines| == (if |cited| < MaxCitedCases then |cited| else MaxCitedCases)
      && forall k | 0 <= k < |lines| :: lines[k] == Bullet + cited[k].cite.GetOr("Unknown")
  {
    var first := PyTake(c.citesTo.GetOr([]), MaxCitedCases);
    seq(|first|, k requires 0 <= k < |first| => Bullet + first[k].cite.GetOr("Unknown"))
  }

  // ---------------------------------------------------------------- opinion text

  /** `s.replace(c, rep)` for a single character c. */
  function ReplaceChar(s: string, c: char, rep: string): (r: string)
    ensures c !in rep ==> c !in r
    ensures forall x | x != c && x !in rep :: x in r <==> x in s
    decreases |s|
  {
    if s == [] then []
    else (if s[0] == c then rep else [s[0]]) + ReplaceChar(s[1..], c, rep)
  }

  /** The three replacements, in the order they run: '&' first, so that the
      entities written for '<' and '>' are not escaped again. */
  function Escape(s: string): (r: string)
    ensures '<' !in r && '>' !in r
  {
    ReplaceChar(ReplaceChar(ReplaceChar(s, '&', "&amp;"), '<', "&lt;"), '>', "&gt;")
  }

  const MaxTextLength: nat := 50000
  const TruncationNote := "...\n\n[Text truncated for brevity]"

  /** `text[:max_length] + note` when the text is longer than `max_length`. */
  function Truncate(e: string, maxLength: nat, note: string): (r: string)
    ensures |e| <= maxLength ==> r == e
    ensures |e| > maxLength ==> r == e[..maxLength] + note
    ensures |r| <= maxLength + |note|
    ensures forall x | x !in e && x !in note :: x !in r
  {
    if |e| > maxLength then
      assert forall x | x in e[..maxLength] :: x in e;
      e[..maxLength] + note
    else e
  }

  /** `_clean_text`: words joined by single spaces, the markup characters
      escaped, and anything past 50000 characters replaced by a note. */
  function CleanPdfText(text: string): (r: string)
    ensures '<' !in r && '>' !in r
    ensures |r| <= MaxTextLength + |TruncationNote|
  {
    NoteHasNoMarkup();
    Truncate(Escape(JoinWith(Words(text), " ")), MaxTextLength, TruncationNote)
  }

  lemma NoteHasNoMarkup()
    ensures '<' !in TruncationNote && '>' !in TruncationNote
  {
    var n := TruncationNote;
    assert forall k | 0 <= k < |n| :: n[k] != '<' && n[k] != '>';
  }

  /** The words joined by single spaces are the collapsed, stripped text. */
  lemma CleanPdfTextNormalizes(text: string)
    ensures JoinWith(Words(text), " ") == Strip(Collapse(text))
    ensures Normalized(JoinWith(Words(text), " "))
  {
    SplitJoin.JoinWordsIsStripCollapse(text);
    CollapseSingleSpaced(text);
    StripSingleSpaced(Collapse(text));
  }

  // ---------------------------------------------------------------- decoding

  /** `s.replace(old, new)`: left to right, without overlaps. */
  function ReplaceStr(s: string, pat: string, rep: string): string
    requires pat != []
    decreases |s|
  {
    if |s| < |pat| then s
    else if s[..|pat|] == pat then rep + ReplaceStr(s[|pat|..], pat, rep)
    else [s[0]] + ReplaceStr(s[1..], pat, rep)
  }

  /** Undoing the escape: `&lt;`, then `&gt;`, then `&amp;`. */
  function Unescape(s: string): string {
    ReplaceStr(ReplaceStr(ReplaceStr(s, "&lt;", "<"), "&gt;", ">"), "&amp;", "&")
  }

  /** What character x has become after `stage` of the steps: the three
      entities at stage 0, then '<', '>' and '&' restored one by one. */
  function Piece(x: char, stage: nat): string {
    if x == '&' && stage < 3 then "&amp;"
    else if x == '<' && stage < 1 then "&lt;"
    else if x == '>' && stage < 2 then "&gt;"
    else [x]
  }

  function Encode(s: string, stage: nat): string
    decreases |s|
  {
    if s == [] then [] else Piece(s[0], stage) + Encode(s[1..], stage)
  }

  /** The entity decoded at each step. */
  function Entity(stage: nat): string {
    if stage == 0 then "&lt;" else if stage == 1 then "&gt;" else "&amp;"
  }

  function Decoded(stage: nat): string {
    if stage == 0 then "<" else if stage == 1 then ">" else "&"
  }

  lemma {:induction false} ReplaceCharAppend(a: string, b: string, c: char, rep: string)
    ensures ReplaceChar(a + b, c, rep) == ReplaceChar(a, c, rep) + ReplaceChar(b, c, rep)
    decreases |a|
  {
    if a != [] {
      assert (a + b)[0] == a[0] && (a + b)[1..] == a[1..] + b;
      ReplaceCharAppend(a[1..], b, c, rep);
    } else {
      assert a + b == b;
    }
  }

  /** A text without c goes through the pass for c unchanged. */
  lemma {:induction false} ReplaceCharAbsent(t: string, c: char, rep: string)
    requires c !in t
    ensures ReplaceChar(t, c, rep) == t
    decreases |t|
  {
    if t != [] {
      ReplaceCharAbsent(t[1..], c, rep);
    }
  }

  lemma EscapeAppend(a: string, b: string)
    ensures Escape(a + b) == Escape(a) + Escape(b)
  {
    ReplaceCharAppend(a, b, '&', "&amp;");
    ReplaceCharAppend(ReplaceChar(a, '&', "&amp;"), ReplaceChar(b, '&', "&amp;"), '<', "&lt;");
    ReplaceCharAppend(ReplaceChar(ReplaceChar(a, '&', "&amp;"), '<', "&lt;"),
                      ReplaceChar(ReplaceChar(b, '&', "&amp;"), '<', "&lt;"), '>', "&gt;");
  }

  lemma ReplaceCharSingle(x: char, c: char, rep: string)
    ensures ReplaceChar([x], c, rep) == if x == c then rep else [x]
  {
    assert ReplaceChar([x][1..], c, rep) == [];
  }

  lemma EscapeChar(x: char)
    ensures Escape([x]) == Piece(x, 0)
  {
    ReplaceCharSingle(x, '&', "&amp;");
    if x == '&' {
      ReplaceCharAbsent("&amp;", '<', "&lt;");
      ReplaceCharAbsent("&amp;", '>', "&gt;");
    } else {
      ReplaceCharSingle(x, '<', "&lt;");
      if x == '<' {
        ReplaceCharAbsent("&lt;", '>', "&gt;");
      } else {
        ReplaceCharSingle(x, '>', "&gt;");
      }
    }
  }

  /** The three passes write each character's entity at once. */
  lemma {:induction false} EscapeIsEncode(s: string)
    ensures Escape(s) == Encode(s, 0)
    decreases |s|
  {
    if s != [] {
      assert s == [s[0]] + s[1..];
      EscapeAppend([s[0]], s[1..]);
      EscapeChar(s[0]);
      EscapeIsEncode(s[1..]);
    }
  }

  /** A character other than '&' is passed over. */
  lemma NoMatchStep(s: string, stage: nat)
    requires s != [] && s[0] != '&'
    ensures ReplaceStr(s, Entity(stage), Decoded(stage)) == [s[0]] + ReplaceStr(s[1..], Entity(stage), Decoded(stage))
  {
    var pat := Entity(stage);
    if |s| < |pat| {
      assert s == [s[0]] + s[1..];
    } else {
      assert s[..|pat|][0] != pat[0];
    }
  }

  /** Text without '&' never starts a match of an entity. */
  lemma {:induction false} AmpFree(t: string, rest: string, stage: nat)
    requires '&' !in t
    ensures ReplaceStr(t + rest, Entity(stage), Decoded(stage)) == t + ReplaceStr(rest, Entity(stage), Decoded(stage))
    decreases |t|
  {
    if t != [] {
      var s := t + rest;
      assert s[0] == t[0] && s[1..] == t[1..] + rest;
      NoMatchStep(s, stage);
      AmpFree(t[1..], rest, stage);
      assert t == [t[0]] + t[1..];
    } else {
      assert t + rest == rest;
    }
  }

  /** The entity being decoded is replaced where it stands. */
  lemma MatchStep(rest: string, stage: nat)
    ensures ReplaceStr(Entity(stage) + rest, Entity(stage), Decoded(stage))
         == Decoded(stage) + ReplaceStr(rest, Entity(stage), Decoded(stage))
  {
    var pat := Entity(stage);
    var s := pat + rest;
    assert s[..|pat|] == pat && s[|pat|..] == rest;
  }

  /** Another entity parts from the one being decoded at its second
      character, so it is kept. */
  lemma OtherEntityStep(p: string, rest: string, stage: nat)
    requires |p| >= 2 && p[0] == '&' && p[1] != Entity(stage)[1] && '&' !in p[1..]
    ensures ReplaceStr(p + rest, Entity(stage), Decoded(stage))
         == p + ReplaceStr(rest, Entity(stage), Decoded(stage))
  {
    var pat := Entity(stage);
    var s := p + rest;
    if |s| >= |pat| {
      assert s[..|pat|][1] == p[1];
      assert s[1..] == p[1..] + rest;
      AmpFree(p[1..], rest, stage);
      assert p == [p[0]] + p[1..];
    } else {
      assert |rest| < |pat|;
    }
  }

  /** One character's piece passes through a decoding step on its own. */
  lemma PieceStep(x: char, rest: string, stage: nat)
    requires stage < 3
    ensures ReplaceStr(Piece(x, stage) + rest, Entity(stage), Decoded(stage))
         == Piece(x, stage + 1) + ReplaceStr(rest, Entity(stage), Decoded(stage))
  {
    if (x == '<' && stage == 0) || (x == '>' && stage == 1) || (x == '&' && stage == 2) {
      MatchStep(rest, stage);
    } else if x == '&' {
      OtherEntityStep("&amp;", rest, stage);
    } else if x == '>' && stage == 0 {
      OtherEntityStep("&gt;", rest, stage);
    } else {
      AmpFree([x], rest, stage);
    }
  }

  /** Each decoding step turns one stage's encoding into the next. */
  lemma {:induction false} DecodeStep(s: string, stage: nat)
    requires stage < 3
    ensures ReplaceStr(Encode(s, stage), Entity(stage), Decoded(stage)) == Encode(s, stage + 1)
    decreases |s|
  {
    if s != [] {
      PieceStep(s[0], Encode(s[1..], stage), stage);
      DecodeStep(s[1..], stage);
    }
  }

  lemma {:induction false} EncodeLast(s: string)
    ensures Encode(s, 3) == s
    decreases |s|
  {
    if s != [] {
      EncodeLast(s[1..]);
    }
  }

  /** Unescaping gives back the text that was escaped. */
  lemma UnescapeEscape(s: string)
    ensures Unescape(Escape(s)) == s
  {
    EscapeIsEncode(s);
    DecodeStep(s, 0);
    DecodeStep(s, 1);
    DecodeStep(s, 2);
    EncodeLast(s);
  }

  /** When no truncation happens, unescaping the cleaned text recovers the
      normalised text; otherwise the text ends with the note. */
  lemma CleanPdfTextRoundTrip(text: string)
    ensures var e := Escape(JoinWith(Words(text), " "));
      && (|e| <= MaxTextLength ==> Unescape(CleanPdfText(text)) == Strip(Collapse(text)))
      && (|e| > MaxTextLength ==> CleanPdfText(text) == e[..MaxTextLength] + TruncationNote)
  {
    var e := Escape(JoinWith(Words(text), " "));
    if |e| <= MaxTextLength {
      UnescapeEscape(JoinWith(Words(text), " "));
      CleanPdfTextNormalizes(text);
    }
  }

  // ---------------------------------------------------------------- title case

  predicate IsUpper(ch: char) { 'A' <= ch <= 'Z' }
  predicate IsLower(ch: char) { 'a' <= ch <= 'z' }
  predicate IsCased(ch: char) { IsUpper(ch) || IsLower(ch) }

  function ToUpper(ch: char): char {
    if IsLower(ch) then (ch as int - 32) as char else ch
  }

  function ToLower(ch: char): char {
    if IsUpper(ch) then (ch as int + 32) as char else ch
  }

  /** Whether the character before position k is cased; `afterCased` stands
      for the text before s. */
  predicate AfterCased(s: string, k: nat, afterCased: bool)
    requires k < |s|
  {
    if k == 0 then afterCased else IsCased(s[k - 1])
  }

  /** `str.title()` on the rest of a text: a cased character is upper case
      when it opens a run of cased characters and lower case inside one;
      everything else is kept. */
  function TitleFrom(s: string, afterCased: bool): (r: string)
    ensures |r| == |s|
    ensures forall k | 0 <= k < |s| ::
      r[k] == (if !IsCased(s[k]) then s[k]
               else if AfterCased(s, k, afterCased) then ToLower(s[k])
               else ToUpper(s[k]))
    decreases |s|
  {
    if s == [] then []
    else
      var rest := TitleFrom(s[1..], IsCased(s[0]));
      var first := if !IsCased(s[0]) then s[0] else if afterCased then ToLower(s[0]) else ToUpper(s[0]);
      assert forall k | 1 <= k < |s| :: s[1..][k - 1] == s[k];
      [first] + rest
  }

  function Title(s: string): (r: string)
    ensures |r| == |s|
  {
    TitleFrom(s, false)
  }

  /** Title-casing a title-cased text changes nothing. */
  lemma TitleIdempotent(s: string)
    ensures Title(Title(s)) == Title(s)
  {
    var t := Title(s);
    var tt := Title(t);
    forall k | 0 <= k < |s|
      ensures tt[k] == t[k]
    {
      assert IsCased(t[k]) <==> IsCased(s[k]);
      if k > 0 {
        assert IsCased(t[k - 1]) <==> IsCased(s[k - 1]);
      }
    }
  }

  lemma TitleExample()
    ensures Title("dissent") == "Dissent"
  {
    var t := Title("dissent");
    assert t[0] == 'D' && t[1] == 'i' && t[2] == 's' && t[3] == 's';
    assert t[4] == 'e' && t[5] == 'n' && t[6] == 't';
  }

  // ---------------------------------------------------------------- the document

  /** The paragraphs of the document, by style, and the page break before
      the cited cases. */
  datatype Block =
    | CaseTitle(text: string)
    | SectionHeader(text: string)
    | Metadata(text: string)
    | LegalText(text: string)
    | PageBreak

  function RowMarkup(row: Row): string {
    "<b>" + Label(row.field) + ":</b> " + row.value
  }

  /** An opinion: its title-cased type ('Opinion' when missing) and author
      ('Unknown' when missing), then its cleaned text when it has any. */
  function OpinionBlocks(o: Opinion): (bs: seq<Block>)
    ensures 1 <= |bs| <= 2
    ensures bs[0] == Metadata("<b>" + Title(o.kind.GetOr("Opinion")) + "</b> by " + o.author.GetOr("Unknown"))
    ensures |bs| == 2 <==> o.text.Some? && o.text.value != ""
    ensures |bs| == 2 ==> bs[1] == LegalText(CleanPdfText(o.text.value))
  {
    [Metadata("<b>" + Title(o.kind.GetOr("Opinion")) + "</b> by " + o.author.GetOr("Unknown"))]
    + (if o.text.Some? && o.text.value != "" then [LegalText(CleanPdfText(o.text.value))] else [])
  }

  /** Only metadata and escaped legal text; between one and two per opinion. */
  function OpinionsBlocks(os: seq<Opinion>): (bs: seq<Block>)
    ensures |os| <= |bs| <= 2 * |os|
    ensures forall b | b in bs :: b.Metadata? || b.LegalText?
    ensures forall b | b in bs && b.LegalText? :: '<' !in b.text && '>' !in b.text
    decreases |os|
  {
    if os == [] then [] else OpinionBlocks(os[0]) + OpinionsBlocks(os[1..])
  }

  /** The information rows as paragraphs. */
  function InfoBlocks(rows: seq<Row>): (bs: seq<Block>)
    ensures |bs| == |rows|
    ensures forall b | b in bs :: b.Metadata?
  {
    seq(|rows|, k requires 0 <= k < |rows| => Metadata(RowMarkup(rows[k])))
  }

  /** The opinions under their header, or nothing without opinions. */
  function OpinionsSection(os: seq<Opinion>): (bs: seq<Block>)
    ensures SectionHeader("Opinions") in bs <==> os != []
    ensures PageBreak !in bs
    ensures forall b | b in bs && b.LegalText? :: '<' !in b.text && '>' !in b.text
  {
    if os == [] then []
    else
      var body := OpinionsBlocks(os);
      assert forall b | b in [SectionHeader("Opinions")] + body :: b == SectionHeader("Opinions") || b in body;
      [SectionHeader("Opinions")] + body
  }

  /** The cited cases after a page break, or nothing when none are cited. */
  function CitedSection(c: Case): (bs: seq<Block>)
    ensures PageBreak in bs <==> c.citesTo.GetOr([]) != []
    ensures SectionHeader("Opinions") !in bs
    ensures forall b | b in bs :: !b.LegalText?
  {
    if c.citesTo.GetOr([]) == [] then []
    else
      var lines := CitedLines(c);
      var entries := seq(|lines|, k requires 0 <= k < |lines| => Metadata(lines[k]));
      assert forall b | b in entries :: b.Metadata?;
      var bs := [PageBreak, SectionHeader("Cases Cited")] + entries;
      assert forall b | b in bs :: b == PageBreak || b == SectionHeader("Cases Cited") || b in entries;
      bs
  }

  function Footer(timestamp: string): Block {
    Metadata("<i>Generated by Legal RAG System on " + timestamp + "</i>")
  }

  /** The document around given information rows. */
  function Assemble(c: Case, rows: seq<Row>, timestamp: string): (bs: seq<Block>)
    ensures |bs| >= 3 && bs[0] == CaseTitle(c.name.GetOr("Unknown Case"))
    ensures bs[|bs| - 1] == Footer(timestamp)
  {
    [CaseTitle(c.name.GetOr("Unknown Case")), SectionHeader("Case Information")]
    + InfoBlocks(rows) + OpinionsSection(OpinionsOf(c)) + CitedSection(c) + [Footer(timestamp)]
  }

  /** Which sections the document has, and that its opinion text is escaped. */
  lemma AssembleSections(c: Case, rows: seq<Row>, timestamp: string)
    ensures var bs := Assemble(c, rows, timestamp);
      && (SectionHeader("Opinions") in bs <==> OpinionsOf(c) != [])
      && (PageBreak in bs <==> c.citesTo.GetOr([]) != [])
      && forall b | b in bs && b.LegalText? :: '<' !in b.text && '>' !in b.text
  {
    var head := [CaseTitle(c.name.GetOr("Unknown Case")), SectionHeader("Case Information")];
    var info := InfoBlocks(rows);
    var opinions := OpinionsSection(OpinionsOf(c));
    var cited := CitedSection(c);
    var bs := head + info + opinions + cited + [Footer(timestamp)];
    assert bs == Assemble(c, rows, timestamp);
    forall b | b in bs
      ensures b in head || b in info || b in opinions || b in cited || b == Footer(timestamp)
    {
    }
    assert SectionHeader("Opinions") in bs <==> SectionHeader("Opinions") in opinions;
    assert PageBreak in bs <==> PageBreak in cited;
  }

  /** `generate_pdf`, up to layout: the case name ('Unknown Case' when
      missing), the information rows, the opinions under a header when there
      are any, the first 20 cited cases after a page break when there are
      any, and the footer with the time of generation. The document opens
      with the case name and closes with the footer; it has an opinions
      header exactly when the case has opinions and a page break exactly
      when it cites cases; every paragraph of opinion text is escaped. */
  function GeneratePdf(c: Case, timestamp: string): (r: Result<seq<Block>, PyError>)
    ensures r.Failure? <==> OfficialWithoutCite(c.citations.GetOr([]))
    ensures r.Success? ==>
      && |r.value| >= 3 && r.value[0] == CaseTitle(c.name.GetOr("Unknown Case"))
      && r.value[|r.value| - 1] == Footer(timestamp)
      && (SectionHeader("Opinions") in r.value <==> OpinionsOf(c) != [])
      && (PageBreak in r.value <==> c.citesTo.GetOr([]) != [])
      && forall b | b in r.value && b.LegalText? :: '<' !in b.text && '>' !in b.text
  {
    match MetadataRows(c)
    case Failure(e) => Failure(e)
    case Success(rows) =>
      AssembleSections(c, rows, timestamp);
      Success(Assemble(c, rows, timestamp))
  }

  /** Every block of an opinion appears among the blocks of the opinions. */
  lemma {:induction false} OpinionBlocksIncluded(os: seq<Opinion>, o: Opinion)
    requires o in os
    ensures forall b | b in OpinionBlocks(o) :: b in OpinionsBlocks(os)
    decreases |os|
  {
    if os[0] != o {
      assert o in os[1..];
      OpinionBlocksIncluded(os[1..], o);
    }
  }

  /** Each cited line is a paragraph of the cited section. */
  lemma CitedLinesInSection(c: Case)
    ensures forall k | 0 <= k < |CitedLines(c)| :: Metadata(CitedLines(c)[k]) in CitedSection(c)
  {
    var lines := CitedLines(c);
    if c.citesTo.GetOr([]) != [] {
      var entries := seq(|lines|, k requires 0 <= k < |lines| => Metadata(lines[k]));
      assert CitedSection(c) == [PageBreak, SectionHeader("Cases Cited")] + entries;
      forall k | 0 <= k < |lines| ensures Metadata(lines[k]) in CitedSection(c) {
        assert entries[k] == CitedSection(c)[k + 2];
      }
    } else {
      assert |lines| == 0;
    }
  }

  /** The assembled document opens with the case name, the information
      header and the rows, and holds every cited line. */
  lemma AssembleContent(c: Case, rows: seq<Row>, timestamp: string)
    ensures var bs := Assemble(c, rows, timestamp);
      && |bs| >= 2 + |rows|
      && bs[..2] == [CaseTitle(c.name.GetOr("Unknown Case")), SectionHeader("Case Information")]
      && bs[2..2 + |rows|] == InfoBlocks(rows)
      && forall k | 0 <= k < |CitedLines(c)| :: Metadata(CitedLines(c)[k]) in bs
  {
    var head := [CaseTitle(c.name.GetOr("Unknown Case")), SectionHeader("Case Information")];
    var info := InfoBlocks(rows);
    var opinions := OpinionsSection(OpinionsOf(c));
    var cited := CitedSection(c);
    var bs := head + info + opinions + cited + [Footer(timestamp)];
    assert Assemble(c, rows, timestamp) == bs;
    assert bs[..2] == head;
    assert bs[2..2 + |rows|] == info;
    CitedLinesInSection(c);
    forall k | 0 <= k < |CitedLines(c)| ensures Metadata(CitedLines(c)[k]) in bs {
      assert Metadata(CitedLines(c)[k]) in cited;
    }
  }

  /** What the document holds: the case name, the "Case Information"
      header, then every shown information row in order, and each of the
      first 20 cited cases on a line of its own. */
  lemma GeneratePdfContent(c: Case, timestamp: string)
    ensures var r := GeneratePdf(c, timestamp);
      r.Success? ==>
        && MetadataRows(c).Success?
        && |r.value| >= 2 + |MetadataRows(c).value|
        && r.value[..2] == [CaseTitle(c.name.GetOr("Unknown Case")), SectionHeader("Case Information")]
        && r.value[2..2 + |MetadataRows(c).value|] == InfoBlocks(MetadataRows(c).value)
        && forall k | 0 <= k < |CitedLines(c)| :: Metadata(CitedLines(c)[k]) in r.value
  {
    if MetadataRows(c).Success? {
      AssembleContent(c, MetadataRows(c).value, timestamp);
    }
  }

  /** Every opinion of the case is in the document: its header line and,
      when it has text, its cleaned text. */
  lemma OpinionTextShown(c: Case, timestamp: string, o: Opinion)
    requires o in OpinionsOf(c)
    ensures var r := GeneratePdf(c, timestamp);
      r.Success? ==>
        && OpinionBlocks(o)[0] in r.value
        && (o.text.Some? && o.text.value != "" ==> LegalText(CleanPdfText(o.text.value)) in r.value)
  {
    var r := GeneratePdf(c, timestamp);
    if r.Success? {
      var os := OpinionsOf(c);
      var rows := MetadataRows(c).value;
      var body := OpinionsBlocks(os);
      var head := [CaseTitle(c.name.GetOr("Unknown Case")), SectionHeader("Case Information")] + InfoBlocks(rows);
      var tail := CitedSection(c) + [Footer(timestamp)];
      assert OpinionsSection(os) == [SectionHeader("Opinions")] + body;
      assert r.value == head + ([SectionHeader("Opinions")] + body) + tail;
      OpinionBlocksIncluded(os, o);
      forall b | b in OpinionBlocks(o) ensures b in r.value {
        assert b in body;
      }
      assert OpinionBlocks(o)[0] in OpinionBlocks(o);
      if o.text.Some? && o.text.value != "" {
        assert OpinionBlocks(o)[1] in OpinionBlocks(o);
      }
    }
  }
}

=== FILE: quality_gates.dfy ===
/** The deployment gate: the evaluation results are checked against fixed
    thresholds, and the process exit code says whether the pipeline may go on.
    A results section is a map from metric name to number; a section that is
    absent or empty counts as not there, as Python truthiness has it. */
module QualityGates {
  import opened Wrappers
  import EvaluateRag

  type Section = map<string, real>

  /** The four metric sections of a results file. */
  datatype Results = Results(
    retrieval: Option<Section>,
    answerQuality: Option<Section>,
    performance: Option<Section>,
    cost: Option<Section>)

  /** `THRESHOLDS` */
  const MinPrecision: real := 0.70
  const MinCitationAccuracy: real := 0.90
  const MaxAvgLatency: real := 10.0
  const MaxP95Latency: real := 15.0
  const MaxCostPerQuery: real := 0.05

  /** `if results.get(section):` */
  predicate Present(s: Option<Section>) {
    s.Some? && s.value != map[]
  }

  /** `section.get(key, 0)` */
  function Get(s: Section, key: string): real {
    if key in s then s[key] else 0.0
  }

  /** One unmet threshold, with the measured value. */
  datatype GateFailure =
    | PrecisionBelow(precision: real)
    | CitationAccuracyBelow(accuracy: real)
    | AvgLatencyAbove(latency: real)
    | P95LatencyAbove(latency: real)
    | CostAbove(cost: real)

  function PrecisionGate(r: Results): seq<GateFailure> {
    if Present(r.retrieval) && Get(r.retrieval.value, "avg_precision@5") < MinPrecision
    then [PrecisionBelow(Get(r.retrieval.value, "avg_precision@5"))] else []
  }

  function CitationGate(r: Results): seq<GateFailure> {
    if Present(r.answerQuality) && Get(r.answerQuality.value, "avg_citation_accuracy") < MinCitationAccuracy
    then [CitationAccuracyBelow(Get(r.answerQuality.value, "avg_citation_accuracy"))] else []
  }

  /** The average latency is always checked; the P95 only when it is
      non-zero. */
  function LatencyGates(r: Results): seq<GateFailure> {
    if !Present(r.performance) then []
    else
      var avg := Get(r.performance.value, "avg_total_latency");
      var p95 := Get(r.performance.value, "p95_total_latency");
      (if avg > MaxAvgLatency then [AvgLatencyAbove(avg)] else [])
      + (if p95 != 0.0 && p95 > MaxP95Latency then [P95LatencyAbove(p95)] else [])
  }

  function CostGate(r: Results): seq<GateFailure> {
    if Present(r.cost) && Get(r.cost.value, "avg_cost_per_query") > MaxCostPerQuery
    then [CostAbove(Get(r.cost.value, "avg_cost_per_query"))] else []
  }

  /** The `failures` list of `check_quality_gates`, in the order the checks run. */
  function Failures(r: Results): (fs: seq<GateFailure>)
    ensures |fs| <= 5
  {
    PrecisionGate(r) + CitationGate(r) + LatencyGates(r) + CostGate(r)
  }

  /** Every recorded failure names a present section and a value on the
      wrong side of its threshold. */
  lemma FailuresJustified(r: Results)
    ensures forall f | f in Failures(r) :: match f
      case PrecisionBelow(v) => Present(r.retrieval) && v < MinPrecision
      case CitationAccuracyBelow(v) => Present(r.answerQuality) && v < MinCitationAccuracy
      case AvgLatencyAbove(v) => Present(r.performance) && v > MaxAvgLatency
      case P95LatencyAbove(v) => Present(r.performance) && v > MaxP95Latency
      case CostAbove(v) => Present(r.cost) && v > MaxCostPerQuery
  {
    var fs := Failures(r);
    assert forall f | f in fs :: f in PrecisionGate(r) || f in CitationGate(r) || f in LatencyGates(r) || f in CostGate(r);
  }

  /** Every present section meets its thresholds; recall and MRR have none. */
  predicate MeetsThresholds(r: Results) {
    && (Present(r.retrieval) ==> Get(r.retrieval.value, "avg_precision@5") >= MinPrecision)
    && (Present(r.answerQuality) ==> Get(r.answerQuality.value, "avg_citation_accuracy") >= MinCitationAccuracy)
    && (Present(r.performance) ==>
          && Get(r.performance.value, "avg_total_latency") <= MaxAvgLatency
          && Get(r.performance.value, "p95_total_latency") <= MaxP95Latency)
    && (Present(r.cost) ==> Get(r.cost.value, "avg_cost_per_query") <= MaxCostPerQuery)
  }

  /** No failure is recorded exactly when every present section meets its
      thresholds (a P95 of 0 is within 15 either way). */
  lemma NoFailuresIffThresholdsMet(r: Results)
    ensures Failures(r) == [] <==> MeetsThresholds(r)
  {
  }

  /** What reading the file gives: the parsed results, or one of the two
      errors the gate catches. */
  datatype Loaded = FileNotFound | InvalidJson | Parsed(results: Results)

  /** `check_quality_gates`: an unreadable file fails the gate; otherwise it
      passes when no threshold is missed. */
  function CheckQualityGates(l: Loaded): (passed: bool)
    ensures passed <==> l.Parsed? && MeetsThresholds(l.results)
  {
    NoFailuresIffThresholdsMet(if l.Parsed? then l.results else Results(None, None, None, None));
    match l
    case FileNotFound => false
    case InvalidJson => false
    case Parsed(r) => Failures(r) == []
  }

  /** Recall and MRR are informational: with the retrieval section present,
      changing them never changes the verdict. */
  lemma RecallAndMrrIgnored(r: Results, recall: real, mrr: real)
    requires Present(r.retrieval)
    ensures var s := r.retrieval.value["avg_recall@5" := recall]["avg_mrr" := mrr];
      CheckQualityGates(Parsed(r.(retrieval := Some(s)))) == CheckQualityGates(Parsed(r))
  {
    var s := r.retrieval.value["avg_recall@5" := recall]["avg_mrr" := mrr];
    assert "avg_recall@5" in s;
    assert Get(s, "avg_precision@5") == Get(r.retrieval.value, "avg_precision@5");
  }

  /** `main`: exit 1 on a wrong argument count (the program name counts as
      one), else 0 exactly when the gate passes. `load` reads and parses the
      named file. */
  function ExitCode(argv: seq<string>, load: string -> Loaded): (code: int)
    ensures code == 0 || code == 1
    ensures code == 0 <==> |argv| == 2 && CheckQualityGates(load(argv[1]))
  {
    if |argv| != 2 then 1
    else if CheckQualityGates(load(argv[1])) then 0 else 1
  }

  // ---------------------------------------------------------------- from the evaluation

  /** `{}` or the summary's figures, as the evaluation writes them. */
  function RetrievalSection(s: Option<EvaluateRag.RetrievalSummary>): Section {
    match s
    case None => map[]
    case Some(v) => map["avg_precision@5" := v.avgPrecision, "avg_recall@5" := v.avgRecall,
                        "avg_mrr" := v.avgMrr, "queries_with_ground_truth" := v.queriesWithGroundTruth as real]
  }

  function AnswerSection(s: Option<EvaluateRag.AnswerSummary>): Section {
    match s
    case None => map[]
    case Some(v) => map["avg_citation_accuracy" := v.avgCitationAccuracy,
                        "queries_with_citations" := v.queriesWithCitations as real]
  }

  function PerformanceSection(s: Option<EvaluateRag.PerformanceSummary>): Section {
    match s
    case None => map[]
    case Some(v) => map["avg_total_latency" := v.avgTotalLatency, "avg_embedding_time" := v.avgEmbeddingTime,
                        "avg_search_time" := v.avgSearchTime, "avg_llm_time" := v.avgLlmTime,
                        "p95_total_latency" := v.p95TotalLatency]
  }

  function CostSection(s: Option<EvaluateRag.CostSummary>): Section {
    match s
    case None => map[]
    case Some(v) => map["avg_cost_per_query" := v.avgCostPerQuery, "total_cost" := v.totalCost,
                        "avg_embedding_cost" := v.avgEmbeddingCost, "avg_llm_cost" := v.avgLlmCost]
  }

  /** The results file the evaluation saves: all four sections, each `{}`
      until filled. */
  function ResultsOf(rep: EvaluateRag.Report): (r: Results)
    ensures Present(r.retrieval) <==> rep.retrieval.Some?
    ensures Present(r.answerQuality) <==> rep.answerQuality.Some?
    ensures Present(r.performance) <==> rep.performance.Some?
    ensures Present(r.cost) <==> rep.cost.Some?
  {
    var r := Results(Some(RetrievalSection(rep.retrieval)), Some(AnswerSection(rep.answerQuality)),
                     Some(PerformanceSection(rep.performance)), Some(CostSection(rep.cost)));
    assert rep.retrieval.Some? ==> "avg_mrr" in r.retrieval.value;
    assert rep.answerQuality.Some? ==> "queries_with_citations" in r.answerQuality.value;
    assert rep.performance.Some? ==> "avg_llm_time" in r.performance.value;
    assert rep.cost.Some? ==> "total_cost" in r.cost.value;
    r
  }

  /** The gate as written approves a run in which every query raised: the
      evaluation then saves four empty sections, and no check runs. */
  lemma AllQueriesFailedIsApproved(rs: seq<EvaluateRag.QueryRecord>)
    requires forall k | 0 <= k < |rs| :: rs[k].QueryError?
    ensures EvaluateRag.Aggregate(rs) == Success(EvaluateRag.EmptyReport)
    ensures CheckQualityGates(Parsed(ResultsOf(EvaluateRag.EmptyReport)))
  {
    NoValid(rs);
  }

  lemma {:induction false} NoValid(rs: seq<EvaluateRag.QueryRecord>)
    requires forall k | 0 <= k < |rs| :: rs[k].QueryError?
    ensures EvaluateRag.Valid(rs) == []
    decreases |rs|
  {
    if rs != [] {
      NoValid(rs[1..]);
    }
  }

  /** The gate with the missing check: a results file without performance
      figures, which every evaluated query contributes to, means nothing was
      evaluated and fails. */
  function CheckQualityGatesStrict(l: Loaded): (passed: bool)
    ensures passed <==> CheckQualityGates(l) && Present(l.results.performance)
  {
    CheckQualityGates(l) && Present(l.results.performance)
  }

  /** The corrected gate blocks the run in which every query raised. */
  lemma AllQueriesFailedIsBlocked(rs: seq<EvaluateRag.QueryRecord>)
    requires forall k | 0 <= k < |rs| :: rs[k].QueryError?
    ensures EvaluateRag.Aggregate(rs).Success?
    ensures !CheckQualityGatesStrict(Parsed(ResultsOf(EvaluateRag.Aggregate(rs).value)))
  {
    NoValid(rs);
  }

  /** On the results of any evaluation with at least two evaluated queries
      the corrected gate agrees with the gate as written. */
  lemma StrictAgreesOnEvaluatedRuns(rs: seq<EvaluateRag.QueryRecord>)
    requires |EvaluateRag.Valid(rs)| >= 2
    ensures EvaluateRag.Aggregate(rs).Success?
    ensures var l := Parsed(ResultsOf(EvaluateRag.Aggregate(rs).value));
      CheckQualityGatesStrict(l) == CheckQualityGates(l)
  {
  }
}

=== FILE: query_rag.dfy ===
/** The query side: child matches from the vector index are resolved to their
    parents, one result per parent, and the parents' texts are assembled into
    the prompt for the language model. The embedding service, the index query
    and the language model are parameters. */
module QueryRag {
  import opened Wrappers
  import opened Whitespace
  import opened HierChunking
  import opened EmbedAndIndex

  /** `config.TOP_K_CHILDREN`: how many child matches a search asks for. */
  const TopKChildren: int := 5

  /** `top_k or config.TOP_K_CHILDREN`: a missing or zero `top_k` falls back
      to the configured default. */
  function EffectiveTopK(topK: Option<int>): (k: int)
    ensures k == TopKChildren <==> topK.None? || topK == Some(0) || topK == Some(TopKChildren)
    ensures topK.Some? && topK.value != 0 ==> k == topK.value
  {
    match topK
    case None => TopKChildren
    case Some(k) => if k == 0 then TopKChildren else k
  }

  /** One hit of the index query: the child vector's id, its similarity score
      and the metadata stored with it. */
  datatype Match = Match(id: string, score: real, metadata: VectorMeta)

  /** One search result: the match enriched with its parent's text. */
  datatype Context = Context(
    score: real,
    childText: string,
    parentText: string,
    caseId: int,
    caseName: string,
    decisionDate: string,
    court: string,
    citation: string,
    parentId: string,
    childId: string)

  /** `{p['id']: p for p in parents}`: a later record replaces an earlier one
      with the same id. */
  function BuildLookup(parents: seq<ParentRecord>): (m: map<string, ParentRecord>)
    ensures forall id | id in m :: m[id].id == id
    ensures forall i | 0 <= i < |parents| :: parents[i].id in m
    ensures forall id | id in m :: exists i | 0 <= i < |parents| :: parents[i] == m[id]
    decreases |parents|
  {
    if parents == [] then map[]
    else
      var init := parents[..|parents| - 1];
      var last := parents[|parents| - 1];
      var m := BuildLookup(init);
      var r := m[last.id := last];
      assert forall i | 0 <= i < |init| :: parents[i] == init[i];
      r
  }

  /** `ps[i]` is the last record in `ps` with this id. */
  predicate LastWith(ps: seq<ParentRecord>, id: string, i: int) {
    && 0 <= i < |ps| && ps[i].id == id
    && forall j | i < j < |ps| :: ps[j].id != id
  }

  /** When ids repeat, the lookup holds the last record with that id. */
  lemma {:induction false} BuildLookupLastWins(ps: seq<ParentRecord>, id: string, i: int)
    requires LastWith(ps, id, i)
    ensures id in BuildLookup(ps) && BuildLookup(ps)[id] == ps[i]
    decreases |ps|
  {
    var init := ps[..|ps| - 1];
    if i < |ps| - 1 {
      assert LastWith(init, id, i) by {
        forall j | i < j < |init| ensures init[j].id != id {
          assert init[j] == ps[j];
        }
      }
      BuildLookupLastWins(init, id, i);
    }
  }

  /** The result built from a match and the parent it names. */
  function Enrich(m: Match, parent: ParentRecord): Context {
    Context(
      score := m.score,
      childText := m.metadata.text,
      parentText := parent.text,
      caseId := parent.metadata.caseId,
      caseName := m.metadata.caseName,
      decisionDate := m.metadata.decisionDate,
      court := m.metadata.court,
      citation := m.metadata.citation,
      parentId := m.metadata.parentId,
      childId := m.id)
  }

  /** The positions, from `from` on, of the matches the loop of `search` keeps:
      those whose parent is known and not yet seen. */
  function Kept(matches: seq<Match>, lookup: map<string, ParentRecord>, seen: set<string>, from: nat)
    : (ks: seq<nat>)
    requires from <= |matches|
    ensures forall a | 0 <= a < |ks| :: from <= ks[a] < |matches|
    ensures forall a, b | 0 <= a < b < |ks| :: ks[a] < ks[b]
    ensures forall a | 0 <= a < |ks| ::
      matches[ks[a]].metadata.parentId in lookup && matches[ks[a]].metadata.parentId !in seen
    decreases |matches| - from
  {
    if from == |matches| then []
    else
      var pid := matches[from].metadata.parentId;
      if pid !in lookup || pid in seen then Kept(matches, lookup, seen, from + 1)
      else [from] + Kept(matches, lookup, seen + {pid}, from + 1)
  }

  function ParentOf(m: Match): string {
    m.metadata.parentId
  }

  /** The loop of `search` over the matches, in order: a match whose parent
      is unknown is skipped, and so is a match whose parent was already
      returned. */
  function Resolve(matches: seq<Match>, lookup: map<string, ParentRecord>): (rs: seq<Context>)
    ensures |rs| <= |matches|
    ensures forall a | 0 <= a < |rs| :: rs[a].parentId in lookup
  {
    var ks := Kept(matches, lookup, {}, 0);
    KeptCount(matches, lookup, {}, 0);
    seq(|ks|, a requires 0 <= a < |ks| =>
      var m := matches[ks[a]];
      Enrich(m, lookup[ParentOf(m)]))
  }

  lemma {:induction false} KeptCount(matches: seq<Match>, lookup: map<string, ParentRecord>, seen: set<string>, from: nat)
    requires from <= |matches|
    ensures |Kept(matches, lookup, seen, from)| <= |matches| - from
    decreases |matches| - from
  {
    if from < |matches| {
      var pid := ParentOf(matches[from]);
      KeptCount(matches, lookup, seen, from + 1);
      KeptCount(matches, lookup, seen + {pid}, from + 1);
    }
  }

  /** Each kept match names a known, unseen parent, and is the first match
      from `from` on to name it. */
  lemma {:induction false} KeptFirst(matches: seq<Match>, lookup: map<string, ParentRecord>, seen: set<string>,
                                     from: nat, a: nat)
    requires from <= |matches|
    requires a < |Kept(matches, lookup, seen, from)|
    ensures var j := Kept(matches, lookup, seen, from)[a];
      && ParentOf(matches[j]) in lookup && ParentOf(matches[j]) !in seen
      && forall i | from <= i < j :: ParentOf(matches[i]) != ParentOf(matches[j])
    decreases |matches| - from
  {
    var pid := ParentOf(matches[from]);
    if pid !in lookup || pid in seen {
      KeptFirst(matches, lookup, seen, from + 1, a);
    } else if a > 0 {
      KeptFirst(matches, lookup, seen + {pid}, from + 1, a - 1);
    }
  }

  /** Every match with a known, unseen parent has that parent kept. */
  lemma {:induction false} KeptComplete(matches: seq<Match>, lookup: map<string, ParentRecord>, seen: set<string>,
                                        from: nat, i: nat)
    requires from <= i < |matches|
    requires ParentOf(matches[i]) in lookup && ParentOf(matches[i]) !in seen
    ensures exists a | 0 <= a < |Kept(matches, lookup, seen, from)| ::
      ParentOf(matches[Kept(matches, lookup, seen, from)[a]]) == ParentOf(matches[i])
    decreases |matches| - from
  {
    var pid := ParentOf(matches[from]);
    var ks := Kept(matches, lookup, seen, from);
    if pid !in lookup || pid in seen {
      KeptComplete(matches, lookup, seen, from + 1, i);
    } else if pid != ParentOf(matches[i]) {
      KeptComplete(matches, lookup, seen + {pid}, from + 1, i);
      var rest := Kept(matches, lookup, seen + {pid}, from + 1);
      var a :| 0 <= a < |rest| && ParentOf(matches[rest[a]]) == ParentOf(matches[i]);
      assert ks[a + 1] == rest[a];
    } else {
      assert ks[0] == from;
    }
  }

  /** No two kept matches name the same parent. */
  lemma KeptDistinct(matches: seq<Match>, lookup: map<string, ParentRecord>, seen: set<string>,
                                        from: nat, a: nat, b: nat)
    requires from <= |matches|
    requires a < b < |Kept(matches, lookup, seen, from)|
    ensures ParentOf(matches[Kept(matches, lookup, seen, from)[a]])
         != ParentOf(matches[Kept(matches, lookup, seen, from)[b]])
  {
    var ks := Kept(matches, lookup, seen, from);
    KeptFirst(matches, lookup, seen, from, b);
  }

  /** `search` never returns two results for the same parent. */
  lemma ResolveDistinctParents(matches: seq<Match>, lookup: map<string, ParentRecord>)
    ensures var rs := Resolve(matches, lookup);
      forall a, b | 0 <= a < b < |rs| :: rs[a].parentId != rs[b].parentId
  {
    var rs := Resolve(matches, lookup);
    forall a, b | 0 <= a < b < |rs| ensures rs[a].parentId != rs[b].parentId {
      KeptDistinct(matches, lookup, {}, 0, a, b);
    }
  }

  /** Each result comes from the first match naming its parent, in match
      order; its parent is known and supplies the parent text and case id;
      its child id, child text and case name, date, court and citation are
      the match's. */
  lemma ResolveFirstMatches(matches: seq<Match>, lookup: map<string, ParentRecord>)
    ensures var rs := Resolve(matches, lookup);
      var ks := Kept(matches, lookup, {}, 0);
      && |rs| == |ks|
      && (forall a, b | 0 <= a < b < |ks| :: ks[a] < ks[b])
      && forall a | 0 <= a < |rs| ::
           var m := matches[ks[a]];
           && rs[a].parentId == ParentOf(m) && rs[a].parentId in lookup
           && rs[a].childId == m.id && rs[a].score == m.score
           && rs[a].parentText == lookup[rs[a].parentId].text
           && rs[a].caseId == lookup[rs[a].parentId].metadata.caseId
           && rs[a].childText == m.metadata.text
           && rs[a].caseName == m.metadata.caseName
           && rs[a].decisionDate == m.metadata.decisionDate
           && rs[a].court == m.metadata.court
           && rs[a].citation == m.metadata.citation
           && forall i | 0 <= i < ks[a] :: ParentOf(matches[i]) != rs[a].parentId
  {
    var rs := Resolve(matches, lookup);
    var ks := Kept(matches, lookup, {}, 0);
    forall a | 0 <= a < |rs|
      ensures forall i | 0 <= i < ks[a] :: ParentOf(matches[i]) != rs[a].parentId
    {
      KeptFirst(matches, lookup, {}, 0, a);
    }
  }

  /** Every match whose parent is known has its parent among the results,
      and every result's parent is known. */
  lemma ResolveCoversKnownParents(matches: seq<Match>, lookup: map<string, ParentRecord>)
    ensures var rs := Resolve(matches, lookup);
      && (forall a | 0 <= a < |rs| :: rs[a].parentId in lookup)
      && forall i | 0 <= i < |matches| && ParentOf(matches[i]) in lookup ::
           exists a | 0 <= a < |rs| :: rs[a].parentId == ParentOf(matches[i])
  {
    var rs := Resolve(matches, lookup);
    var ks := Kept(matches, lookup, {}, 0);
    forall i | 0 <= i < |matches| && ParentOf(matches[i]) in lookup
      ensures exists a | 0 <= a < |rs| :: rs[a].parentId == ParentOf(matches[i])
    {
      KeptComplete(matches, lookup, {}, 0, i);
      var a :| 0 <= a < |ks| && ParentOf(matches[ks[a]]) == ParentOf(matches[i]);
      assert rs[a].parentId == ParentOf(matches[i]);
    }
  }

  /** Matches come back by descending score; then each result carries the
      best score of all the matches of its parent. */
  predicate Descending(matches: seq<Match>) {
    forall i, j | 0 <= i < j < |matches| :: matches[i].score >= matches[j].score
  }

  lemma ResolveKeepsBestScore(matches: seq<Match>, lookup: map<string, ParentRecord>)
    requires Descending(matches)
    ensures var rs := Resolve(matches, lookup);
      forall a, i | 0 <= a < |rs| && 0 <= i < |matches| && ParentOf(matches[i]) == rs[a].parentId ::
        matches[i].score <= rs[a].score
  {
    var rs := Resolve(matches, lookup);
    var ks := Kept(matches, lookup, {}, 0);
    forall a, i | 0 <= a < |rs| && 0 <= i < |matches| && ParentOf(matches[i]) == rs[a].parentId
      ensures matches[i].score <= rs[a].score
    {
      KeptFirst(matches, lookup, {}, 0, a);
      assert ks[a] <= i;
    }
  }

  /** An index that returns at most `top_k` matches for every request. */
  ghost predicate IndexHonoursTopK(queryIndex: (Embedding, int) -> seq<Match>) {
    forall e, k | k >= 0 :: |queryIndex(e, k)| <= k
  }

  /** `search`: embed the query, ask the index for `top_k` matches, resolve
      them to parents. */
  function Search(query: string, topK: Option<int>, embed: string -> Embedding,
                  queryIndex: (Embedding, int) -> seq<Match>, lookup: map<string, ParentRecord>): (rs: seq<Context>)
    ensures |rs| <= |queryIndex(embed(query), EffectiveTopK(topK))|
    ensures IndexHonoursTopK(queryIndex) && EffectiveTopK(topK) >= 0 ==> |rs| <= EffectiveTopK(topK)
    ensures forall a | 0 <= a < |rs| :: rs[a].parentId in lookup
  {
    Resolve(queryIndex(embed(query), EffectiveTopK(topK)), lookup)
  }

  // ---------------------------------------------------------------- answer

  /** The answer record returned by `generate_answer` and `query`. */
  datatype Answer = Answer(query: string, answer: string, sources: seq<Context>, numSources: nat)

  /** The block describing one context in the prompt. */
  function Block(ctx: Context): string {
    "Case: " + ctx.caseName + " (" + ctx.citation + ")\n"
    + "Date: " + ctx.decisionDate + "\n"
    + "Court: " + ctx.court + "\n\n"
    + ctx.parentText
  }

  const Separator := "\n\n---\n\n"

  /** The blocks of the contexts, joined by the separator. */
  function ContextString(contexts: seq<Context>): string {
    JoinWith(seq(|contexts|, i requires 0 <= i < |contexts| => Block(contexts[i])), Separator)
  }

  const PromptHead := "You are a legal research assistant. Answer the following question based ONLY on the provided legal cases.\n\nQuestion: "

  const PromptTail := "\n\nInstructions:\n- Provide a clear, accurate answer based on the cases above\n- Cite specific cases when making legal points (use case name and citation)\n- If the cases don't contain enough information to answer, say so\n- Be precise and use legal terminology appropriately\n\nAnswer:"

  function Prompt(query: string, contexts: seq<Context>): string {
    Frame(PromptHead, query, ContextString(contexts), PromptTail)
  }

  /** The prompt around its two variable parts. */
  function Frame(head: string, query: string, cases: string, tail: string): string {
    head + query + "\n\nLegal Cases:\n" + cases + tail
  }

  /** `generate_answer`: the model answers the prompt; the contexts are
      returned unchanged as the sources. */
  function GenerateAnswer(query: string, contexts: seq<Context>, llm: string -> string): (r: Answer)
    ensures r.query == query && r.sources == contexts && r.numSources == |contexts|
    ensures r.answer == llm(Prompt(query, contexts))
  {
    Answer(query, llm(Prompt(query, contexts)), contexts, |contexts|)
  }

  /** x occurs in s at position i. */
  predicate OccursAt(x: string, s: string, i: nat) {
    i + |x| <= |s| && s[i..i + |x|] == x
  }

  predicate Occurs(x: string, s: string) {
    exists i | 0 <= i <= |s| :: OccursAt(x, s, i)
  }

  lemma OccursWithin(x: string, s: string, i: nat, a: string, b: string)
    requires OccursAt(x, s, i)
    ensures OccursAt(x, a + s + b, |a| + i)
  {
    var t := a + s + b;
    assert t[|a| + i .. |a| + i + |x|] == s[i .. i + |x|];
  }

  /** Every part of a joined list occurs in the joined text. */
  lemma {:induction false} OccursInJoin(parts: seq<string>, sep: string, k: nat)
    requires k < |parts|
    ensures Occurs(parts[k], JoinWith(parts, sep))
    decreases k
  {
    var j := JoinWith(parts, sep);
    if |parts| == 1 {
      assert OccursAt(parts[0], j, 0);
    } else if k == 0 {
      assert j == parts[0] + (sep + JoinWith(parts[1..], sep));
      assert OccursAt(parts[0], j, 0);
    } else {
      var rest := JoinWith(parts[1..], sep);
      OccursInJoin(parts[1..], sep, k - 1);
      assert parts[1..][k - 1] == parts[k];
      var i :| 0 <= i <= |rest| && OccursAt(parts[k], rest, i);
      OccursWithin(parts[k], rest, i, parts[0] + sep, "");
      assert (parts[0] + sep) + rest + "" == j;
    }
  }

  /** The prompt carries the question and the full parent text of every
      context: nothing retrieved is cut from it. */
  lemma PromptCarriesContexts(query: string, contexts: seq<Context>)
    ensures OccursAt(query, Prompt(query, contexts), |PromptHead|)
    ensures forall k | 0 <= k < |contexts| :: Occurs(contexts[k].parentText, Prompt(query, contexts))
  {
    FrameCarriesQuery(PromptHead, query, ContextString(contexts), PromptTail);
    forall k | 0 <= k < |contexts| ensures Occurs(contexts[k].parentText, Prompt(query, contexts)) {
      var i := ContextInCases(contexts, k);
      FrameCarriesCases(PromptHead, query, ContextString(contexts), PromptTail, contexts[k].parentText, i);
    }
  }

  lemma FrameCarriesQuery(head: string, query: string, cases: string, tail: string)
    ensures OccursAt(query, Frame(head, query, cases, tail), |head|)
  {
    assert OccursAt(query, query, 0);
    OccursWithin(query, query, 0, head, "\n\nLegal Cases:\n" + cases + tail);
    assert head + query + ("\n\nLegal Cases:\n" + cases + tail) == Frame(head, query, cases, tail);
  }

  lemma FrameCarriesCases(head: string, query: string, cases: string, tail: string, x: string, i: nat)
    requires OccursAt(x, cases, i)
    ensures Occurs(x, Frame(head, query, cases, tail))
  {
    var pre := head + query + "\n\nLegal Cases:\n";
    OccursWithin(x, cases, i, pre, tail);
    assert pre + cases + tail == Frame(head, query, cases, tail);
  }

  /** Where context k's parent text stands in the joined contexts. */
  lemma ContextInCases(contexts: seq<Context>, k: nat) returns (i: nat)
    requires k < |contexts|
    ensures OccursAt(contexts[k].parentText, ContextString(contexts), i)
  {
    var blocks := seq(|contexts|, i requires 0 <= i < |contexts| => Block(contexts[i]));
    var cs := ContextString(contexts);
    var ctx := contexts[k];
    var head := "Case: " + ctx.caseName + " (" + ctx.citation + ")\n"
      + "Date: " + ctx.decisionDate + "\n" + "Court: " + ctx.court + "\n\n";
    assert OccursAt(ctx.parentText, ctx.parentText, 0);
    OccursWithin(ctx.parentText, ctx.parentText, 0, head, "");
    assert head + ctx.parentText + "" == blocks[k];
    OccursInJoin(blocks, Separator, k);
    var j :| 0 <= j <= |cs| && OccursAt(blocks[k], cs, j);
    OccursAt2(ctx.parentText, blocks[k], |head|, cs, j);
    i := j + |head|;
  }

  /** Occurrence is transitive. */
  lemma OccursAt2(x: string, y: string, i: nat, s: string, j: nat)
    requires OccursAt(x, y, i) && OccursAt(y, s, j)
    ensures OccursAt(x, s, j + i)
  {
    forall t | 0 <= t < |x| ensures s[j + i + t] == x[t] {
      assert s[j + i + t] == s[j .. j + |y|][i + t] == y[i + t] == y[i .. i + |x|][t];
    }
  }

  /** The fixed reply `query` gives when the search finds nothing. */
  const NothingFound := "I couldn't find any relevant legal cases to answer this question."

  /** `query`: search, then answer; with no search results the model is not
      asked and the fixed reply comes back with no sources. */
  function Query(question: string, topK: Option<int>, embed: string -> Embedding,
                 queryIndex: (Embedding, int) -> seq<Match>, lookup: map<string, ParentRecord>,
                 llm: string -> string): (r: Answer)
    ensures var rs := Search(question, topK, embed, queryIndex, lookup);
      && r.query == question
      && (rs == [] ==> r == Answer(question, NothingFound, [], 0))
      && (rs != [] ==> r == GenerateAnswer(question, rs, llm))
      && r.numSources == |r.sources|
  {
    var rs := Search(question, topK, embed, queryIndex, lookup);
    if rs == [] then Answer(question, NothingFound, [], 0)
    else GenerateAnswer(question, rs, llm)
  }
}

=== FILE: re_split.dfy ===
/** `re.split(pattern, text)` for the three patterns the paragraph splitter uses.
    Matches are searched left to right and do not overlap; the text between
    them is returned, including empty pieces. `\s` is Python's whitespace. */
module ReSplit {
  import opened Whitespace

  datatype Pattern =
    | BlankLine      // r'\n\s*\n'
    | LineBreak      // r'\n'
    | AfterSentence  // r'(?<=[.!?])\s+'

  predicate IsSentenceEnd(c: char) {
    c == '.' || c == '!' || c == '?'
  }

  /** Every character of s in [lo, hi) is whitespace. */
  predicate SpaceBetween(s: string, lo: nat, hi: nat)
    requires lo <= hi <= |s|
  {
    forall q | lo <= q < hi :: IsSpace(s[q])
  }

  /** Length of the whitespace run of s that starts at position i. */
  function SpaceRunAt(s: string, i: nat): (n: nat)
    requires i <= |s|
    ensures i + n <= |s| && SpaceBetween(s, i, i + n)
    ensures i + n < |s| ==> !IsSpace(s[i + n])
    decreases |s| - i
  {
    if i < |s| && IsSpace(s[i]) then 1 + SpaceRunAt(s, i + 1) else 0
  }

  /** Position of the last newline of s in [lo, hi), or -1 when there is none. */
  function LastNewlineIn(s: string, lo: nat, hi: nat): (k: int)
    requires lo <= hi <= |s|
    ensures k == -1 || (lo <= k < hi && s[k] == '\n')
    ensures forall q | lo <= q < hi && k < q :: s[q] != '\n'
    decreases hi - lo
  {
    if hi == lo then -1
    else if s[hi - 1] == '\n' then hi - 1
    else LastNewlineIn(s, lo, hi - 1)
  }

  /** Length of the match of p that starts at position i of s, 0 when there is
      none (no pattern here matches the empty string). */
  function MatchLen(p: Pattern, s: string, i: nat): (n: nat)
    requires i <= |s|
    ensures i + n <= |s|
  {
    if i == |s| then 0
    else match p
      case LineBreak => if s[i] == '\n' then 1 else 0
      case BlankLine => BlankLineLen(s, i)
      case AfterSentence => AfterSentenceLen(s, i)
  }

  /** `\n\s*\n` at i: the greedy `\s*` gives back characters until a newline
      follows, so the match ends at the last newline of the whitespace run. */
  function BlankLineLen(s: string, i: nat): (n: nat)
    requires i < |s|
    ensures i + n <= |s|
  {
    if s[i] != '\n' then 0
    else
      var k := LastNewlineIn(s, i + 1, i + 1 + SpaceRunAt(s, i + 1));
      if k < 0 then 0 else k + 1 - i
  }

  /** `(?<=[.!?])\s+` at i: a whitespace run right after a sentence stop. */
  function AfterSentenceLen(s: string, i: nat): (n: nat)
    requires i < |s|
    ensures i + n <= |s|
  {
    if i > 0 && IsSentenceEnd(s[i - 1]) then SpaceRunAt(s, i) else 0
  }

  /** Every match consists of whitespace only. */
  lemma MatchIsSpace(p: Pattern, s: string, i: nat)
    requires i <= |s|
    ensures SpaceBetween(s, i, i + MatchLen(p, s, i))
  {
    if i < |s| && p == BlankLine && s[i] == '\n' {
      var m := SpaceRunAt(s, i + 1);
      var k := LastNewlineIn(s, i + 1, i + 1 + m);
      if k >= 0 {
        assert SpaceBetween(s, i + 1, i + 1 + m);
        assert IsSpace(s[i]);
      }
    }
  }

  /** `re.split(p, s)` */
  function Split(p: Pattern, s: string): (pieces: seq<string>)
    ensures |pieces| >= 1
  {
    SplitFrom(p, s, 0, 0)
  }

  /** The pieces of s from `start` on, where no match begins in [start, i). */
  function SplitFrom(p: Pattern, s: string, start: nat, i: nat): (pieces: seq<string>)
    requires start <= i <= |s|
    ensures |pieces| >= 1
    decreases |s| - i
  {
    if i == |s| then [s[start..]]
    else
      var n := MatchLen(p, s, i);
      if n == 0 then SplitFrom(p, s, start, i + 1)
      else [s[start..i]] + SplitFrom(p, s, i + n, i + n)
  }

  /** Neither newline pattern splits a text without newlines. */
  lemma NoNewlineNoSplit(p: Pattern, s: string)
    requires p == BlankLine || p == LineBreak
    requires '\n' !in s
    ensures Split(p, s) == [s]
  {
    NoNewlineNoSplitFrom(p, s, 0);
  }

  lemma {:induction false} NoNewlineNoSplitFrom(p: Pattern, s: string, i: nat)
    requires p == BlankLine || p == LineBreak
    requires '\n' !in s && i <= |s|
    ensures SplitFrom(p, s, 0, i) == [s]
    decreases |s| - i
  {
    if i < |s| {
      assert s[i] in s;
      assert MatchLen(p, s, i) == 0;
      NoNewlineNoSplitFrom(p, s, i + 1);
    }
  }

  /** Splitting on newlines and joining with newlines gives back the text,
      and no piece contains a newline. */
  lemma LineBreakRoundTrip(s: string)
    ensures JoinWith(Split(LineBreak, s), "\n") == s
    ensures forall k | 0 <= k < |Split(LineBreak, s)| :: '\n' !in Split(LineBreak, s)[k]
  {
    LineBreakRoundTripFrom(s, 0, 0);
  }

  lemma {:induction false} LineBreakRoundTripFrom(s: string, start: nat, i: nat)
    requires start <= i <= |s| && '\n' !in s[start..i]
    ensures JoinWith(SplitFrom(LineBreak, s, start, i), "\n") == s[start..]
    ensures forall k | 0 <= k < |SplitFrom(LineBreak, s, start, i)| ::
      '\n' !in SplitFrom(LineBreak, s, start, i)[k]
    decreases |s| - i
  {
    if i < |s| {
      if s[i] == '\n' {
        var rest := SplitFrom(LineBreak, s, i + 1, i + 1);
        assert s[i + 1..i + 1] == [];
        LineBreakRoundTripFrom(s, i + 1, i + 1);
        var pieces := [s[start..i]] + rest;
        assert SplitFrom(LineBreak, s, start, i) == pieces;
        JoinCons(s[start..i], rest, "\n");
        assert s[start..] == s[start..i] + "\n" + s[i + 1..];
        forall k | 0 <= k < |pieces| ensures '\n' !in pieces[k] {
          if k > 0 { assert pieces[k] == rest[k - 1]; }
        }
      } else {
        assert s[start..i + 1] == s[start..i] + [s[i]];
        LineBreakRoundTripFrom(s, start, i + 1);
      }
    } else {
      assert s[start..] == s[start..i];
    }
  }

  /** In a single-spaced text every whitespace run is one plain space. */
  lemma SingleSpacedRun(s: string, i: nat)
    requires SingleSpaced(s) && i < |s| && IsSpace(s[i])
    ensures SpaceRunAt(s, i) == 1 && s[i] == ' '
  {
    if i + 1 < |s| {
      var j := i + 1;
      assert !IsSpace(s[j]);
    }
  }

  /** On a single-spaced text, sentence splitting loses nothing: joining the
      sentences with single spaces gives back the text. */
  lemma SentenceRoundTrip(s: string)
    requires SingleSpaced(s)
    ensures JoinWith(Split(AfterSentence, s), " ") == s
  {
    SentenceRoundTripFrom(s, 0, 0);
  }

  lemma {:induction false} SentenceRoundTripFrom(s: string, start: nat, i: nat)
    requires SingleSpaced(s) && start <= i <= |s|
    ensures JoinWith(SplitFrom(AfterSentence, s, start, i), " ") == s[start..]
    decreases |s| - i
  {
    if i == |s| {
      assert s[start..] == s[start..i];
    } else if MatchLen(AfterSentence, s, i) == 0 {
      SentenceRoundTripFrom(s, start, i + 1);
    } else {
      SentenceBreak(s, start, i);
      SentenceRoundTripFrom(s, i + 1, i + 1);
      JoinCons(s[start..i], SplitFrom(AfterSentence, s, i + 1, i + 1), " ");
    }
  }

  /** One sentence break of a single-spaced text: a single space is consumed. */
  lemma SentenceBreak(s: string, start: nat, i: nat)
    requires SingleSpaced(s) && start <= i < |s| && MatchLen(AfterSentence, s, i) > 0
    ensures MatchLen(AfterSentence, s, i) == 1 && i + 1 <= |s|
    ensures SplitFrom(AfterSentence, s, start, i)
      == [s[start..i]] + SplitFrom(AfterSentence, s, i + 1, i + 1)
    ensures s[start..] == s[start..i] + " " + s[i + 1..]
  {
    assert MatchLen(AfterSentence, s, i) == SpaceRunAt(s, i);
    assert IsSpace(s[i]);
    SingleSpacedRun(s, i);
  }

  /** Every piece but the last is non-empty and ends with '.', '!' or '?'. */
  predicate StopsBeforeLast(ps: seq<string>) {
    forall k | 0 <= k < |ps| - 1 :: ps[k] != [] && IsSentenceEnd(ps[k][|ps[k]| - 1])
  }

  lemma SentencesEndWithStop(s: string)
    ensures StopsBeforeLast(Split(AfterSentence, s))
  {
    SentencesEndWithStopFrom(s, 0, 0);
  }

  lemma {:induction false} SentencesEndWithStopFrom(s: string, start: nat, i: nat)
    requires start <= i <= |s|
    requires start == 0 || !IsSentenceEnd(s[start - 1])
    ensures StopsBeforeLast(SplitFrom(AfterSentence, s, start, i))
    decreases |s| - i
  {
    if i < |s| {
      var n := MatchLen(AfterSentence, s, i);
      if n == 0 {
        SentencesEndWithStopFrom(s, start, i + 1);
      } else {
        SentenceEnds(s, start, i);
        SentencesEndWithStopFrom(s, i + n, i + n);
        StopsCons(s[start..i], SplitFrom(AfterSentence, s, i + n, i + n));
      }
    }
  }

  /** A sentence break at i closes a non-empty sentence ending in a stop, and
      the next sentence does not begin right after a stop. */
  lemma SentenceEnds(s: string, start: nat, i: nat)
    requires start <= i < |s| && (start == 0 || !IsSentenceEnd(s[start - 1]))
    requires MatchLen(AfterSentence, s, i) > 0
    ensures var e := i + MatchLen(AfterSentence, s, i);
      && s[start..i] != [] && IsSentenceEnd(s[start..i][|s[start..i]| - 1])
      && !IsSentenceEnd(s[e - 1])
      && SplitFrom(AfterSentence, s, start, i) == [s[start..i]] + SplitFrom(AfterSentence, s, e, e)
  {
    var n := MatchLen(AfterSentence, s, i);
    assert n == SpaceRunAt(s, i);
    assert i > 0 && IsSentenceEnd(s[i - 1]);
    assert IsSpace(s[i + n - 1]);
    var a := s[start..i];
    assert a[|a| - 1] == s[i - 1];
  }

  lemma StopsCons(a: string, rest: seq<string>)
    requires a != [] && IsSentenceEnd(a[|a| - 1]) && StopsBeforeLast(rest)
    ensures StopsBeforeLast([a] + rest)
  {
    var ps := [a] + rest;
    forall k | 0 < k < |ps| - 1
      ensures ps[k] != [] && IsSentenceEnd(ps[k][|ps[k]| - 1])
    {
      assert ps[k] == rest[k - 1];
    }
  }

  /** On a normalized non-empty text every sentence is trimmed: non-empty,
      with no whitespace at either end. */
  lemma SentencesTrimmed(s: string)
    requires Normalized(s) && s != []
    ensures AllTrimmed(Split(AfterSentence, s))
  {
    SentencesTrimmedFrom(s, 0, 0);
  }

  lemma {:induction false} SentencesTrimmedFrom(s: string, start: nat, i: nat)
    requires Normalized(s) && s != [] && start <= i <= |s|
    requires start == 0 || IsSpace(s[start - 1])
    ensures AllTrimmed(SplitFrom(AfterSentence, s, start, i))
    decreases |s| - i
  {
    if i == |s| {
      LastSentenceTrimmed(s, start);
    } else if MatchLen(AfterSentence, s, i) == 0 {
      SentencesTrimmedFrom(s, start, i + 1);
    } else {
      SentenceTrimmed(s, start, i);
      SentencesTrimmedFrom(s, i + 1, i + 1);
      TrimmedCons(s[start..i], SplitFrom(AfterSentence, s, i + 1, i + 1));
    }
  }

  lemma LastSentenceTrimmed(s: string, start: nat)
    requires Normalized(s) && s != [] && start <= |s|
    requires start == 0 || IsSpace(s[start - 1])
    ensures start < |s| && Trimmed(s[start..])
  {
    if start > 0 {
      var a, b := start - 1, |s| - 1;
      assert a != b;
    }
    PieceTrimmed(s, start, |s|);
    assert s[start..] == s[start..|s|];
  }

  lemma SentenceTrimmed(s: string, start: nat, i: nat)
    requires Normalized(s) && start <= i < |s|
    requires start == 0 || IsSpace(s[start - 1])
    requires MatchLen(AfterSentence, s, i) > 0
    ensures Trimmed(s[start..i]) && IsSpace(s[i])
    ensures SplitFrom(AfterSentence, s, start, i)
      == [s[start..i]] + SplitFrom(AfterSentence, s, i + 1, i + 1)
  {
    SentenceBreak(s, start, i);
    assert AfterSentenceLen(s, i) > 0;
    assert i > 0 && IsSentenceEnd(s[i - 1]);
    PieceTrimmed(s, start, i);
  }

  lemma PieceTrimmed(s: string, start: nat, e: nat)
    requires Normalized(s) && start < e <= |s|
    requires start == 0 || IsSpace(s[start - 1])
    requires !IsSpace(s[e - 1])
    ensures Trimmed(s[start..e])
  {
    if start > 0 {
      var a, b := start - 1, start;
      assert !(IsSpace(s[a]) && IsSpace(s[b]));
    }
    assert s[start..e][0] == s[start];
    assert s[start..e][e - start - 1] == s[e - 1];
  }

  lemma TrimmedCons(a: string, rest: seq<string>)
    requires Trimmed(a) && AllTrimmed(rest)
    ensures AllTrimmed([a] + rest)
  {
    var ps := [a] + rest;
    forall k | 0 < k < |ps| ensures Trimmed(ps[k]) {
      assert ps[k] == rest[k - 1];
    }
  }
}

=== FILE: slices.dfy ===
/** Python slice semantics on sequences: `s[:k]` and `s[k:]` for any integer k,
    where a negative bound counts from the end and an out-of-range bound is clamped. */
module Slices {

  /** Where the slice bound k lands in a sequence of length n. */
  function Bound(n: nat, k: int): (b: nat)
    ensures b <= n
    ensures 0 <= k <= n ==> b == k
    ensures k > n ==> b == n
    ensures k < 0 ==> b == if n + k < 0 then 0 else n + k
  {
    if k < 0 then (if n + k < 0 then 0 else n + k) else if k > n then n else k
  }

  /** `s[:k]` */
  function PyTake<T>(s: seq<T>, k: int): (r: seq<T>)
    ensures r <= s
    ensures |r| == Bound(|s|, k)
  {
    s[..Bound(|s|, k)]
  }

  /** `s[k:]` */
  function PyDrop<T>(s: seq<T>, k: int): (r: seq<T>)
    ensures |r| == |s| - Bound(|s|, k)
    ensures r == s[|s| - |r|..]
  {
    s[Bound(|s|, k)..]
  }

  /** `s[-0:]` is all of s, not an empty tail: the bound -0 is the bound 0. */
  lemma NegativeZeroKeepsAll<T>(s: seq<T>)
    ensures PyDrop(s, -0) == s
  {
  }

  /** `s[-k:]` for 0 < k is the last min(k, |s|) elements. */
  lemma LastK<T>(s: seq<T>, k: nat)
    requires 0 < k
    ensures |PyDrop(s, -(k as int))| == if k < |s| then k else |s|
  {
  }
}

=== FILE: split_join.dfy ===
/** `' '.join(s.split())` and `re.sub(r'\s+', ' ', s).strip()` are two spellings of
    the same normalization; the PDF renderer uses the first, the chunkers the second. */
module SplitJoin {
  import opened Whitespace

  lemma TrimLeftNoLeadingSpace(s: string)
    requires s == [] || !IsSpace(s[0])
    ensures TrimLeft(s) == s
  {
  }

  lemma StripDropsLeadingSpace(x: string)
    ensures Strip(" " + x) == Strip(x)
  {
    assert (" " + x)[1..] == x;
  }

  /** Characters other than whitespace pass through collapsing unchanged. */
  lemma {:induction false} CollapseNoSpacePrefix(w: string, u: string)
    requires NoSpace(w)
    ensures Collapse(w + u) == w + Collapse(u)
    decreases |w|
  {
    if w == [] {
      assert w + u == u;
    } else {
      var w1 := w[1..];
      var cx := Collapse(w + u);
      var c1 := Collapse(w1 + u);
      assert cx == [w[0]] + c1 by { CollapseWordChar(w, u); }
      assert c1 == w1 + Collapse(u) by { CollapseNoSpacePrefix(w1, u); }
      assert w == [w[0]] + w1;
      Assoc3([w[0]], w1, Collapse(u));
    }
  }

  lemma CollapseWordChar(w: string, u: string)
    requires w != [] && !IsSpace(w[0])
    ensures Collapse(w + u) == [w[0]] + Collapse(w[1..] + u)
  {
    var x := w + u;
    assert x[0] == w[0] && x[1..] == w[1..] + u;
  }

  /** A leading word survives collapsing unchanged. */
  lemma CollapseWord(t: string)
    ensures Collapse(t) == t[..WordLen(t)] + Collapse(t[WordLen(t)..])
  {
    var n := WordLen(t);
    assert t == t[..n] + t[n..];
    CollapseNoSpacePrefix(t[..n], t[n..]);
  }

  /** rstrip only looks at the end: a non-blank tail absorbs it. */
  lemma {:induction false} TrimRightAppend(a: string, b: string)
    requires !AllSpace(b)
    ensures TrimRight(a + b) == a + TrimRight(b)
    decreases |b|
  {
    var ab := a + b;
    assert b != [];
    if IsSpace(b[|b| - 1]) {
      var b' := b[..|b| - 1];
      assert !AllSpace(b') by {
        var i :| 0 <= i < |b| && !IsSpace(b[i]);
        assert i < |b| - 1 && b'[i] == b[i];
      }
      assert ab[..|ab| - 1] == a + b';
      TrimRightAppend(a, b');
    }
  }

  /** rstrip drops one trailing space. */
  lemma TrimRightSpace(w: string)
    ensures TrimRight(w + " ") == TrimRight(w)
  {
    var x := w + " ";
    assert |x| > 0 && x[|x| - 1] == ' ';
    assert IsSpace(' ');
    assert x[..|x| - 1] == w;
  }

  /** A word is its own strip, with or without one trailing space. */
  lemma StripWord(w: string)
    requires IsWord(w)
    ensures Strip(w) == w && Strip(w + " ") == w
  {
    assert !IsSpace(w[0]) && !IsSpace(w[|w| - 1]);
    assert TrimLeft(w) == w && TrimRight(w) == w;
    var x := w + " ";
    assert x[0] == w[0];
    assert TrimLeft(x) == x;
    TrimRightSpace(w);
  }

  /** A word followed only by whitespace splits into that word alone. */
  lemma WordsWordThenBlank(t: string)
    requires t != [] && !IsSpace(t[0]) && AllSpace(t[WordLen(t)..])
    ensures Words(t) == [t[..WordLen(t)]]
  {
    var n := WordLen(t);
    var u := t[n..];
    assert TrimLeft(t) == t;
    assert TrimLeft(u) == [] by { assert Strip(u) == []; }
  }

  /** ... and normalizes to that word alone. */
  lemma StripCollapseWordThenBlank(t: string)
    requires t != [] && !IsSpace(t[0]) && AllSpace(t[WordLen(t)..])
    ensures Strip(Collapse(t)) == t[..WordLen(t)]
  {
    var n := WordLen(t);
    var w, u := t[..n], t[n..];
    CollapseWord(t);
    assert w[0] == t[0];
    StripWord(w);
    if u == [] {
      assert Collapse(t) == w + [];
      assert w + [] == w;
    } else {
      CollapseBlank(u);
    }
  }

  /** Stripping `w + " " + c` for a word w and a text c that starts with a word. */
  lemma StripWordSpaceText(w: string, c: string)
    requires w != [] && !IsSpace(w[0])
    requires c != [] && !IsSpace(c[0])
    ensures Strip(w + " " + c) == w + " " + Strip(c)
  {
    var x := w + " " + c;
    assert x[0] == w[0];
    assert TrimLeft(x) == x;
    assert TrimLeft(c) == c;
    assert !AllSpace(c);
    assert x == (w + " ") + c;
    TrimRightAppend(w + " ", c);
  }

  /** `' '.join(s.split()) == re.sub(r'\s+', ' ', s).strip()` for every string. */
  lemma {:induction false} JoinWordsIsStripCollapse(s: string)
    ensures JoinWith(Words(s), " ") == Strip(Collapse(s))
    decreases |s|, 1
  {
    var t := TrimLeft(s);
    if s != [] && IsSpace(s[0]) {
      assert Collapse(s) == " " + Collapse(t);
      StripDropsLeadingSpace(Collapse(t));
    } else {
      TrimLeftNoLeadingSpace(s);
    }
    assert Words(s) == Words(t) by {
      TrimLeftNoLeadingSpace(t);
    }
    if t != [] {
      JoinWordsOfWord(t);
    }
  }

  lemma {:induction false} JoinWordsOfWord(t: string)
    requires t != [] && !IsSpace(t[0])
    ensures JoinWith(Words(t), " ") == Strip(Collapse(t))
    decreases |t|, 0
  {
    var n := WordLen(t);
    var w, u := t[..n], t[n..];
    if AllSpace(u) {
      WordsWordThenBlank(t);
      StripCollapseWordThenBlank(t);
    } else {
      var v := TrimLeft(u);
      WordThenMore(t);
      JoinWordsIsStripCollapse(v);
      JoinCons(w, Words(v), " ");
      assert w[0] == t[0];
      StripWordSpaceText(w, Collapse(v));
    }
  }

  /** A word, whitespace, then more words: the first word is split off and the
      whitespace collapses to one space. */
  lemma WordThenMore(t: string)
    requires t != [] && !IsSpace(t[0]) && !AllSpace(t[WordLen(t)..])
    ensures var n := WordLen(t); var v := TrimLeft(t[n..]);
      && Words(t) == [t[..n]] + Words(v) && Words(v) != []
      && Collapse(t) == t[..n] + " " + Collapse(v)
      && v != [] && !IsSpace(v[0])
  {
    WordsThenMore(t);
    assert WordLen(t) < |t|;
    CollapseThenMore(t);
  }

  lemma WordsThenMore(t: string)
    requires t != [] && !IsSpace(t[0]) && !AllSpace(t[WordLen(t)..])
    ensures var n := WordLen(t); var v := TrimLeft(t[n..]);
      && Words(t) == [t[..n]] + Words(v) && Words(v) != []
      && v != [] && !IsSpace(v[0])
  {
    var n := WordLen(t);
    var u := t[n..];
    var v := TrimLeft(u);
    assert TrimLeft(t) == t;
    assert Words(t) == [t[..n]] + Words(u);
    assert v != [] by { assert Strip(u) != []; }
    assert TrimLeft(v) == v;
    assert Words(u) == Words(v);
  }

  lemma CollapseThenMore(t: string)
    requires WordLen(t) < |t|
    ensures var n := WordLen(t);
      Collapse(t) == t[..n] + " " + Collapse(TrimLeft(t[n..]))
  {
    var n := WordLen(t);
    var w, u := t[..n], t[n..];
    var c := Collapse(TrimLeft(u));
    var cu := Collapse(u);
    var ct := Collapse(t);
    assert cu == " " + c by { CollapseLeadingBlank(u); }
    assert ct == w + cu by { CollapseWord(t); }
    Assoc3(w, " ", c);
  }

  lemma Assoc3(a: string, b: string, c: string)
    ensures a + (b + c) == a + b + c
  {
  }

  lemma CollapseLeadingBlank(u: string)
    requires u != [] && IsSpace(u[0])
    ensures Collapse(u) == " " + Collapse(TrimLeft(u))
  {
  }
}

=== FILE: whitespace.dfy ===
/** Whitespace handling shared by every text cleaner of the system: Python's
    `str.strip()`, `re.sub(r'\s+', ' ', s)`, `str.split()` with no argument
    and `' '.join(...)`. All of them use the same notion of whitespace. */
module Whitespace {

  /** Python's `str.isspace()` for one character, which is also the class `\s` of a
      `str` regular expression and the separator set of `str.split()` and
      `str.strip()`. The ASCII ranges are checked first and the rest of Unicode's
      whitespace in a second step, so that the solver looks at it only on demand. */
  predicate IsSpace(c: char) {
    SpaceFrom(c, 0)
  }

  predicate SpaceFrom(c: char, step: nat)
    decreases 2 - step
  {
    var n := c as int;
    if step == 0 then (9 <= n <= 13) || (28 <= n <= 32) || SpaceFrom(c, 1)
    else if step == 1 then
      || n == 0x85 || n == 0xA0 || n == 0x1680 || (0x2000 <= n <= 0x200A)
      || n == 0x2028 || n == 0x2029 || n == 0x202F || n == 0x205F || n == 0x3000
    else false
  }

  predicate AllSpace(s: string) {
    forall i | 0 <= i < |s| :: IsSpace(s[i])
  }

  predicate NoSpace(s: string) {
    forall i | 0 <= i < |s| :: !IsSpace(s[i])
  }

  /** Every whitespace character is a plain space and no two are adjacent:
      what `re.sub(r'\s+', ' ', s)` leaves behind. */
  predicate SingleSpaced(s: string) {
    && (forall i | 0 <= i < |s| && IsSpace(s[i]) :: s[i] == ' ')
    && (forall i, j | 0 <= i < |s| && j == i + 1 && j < |s| :: !(IsSpace(s[i]) && IsSpace(s[j])))
  }

  /** Single-spaced with no whitespace at either end. */
  predicate Normalized(s: string) {
    SingleSpaced(s) && (s == [] || (!IsSpace(s[0]) && !IsSpace(s[|s| - 1])))
  }

  /** `s.lstrip()` */
  function TrimLeft(s: string): (r: string)
    ensures |r| <= |s| && r == s[|s| - |r|..]
    ensures AllSpace(s[..|s| - |r|])
    ensures r != [] ==> !IsSpace(r[0])
    decreases |s|
  {
    if |s| > 0 && IsSpace(s[0]) then
      var r := TrimLeft(s[1..]);
      assert s[..|s| - |r|] == [s[0]] + s[1..][..|s| - 1 - |r|];
      r
    else s
  }

  /** `s.rstrip()` */
  function TrimRight(s: string): (r: string)
    ensures |r| <= |s| && r == s[..|r|]
    ensures AllSpace(s[|r|..])
    ensures r != [] ==> !IsSpace(r[|r| - 1])
    decreases |s|
  {
    if |s| > 0 && IsSpace(s[|s| - 1]) then
      var r := TrimRight(s[..|s| - 1]);
      assert s[|r|..] == s[..|s| - 1][|r|..] + [s[|s| - 1]];
      r
    else s
  }

  /** `s.strip()`: the text between the first and the last non-whitespace
      character; empty exactly when s is all whitespace. */
  function Strip(s: string): (r: string)
    ensures |r| <= |s|
    ensures r == [] || (!IsSpace(r[0]) && !IsSpace(r[|r| - 1]))
    ensures r == [] <==> AllSpace(s)
  {
    var l := TrimLeft(s);
    var r := TrimRight(l);
    StripEmptyIffAllSpace(s, l, r);
    r
  }

  lemma StripEmptyIffAllSpace(s: string, l: string, r: string)
    requires l == TrimLeft(s) && r == TrimRight(l)
    ensures r == [] <==> AllSpace(s)
  {
    var k := |s| - |l|;
    assert AllSpace(s[..k]);
    if r == [] {
      assert AllSpace(l);
      forall i | 0 <= i < |s| ensures IsSpace(s[i]) {
        if i < k { assert s[i] == s[..k][i]; } else { assert s[i] == l[i - k]; }
      }
    }
  }

  /** `re.sub(r'\s+', ' ', s)`: every maximal run of whitespace becomes one space. */
  function Collapse(s: string): (r: string)
    ensures |r| <= |s|
    ensures r == [] <==> s == []
    ensures r != [] ==> (IsSpace(r[0]) <==> IsSpace(s[0]))
    ensures r != [] ==> (IsSpace(r[|r| - 1]) <==> IsSpace(s[|s| - 1]))
    decreases |s|
  {
    if s == [] then []
    else if IsSpace(s[0]) then [' '] + Collapse(TrimLeft(s))
    else [s[0]] + Collapse(s[1..])
  }

  /** What collapsing leaves behind: whitespace only as single plain spaces. */
  lemma {:induction false} CollapseSingleSpaced(s: string)
    ensures SingleSpaced(Collapse(s))
    decreases |s|
  {
    if s != [] {
      if IsSpace(s[0]) {
        var t := TrimLeft(s);
        CollapseSingleSpaced(t);
        SingleSpacedCons(' ', Collapse(t));
      } else {
        CollapseSingleSpaced(s[1..]);
        SingleSpacedCons(s[0], Collapse(s[1..]));
      }
    }
  }

  /** Putting a character in front of a single-spaced text keeps it single-spaced
      unless two whitespace characters meet. */
  lemma SingleSpacedCons(x: char, c: string)
    requires SingleSpaced(c)
    requires IsSpace(x) ==> x == ' ' && (c == [] || !IsSpace(c[0]))
    ensures SingleSpaced([x] + c)
  {
    var r := [x] + c;
    forall i | 0 < i < |r| ensures r[i] == c[i - 1] { }
  }

  /** Collapsing introduces no character other than the space. */
  lemma {:induction false} CollapseKeepsOut(s: string, x: char)
    requires x !in s && x != ' '
    ensures x !in Collapse(s)
    decreases |s|
  {
    if s != [] {
      if IsSpace(s[0]) {
        var t := TrimLeft(s);
        assert x !in t;
        CollapseKeepsOut(t, x);
      } else {
        assert x !in s[1..];
        CollapseKeepsOut(s[1..], x);
      }
    }
  }

  /** Collapsing leaves only whitespace exactly when there was only whitespace. */
  lemma CollapseAllSpace(s: string)
    ensures AllSpace(Collapse(s)) <==> AllSpace(s)
  {
    if AllSpace(s) {
      if s != [] { CollapseBlank(s); }
    } else {
      var i :| 0 <= i < |s| && !IsSpace(s[i]);
      CollapseKeepsIn(s, s[i]);
    }
  }

  /** A whitespace-only text collapses to one space. */
  lemma CollapseBlank(u: string)
    requires u != [] && AllSpace(u)
    ensures Collapse(u) == " "
  {
    assert IsSpace(u[0]);
    assert TrimLeft(u) == [] by { assert Strip(u) == []; }
  }

  /** Collapsing keeps every character that is not whitespace. */
  lemma {:induction false} CollapseKeepsIn(s: string, x: char)
    requires x in s && !IsSpace(x)
    ensures x in Collapse(s)
    decreases |s|
  {
    if s[0] == x {
      assert Collapse(s)[0] == x;
    } else if IsSpace(s[0]) {
      var t := TrimLeft(s);
      var k := |s| - |t|;
      var i :| 0 <= i < |s| && s[i] == x;
      assert i >= k;
      assert t[i - k] == x;
      CollapseKeepsIn(t, x);
      assert Collapse(s) == [' '] + Collapse(t);
    } else {
      assert x in s[1..];
      CollapseKeepsIn(s[1..], x);
      assert Collapse(s) == [s[0]] + Collapse(s[1..]);
    }
  }

  lemma SingleSpacedSlice(s: string, a: nat, b: nat)
    requires SingleSpaced(s) && a <= b <= |s|
    ensures SingleSpaced(s[a..b])
  {
    var t := s[a..b];
    forall i, j | 0 <= i && j == i + 1 && j < |t|
      ensures !(IsSpace(t[i]) && IsSpace(t[j]))
    {
      assert t[i] == s[a + i] && t[j] == s[a + j];
    }
  }

  /** Stripping a single-spaced text leaves it normalized. */
  lemma StripSingleSpaced(s: string)
    requires SingleSpaced(s)
    ensures Normalized(Strip(s))
  {
    var l := TrimLeft(s);
    SingleSpacedSlice(s, |s| - |l|, |s|);
    var r := TrimRight(l);
    SingleSpacedSlice(l, 0, |r|);
  }

  /** A normalized text is left unchanged by collapsing and by stripping. */
  lemma {:induction false} CollapseFixesSingleSpaced(s: string)
    requires SingleSpaced(s)
    ensures Collapse(s) == s
    decreases |s|
  {
    if s != [] {
      var t := s[1..];
      var ct := Collapse(t);
      assert ct == t by {
        SingleSpacedSlice(s, 1, |s|);
        CollapseFixesSingleSpaced(t);
      }
      CollapseHead(s);
      assert s == [s[0]] + t;
    }
  }

  /** On a single-spaced text, collapsing keeps the first character and moves on. */
  lemma CollapseHead(s: string)
    requires SingleSpaced(s) && s != []
    ensures Collapse(s) == [s[0]] + Collapse(s[1..])
  {
    if IsSpace(s[0]) {
      LeadingSpaceOfSingleSpaced(s);
    }
  }

  lemma LeadingSpaceOfSingleSpaced(s: string)
    requires SingleSpaced(s) && s != [] && IsSpace(s[0])
    ensures s[0] == ' ' && TrimLeft(s) == s[1..]
  {
    var t := s[1..];
    if t != [] {
      assert s[1] == t[0];
    }
    assert TrimLeft(t) == t;
  }

  lemma StripFixesNormalized(s: string)
    requires Normalized(s)
    ensures Strip(s) == s
  {
  }

  /** Stripping only removes characters. */
  lemma StripKeepsOut(s: string, x: char)
    requires x !in s
    ensures x !in Strip(s)
  {
    var l := TrimLeft(s);
    assert l == s[|s| - |l|..];
    assert x !in l;
    var r := TrimRight(l);
    assert r == l[..|r|];
  }

  /** Strip is idempotent. */
  lemma StripStrip(s: string)
    ensures Strip(Strip(s)) == Strip(s)
  {
    var r := Strip(s);
    if r != [] {
      assert TrimLeft(r) == r;
      assert TrimRight(r) == r;
    }
  }

  /** Non-empty, with no whitespace at either end: what `strip()` leaves of a
      text that is not all whitespace. */
  predicate Trimmed(p: string) {
    p != [] && !IsSpace(p[0]) && !IsSpace(p[|p| - 1])
  }

  predicate AllTrimmed(ps: seq<string>) {
    forall k | 0 <= k < |ps| :: Trimmed(ps[k])
  }

  lemma TrimmedStrip(p: string)
    requires Trimmed(p)
    ensures Strip(p) == p
  {
    assert TrimLeft(p) == p;
    assert TrimRight(p) == p;
  }

  /** Joining trimmed texts with a space gives a trimmed text. */
  lemma {:induction false} JoinTrimmed(ps: seq<string>)
    requires ps != [] && AllTrimmed(ps)
    ensures Trimmed(JoinWith(ps, " "))
    decreases |ps|
  {
    if |ps| > 1 {
      var rest := ps[1..];
      assert AllTrimmed(rest) by {
        forall k | 0 <= k < |rest| ensures Trimmed(rest[k]) { assert rest[k] == ps[k + 1]; }
      }
      JoinTrimmed(rest);
      var j := JoinWith(rest, " ");
      var r := ps[0] + " " + j;
      assert JoinWith(ps, " ") == r;
      assert r[0] == ps[0][0];
      assert r[|r| - 1] == j[|j| - 1];
    }
  }

  /** Python `sep.join(parts)` for any separator. */
  function JoinWith(parts: seq<string>, sep: string): string
  {
    if |parts| == 0 then "" else if |parts| == 1 then parts[0] else parts[0] + sep + JoinWith(parts[1..], sep)
  }

  /** `sep.join([a] + rest) == a + sep + sep.join(rest)` for non-empty rest. */
  lemma JoinCons(a: string, rest: seq<string>, sep: string)
    requires rest != []
    ensures JoinWith([a] + rest, sep) == a + sep + JoinWith(rest, sep)
  {
    assert ([a] + rest)[1..] == rest;
  }

  /** Joining two non-empty lists is joining each and putting sep between. */
  lemma {:induction false} JoinAppend(a: seq<string>, b: seq<string>, sep: string)
    requires a != [] && b != []
    ensures JoinWith(a + b, sep) == JoinWith(a, sep) + sep + JoinWith(b, sep)
    decreases |a|
  {
    if |a| == 1 {
      assert a + b == [a[0]] + b;
      JoinCons(a[0], b, sep);
    } else {
      var t := a[1..];
      assert a + b == [a[0]] + (t + b);
      JoinCons(a[0], t + b, sep);
      JoinAppend(t, b, sep);
      assert a == [a[0]] + t;
      JoinCons(a[0], t, sep);
    }
  }

  /** A non-empty run of non-whitespace characters. */
  predicate IsWord(w: string) {
    w != [] && NoSpace(w)
  }

  /** Length of the leading run of non-whitespace characters. */
  function WordLen(s: string): (n: nat)
    ensures n <= |s|
    ensures NoSpace(s[..n])
    ensures n < |s| ==> IsSpace(s[n])
    ensures n == 0 <==> s == [] || IsSpace(s[0])
    decreases |s|
  {
    if |s| == 0 || IsSpace(s[0]) then 0
    else
      var n := 1 + WordLen(s[1..]);
      assert s[..n] == [s[0]] + s[1..][..n - 1];
      n
  }

  /** Python `s.split()`: the maximal runs of non-whitespace characters, in order. */
  function Words(s: string): (ws: seq<string>)
    ensures forall k | 0 <= k < |ws| :: IsWord(ws[k])
    decreases |s|
  {
    var t := TrimLeft(s);
    if t == [] then []
    else
      var n := WordLen(t);
      var w := t[..n];
      assert IsWord(w);
      var rest := Words(t[n..]);
      ConsWords(w, rest);
      [w] + rest
  }

  lemma ConsWords(w: string, rest: seq<string>)
    requires IsWord(w) && forall k | 0 <= k < |rest| :: IsWord(rest[k])
    ensures forall k | 0 <= k < |[w] + rest| :: IsWord(([w] + rest)[k])
  {
    var ws := [w] + rest;
    forall k | 0 <= k < |ws| ensures IsWord(ws[k]) {
      if k > 0 { assert ws[k] == rest[k - 1]; }
    }
  }
}

=== FILE: wrappers.dfy ===
/** Optional values and results with an error, for the source's `dict.get`
    defaults and the exceptions it raises. */
module Wrappers {

  datatype Option<+T> = None | Some(value: T) {

    /** `d.get(key, default)`: the stored value, or the default when absent. */
    function GetOr(default: T): T {
      match this
      case Some(v) => v
      case None => default
    }
  }

  datatype Result<+T, +E> = Success(value: T) | Failure(error: E)
}
